=== FILE: README.md ===
# Viper IDE: the decisions behind the language server and the extension

This project models the deciding parts of the Viper IDE for Visual Studio Code. The IDE has two halves.

The **language server** does four things:

- It keeps one verification task for each open Viper file.
- It decides whether a verification request may start.
- It checks the user's settings and selects a verification backend. It decides whether that backend has to be restarted after a settings change.
- It supervises the Nailgun server, the Java process that runs the backend.

The **extension** (the client) builds the progress bar of its status bar. It also decides when to ask the server for a verification, and whether that request counts as manual or automatic.

The model has one Dafny module for each source file. There are also two helper modules: `Wrappers` holds `Option`, and `Strings` holds the JavaScript string functions the source relies on (`indexOf`, `toLowerCase`, `trim`, number formatting).

| module | source | form |
|---|---|---|
| `Settings`, `SettingsChecks` | server/src/Settings.ts | Pure functions on backend and stage records. The static state (`settings`, `selectedBackend`, `_errors`) is the class `SettingsState`, and the checks that rewrite it are methods. Each loop of the source is a method proved against a function. |
| `Version` | server/src/Settings.ts (class `Version`) | The settings-version hash works on JavaScript strings as UTF-16 code units. `encrypt` and `decrypt` are loops proved against functions. Version comparison is a function. |
| `Nailgun` | client/server/NailgunService.js | The class `NailgunService`: its fields change through `setReady`, `setStopping`, `setStopped` and the start, stop and timeout handlers. Process output, probe replies and the `java -version` output are parameters. The notifications sent to the client are recorded in order. |
| `Server` | server/src/server.ts | The class `ServerState`: the map of verification tasks, the selected backend, the workspace and the notifications sent. The restart decision, the port retention and the trace walk are functions. The trace loop is a method proved against the walk. |
| `Extension` | client/src/extension.ts | The class `Client` holds the `manuallyTriggered` flag. `progressBarText` is a method with its two loops. |

Settings are records. A string setting that is missing (`undefined` or `null`) is the empty string. A number or flag that is missing is `None`.

## Model

| member | source | states |
|---|---|---|
| Settings.GetStage | server/src/Settings.ts:37-44 | The result is none exactly when the name is empty or no stage has it. Otherwise it is the first stage of that name. |
| Settings.GetStageFromSuccess | server/src/Settings.ts:46-58 | An outcome without a follow-up field, or whose follow-up name is empty, gives no stage. A stage found is the first of the backend's stages with the name the matching `on…` field gives. A follow-up name that some stage has is always found. |
| Settings.StageEquals | server/src/Settings.ts:97-107 | Two stages are equal exactly when all eight fields agree. |
| Settings.NailgunEquals | server/src/Settings.ts:109-115 | Two nailgun settings are equal exactly when client, port, server jar and timeout agree. |
| Settings.ResolveEngine | server/src/Settings.ts:79-85 | The engine is kept as written when it is "viperserver" or "nailgun" in any case (or already "none"). Anything else becomes "none". Resolving never changes which of the two engines a name asks for. |
| Settings.ResolveEngineIdempotent | server/src/Settings.ts:79-85 | Resolving an engine a second time changes nothing. |
| Settings.EngineChoice | server/src/Settings.ts:87-95 | No backend uses both the Nailgun server and ViperServer. Resolving the engine keeps the engine a backend uses. |
| Settings.BackendEquals | server/src/Settings.ts:60-77 | The folded `same` is false when either backend is missing. Otherwise it is true exactly when name, type, timeout, resolved engine, all stages and all paths agree. |
| Settings.SameBackendReflexive | server/src/Settings.ts:60-77 | Every backend equals itself. It also equals a copy whose unknown engine name is replaced by another unknown one. |
| Settings.SameBackendSymmetricTransitive | server/src/Settings.ts:60-77 | Backend equality is symmetric and transitive. |
| Settings.JarNameIsJar | server/src/Settings.ts:640-642 | A file name whose last characters other than white space are ".jar" is a jar, whatever white space surrounds it. |
| Settings.JarOnlyIfJarName | server/src/Settings.ts:640-642 | Conversely, every jar name ends with ".jar" followed only by white space. |
| Settings.NormalizeTimeout | server/src/Settings.ts:257-259 | A kept timeout is the given one and positive. A positive timeout is always kept. |
| Settings.GetBackendNames | server/src/Settings.ts:158-164 | The names of the backends, one for each, in order. |
| Settings.MergeStages | server/src/Settings.ts:429-441 | The loop over the default stages computes the merge the lemmas below describe. |
| Settings.MergedStagesKeepCustom | server/src/Settings.ts:429-441 | The custom stages stay in place. Each gains only its unset arguments, main method and verification flag. Only default stages are appended. |
| Settings.MergedStagesAbsorbAll | server/src/Settings.ts:429-441 | For every default stage, the first merged stage of its name has taken over all that the default could give. |
| Settings.MergeAbsorbedUnchanged | server/src/Settings.ts:429-441 | Merging defaults that are already absorbed changes nothing. |
| Settings.MergeStagesIdempotent | server/src/Settings.ts:429-441 | Merging the same default stages twice gives what merging them once gives. |
| Settings.MergeBackend | server/src/Settings.ts:419-427 | A default with another name changes nothing. A default with the same name fills only missing paths, a missing or zero timeout, a missing engine and a missing type, and merges the stages. |
| Settings.MergeBackendIdempotent | server/src/Settings.ts:419-427 | Merging a backend twice with the same default gives what merging it once gives. |
| Settings.ExtractEnvVars | server/src/Settings.ts:644-664 | A path of at most two characters is kept as it is and counts as existing. A longer path gets the resolution `ResolveVars` describes, splicing at the '%' (see Findings). A resolved path holds no '%'. |
| Settings.ResolveVarsFacts | server/src/Settings.ts:644-664 | A resolved path holds no '%'. A path exists exactly when no error is reported. A path without '%' is kept as it is. |
| Settings.SpliceVarCount | server/src/Settings.ts:646-661 | Each round of the loop removes at least two '%' characters, so the loop ends. |
| Settings.ResolveOneVariable | server/src/Settings.ts:644-664 | `a%NAME%b`, with `a` and `b` free of '%' and `NAME` set to a value without '%', resolves to `a`, then the value, then `b`. |
| Settings.AsWrittenDropsCharacter | server/src/Settings.ts:660 | As written, resolving "ab%X%" with X set to "v" gives "av": the 'b' is lost. Splicing at the '%' gives "abv". |
| SettingsChecks.SettingsState.constructor | server/src/Settings.ts:21-29 | The state starts with the given settings, no selected backend and no errors. |
| SettingsChecks.SettingsState.SelectBackend | server/src/Settings.ts:138-156 | A non-empty requested name is remembered first. Nothing is selected exactly when there are no backends, and then the name is forgotten. Otherwise the first backend of the remembered name is selected, or the first backend when there is none. The remembered name becomes that backend's name. |
| SettingsChecks.SelectedIndex | server/src/Settings.ts:146-155 | The selected position is a backend. It carries the wanted name whenever some backend has that name. |
| SettingsChecks.SelectionStable | server/src/Settings.ts:138-156 | Selecting again by the name just selected picks the same backend. |
| SettingsChecks.SettingsState.AddError | server/src/Settings.ts:264-266 | One error entry with the message is appended. Nothing else changes. |
| SettingsChecks.SettingsState.AddWarning | server/src/Settings.ts:270-272 | One warning entry with the message is appended. Nothing else changes. |
| SettingsChecks.SettingsState.AddProblems | server/src/Settings.ts:264-272 | The entries for the problems are appended in order, each as an error or a warning by its kind. |
| SettingsChecks.ReportsNoErrors | server/src/Settings.ts:264-272 | The appended entries hold no error exactly when none of the problems is an error. |
| SettingsChecks.PortProblems | server/src/Settings.ts:234-246 | At most one problem is reported about the port. None is reported exactly when the port is "*" or a run of digits whose value lies in 1024-65535. |
| SettingsChecks.NumericPortRule | server/src/Settings.ts:234-246 | A port written as a number is accepted exactly when it lies in 1024-65535. Otherwise the range message is reported. |
| SettingsChecks.NonNumericPortRejected | server/src/Settings.ts:235-236 | A port other than "*" that holds a character other than a digit is reported with its text. |
| SettingsChecks.CheckNailgun | server/src/Settings.ts:233-250 | The checks run in order: port syntax, then port range, then the server jar. |
| SettingsChecks.NailgunNoErrors | server/src/Settings.ts:233-250 | The nailgun check reports no error exactly when the port is accepted and a server jar is given. |
| SettingsChecks.SettingsState.CheckNailgunSettings | server/src/Settings.ts:233-261 | The nailgun problems are appended. A missing or non-positive timeout becomes none. Nothing else changes. |
| SettingsChecks.FixedName | server/src/Settings.ts:519-522 | A backend's name after the check is never empty. A given name is kept. |
| SettingsChecks.CheckedBackendFacts | server/src/Settings.ts:516-611 | The check keeps stages, paths and type, and gives every backend a non-empty name. A backend with stages gets a resolved engine of the same kind, and a positive timeout or none. |
| SettingsChecks.CheckedBackendIdempotent | server/src/Settings.ts:516-611 | Checking a checked backend again at the same position changes nothing. |
| SettingsChecks.CheckedList | server/src/Settings.ts:516-611 | The checked list has one backend for each, each checked at its own position. |
| SettingsChecks.CheckBackendsAccepts | server/src/Settings.ts:509-617 | `checkBackends` reports no error exactly when all of these hold: there is a backend; every backend has stages, paths, a supported type for ViperServer, named stages with a main method and arguments, consistent `--ideMode` flags, distinct stage names and follow-ups that name a stage; and the backend names end up distinct. |
| SettingsChecks.DanglingTargetReported | server/src/Settings.ts:592-601 | A follow-up of any kind that names no stage of its backend is reported with that stage and that name. |
| SettingsChecks.DuplicateBackendReported | server/src/Settings.ts:523-525 | A backend whose name, after unnamed backends are named, repeats an earlier one is reported. |
| SettingsChecks.SettingsState.CheckBackends | server/src/Settings.ts:509-617 | All problems of the backends are appended in the source's order. Each backend is replaced by its checked form. The nailgun settings and the other fields stay as they were. |
| SettingsChecks.CheckBackendList | server/src/Settings.ts:516-615 | The backend loop leaves the checked list and reports the concatenated problems of each backend. |
| SettingsChecks.CheckBackend | server/src/Settings.ts:517-614 | One backend: its checked form and its problems in order. Those are naming, duplicate, stages, type, stage checks, follow-ups, paths and a negative timeout. |
| SettingsChecks.CheckStagedBackend | server/src/Settings.ts:534-614 | A backend with stages reports its type, stage, follow-up, path and negative-timeout problems, in that order. |
| SettingsChecks.CheckStages | server/src/Settings.ts:539-574 | The first stage loop reports the problems of each stage given the names seen before it. It collects the names of the named stages. |
| SettingsChecks.CheckStage | server/src/Settings.ts:540-573 | One stage reports, in order: a missing name (and nothing else), a duplicate name, a missing main method, missing arguments (and then nothing else), then the three `--ideMode` rules. |
| SettingsChecks.CheckTargets | server/src/Settings.ts:575-585 | The second stage loop reports, in stage order, every follow-up that names no stage. |
| SettingsChecks.CheckFollowUps | server/src/Settings.ts:576-584 | One stage reports each of its four follow-ups that is set and names no stage, in the source's order. |
| Version.XorInvolution | server/src/Settings.ts:769 | XOR with the same key character twice gives the character back. |
| Version.XorNarrow | server/src/Settings.ts:769 | The XOR of two characters below 256 is below 256. |
| Version.HexValue | server/src/Settings.ts:792 | A character read with `parseInt(c, 16)` has a value below 16, and only when it is that value's hex digit, lower case or, for a letter, upper case. Any other character is NaN. |
| Version.PadNarrow | server/src/Settings.ts:777-780 | `pad` of a number below 256 is two hex digits that read back as that number. |
| Version.Encrypt | server/src/Settings.ts:761-775 | The loop builds `Encrypted`: each character XOR the key as `pad` gives it (two hex digits for code units below 256, more above), then the parity of the cipher bytes. |
| Version.Hash | server/src/Settings.ts:816-820 | The hash is the encryption with the fixed key. For a string below 256 it has 2n+2 characters and decrypts back to the string. |
| Version.Decrypt | server/src/Settings.ts:782-803 | The loop gives "" for input that is shorter than 2, of odd length, holds a character other than a hex digit, or has a wrong parity byte. Otherwise it gives the decoded characters. |
| Version.EncryptedShape | server/src/Settings.ts:761-780 | The hash of a string below 256 spells its cipher bytes and then their parity, two hex digits each. |
| Version.DecryptEncrypt | server/src/Settings.ts:761-803 | Round trip: the hash of a string below 256 has length 2n+2 and decrypts back to the string with the same key. |
| Version.TamperedParityRejected | server/src/Settings.ts:797-802 | Replacing the parity byte of a hash by any other byte makes it decrypt to "". |
| Version.Compare | server/src/Settings.ts:823-830 | The answer is always -1, 0 or 1. |
| Version.CompareZeroIffEqual | server/src/Settings.ts:823-830 | The comparison is 0 exactly on equal version lists. |
| Version.CompareAntisymmetric | server/src/Settings.ts:823-830 | Swapping the operands negates the answer. |
| Version.CompareExtension | server/src/Settings.ts:824-829 | A list that extends another compares larger. |
| Version.CompareIsLexicographic | server/src/Settings.ts:823-830 | The answer is -1 exactly when the first list is lexicographically smaller. |
| Nailgun.DigitRunEnd | client/server/NailgunService.js:266 | The end of a run of digits: every character before it is a digit and the one at it is not. |
| Nailgun.FirstMatch | client/server/NailgunService.js:266 | The version pattern's leftmost match: no earlier position matches, and none at all when nothing is found. |
| Nailgun.MatchVersionText | client/server/NailgunService.js:266-269 | A version number `M.m.p` with M ≥ 1 is recognised with its major and minor parts. |
| Nailgun.VersionTextDecides | client/server/NailgunService.js:264-271 | For output that begins with a version number, the JRE is appropriate exactly when its major is above 1, or is 1 with a minor of at least 8. |
| Nailgun.NoVersionNoAnswer | client/server/NailgunService.js:264-278 | Output without any digit gives no answer, which is falsy. |
| Nailgun.ProbeResult | client/server/NailgunService.js:214-231 | Without a process the probe is false at once. Otherwise a probe that answers is true exactly when its stderr starts with "java.lang.ClassNotFoundException:". |
| Nailgun.PollFacts | client/server/NailgunService.js:119-154 | The poll gives up at once when no start is in progress or no retries are left. It makes at most `retriesLeft` probes. Every probe but the last said "not running". The last one decides: confirmed on a true probe, failed after all retries, waiting forever on a probe that never answers. |
| Nailgun.PollWithoutProcess | client/server/NailgunService.js:119-154 | Without a process the poll fails after exactly `retriesLeft` probes. |
| Nailgun.NailgunService.constructor | client/server/NailgunService.js:8-13 | The supervisor starts with no instance, not ready, re-verifying when ready, not starting, and with no process. |
| Nailgun.NailgunService.SetReady | client/server/NailgunService.js:20-25 | Ready and no longer starting. The client is told the backend is ready, with `restarted` equal to the re-verify flag. Nothing else changes. |
| Nailgun.NailgunService.SetStopping | client/server/NailgunService.js:26-30 | Not ready, not starting, and the client is told the state is Stopping. |
| Nailgun.NailgunService.SetStopped | client/server/NailgunService.js:31-36 | Not ready, not starting, and the client is told the state is Stopped. |
| Nailgun.NailgunService.StopNailgunServer | client/server/NailgunService.js:155-174 | The supervisor is not ready before the shutdown runs. If starting the shutdown command throws, the result is false and the handle is kept. Otherwise the handle is dropped, the supervisor ends Stopped and the result is true. |
| Nailgun.NailgunService.IsJreInstalled | client/server/NailgunService.js:232-263 | The JRE counts as installed exactly when some output chunk names an appropriate version. It is 64-bit exactly when some chunk mentions "64". |
| Nailgun.NailgunService.StartOrRestartNailgunServer | client/server/NailgunService.js:48-109 | The re-verify flag is always stored. While a start is in progress nothing else changes. A failed JRE check stops the supervisor without a launch. Otherwise every running verification is told to abort before the JRE check, and after it the running server is stopped and exactly one new instance is launched: the count goes up by one, a timeout is armed with the new count, and the process is set. |
| Nailgun.NailgunService.StartupTimeoutFired | client/server/NailgunService.js:110-118 | The timeout of a superseded instance, or one firing once the server is ready, changes nothing. The timeout of the current instance stops a server that is not ready, and keeps the active backend and the re-verify flag. |
| Nailgun.StaleTimeoutScenario | client/server/NailgunService.js:110-118 | After a second launch, the first instance's timeout leaves the supervisor starting the second instance, and the second instance's timeout stops it. |
| Nailgun.NailgunService.WaitForNailgunToStart | client/server/NailgunService.js:119-154 | The counted retry has the outcome of the poll and makes at most `retriesLeft` probes. It confirms only while a start is in progress. |
| Nailgun.NailgunService.OnServerOutput | client/server/NailgunService.js:77-91 | Output without "started" at an index above 0 changes nothing. Otherwise a poll of at most 20 probes either makes the supervisor ready, reporting the backend that was active with the re-verify flag as it stood, or stops it. The active backend and the flag are kept. |
| Nailgun.NailgunService.TryToStartNailgunServer | client/server/NailgunService.js:204-213 | While ready, starting or holding a process, or with invalid settings, nothing changes. Otherwise running verifications are aborted and a start with re-verification begins exactly when the JRE is appropriate: one new instance, its timeout armed, the process and active backend set, and the Stopping, Stopped (unless the shutdown command throws), backend-change and Starting signals sent. A JRE that is not appropriate only stops the supervisor. |
| Server.Opened | server/src/server.ts:102-119 | A Viper file that is opened gains a fresh task unless it has one. Every other task is kept. |
| Server.Closed | server/src/server.ts:121-138 | A closed file's task is removed. Every other task is kept. |
| Server.OpenThenClose | server/src/server.ts:102-138 | Closing a file just opened without a task gives back the registry as it was. |
| Server.OpenCloseIdempotent | server/src/server.ts:102-138 | Opening twice is opening once and closing twice is closing once. Reopening a closed file gives it a fresh task. |
| Server.ServerState.constructor | server/src/server.ts:102-138 | The server starts with no task, unconfigured, with no backend, no workspace, no executed stages and nothing sent. |
| Server.ServerState.OnDidOpenTextDocument | server/src/server.ts:102-119 | For a Viper file the client is told the file is open and the registry becomes `Opened`. Other files change nothing. |
| Server.ServerState.OnDidCloseTextDocument | server/src/server.ts:121-138 | For a Viper file the client is told the file is closed. The diagnostics of its task are cleared and the registry becomes `Closed`. |
| Server.ServerState.CanVerificationBeStarted | server/src/server.ts:140-152 | A verification can start exactly when the file has a task and the backend is ready. |
| Server.VerifyEffects | server/src/server.ts:140-180 | The file's task is asked to verify exactly when it exists, the backend is ready and the running verifications stopped. "Not started" is sent exactly when the verification does not start. A hint comes only for a manual request while the backend is not ready. |
| Server.ServerState.Verify | server/src/server.ts:154-180 | The handler sends what `VerifyEffects` says. The workspace is recorded only when the verification can start. The executed stages are cleared only when the stop succeeded. The registry of tasks stays as it is. |
| Server.ServerState.RemoveDiagnostics | server/src/server.ts:379-389 | The answer is true exactly when the file has a task. Then that task's diagnostics are cleared and nothing else changes. |
| Server.ResetLastSuccess | server/src/server.ts:417 | Every task forgets its last success and keeps everything else. |
| Server.DecideRestart | server/src/server.ts:411-426 | Restart exactly when: the backend is not ready; or the new backend differs; or there were old settings, the new backend uses Nailgun and the nailgun settings changed; or the tools were updated. Otherwise the backend is kept with the old port. Without old settings the unguarded retention fails. |
| Server.RunningBackendReselectedCrashes | server/src/server.ts:420-422 | As written, re-selecting the running, ready backend with no old settings makes the handler fail (see Findings). |
| Server.GuardedRetentionNeverCrashes | server/src/Settings.ts:215 | With the guard, the decision never fails. Without old settings a kept backend keeps its port. |
| Server.ServerState.CheckSettingsAndRestartBackendIfNeeded | server/src/server.ts:402-434 | Invalid settings stop the Nailgun server. Valid settings select a backend, then restart it (its tasks forget their last success), or keep it with the old port and report it ready without restart, as `DecideRestart` says. |
| Server.RetainWildcardPort | server/src/server.ts:58-63 | A "*" port is replaced by the previous settings' port when there are previous settings. Nothing else changes. |
| Server.ServerState.OnDidChangeConfiguration | server/src/server.ts:55-70 | The new backends and flags replace the old ones. A "*" port keeps the port used before. |
| Server.ServerState.OnStartBackend | server/src/server.ts:72-83 | A notification without a name changes nothing. With a name, the restart check runs without old settings and with the guarded retention of the Findings row. Invalid settings stop the Nailgun server. Valid settings select the first backend of that name, or the first backend, make it the server's backend and follow `DecideRestart`: a restart clears every task's last success and starts Nailgun, otherwise the backend is reported ready without restart. Before the first configuration, or with no backends, nothing is sent. |
| Server.Walk | server/src/server.ts:307-325 | The walk only visits steps at or before the one it starts from. |
| Server.WalkDescends | server/src/server.ts:283-316 | The interesting entries are pushed in non-increasing depth order, none deeper than the starting state. |
| Server.TraceWalk | server/src/server.ts:307-325 | The trace loop pushes exactly the steps `Walk` visits, as interesting entries. |
| Server.ServerState.GetExecutionTrace | server/src/server.ts:276-332 | Without a task or a step for the client state the answer is empty. Otherwise, outside simple mode, the expansion states and the top-level states come first as uninteresting entries, then the walk. The file's task keeps the shown trace when the loop moves past its first step. |
| Extension.BlackCount | client/src/extension.ts:370-372 | The black count is the least count not below a tenth of the progress. |
| Extension.WhiteCount | client/src/extension.ts:373-375 | The white count is the least count that brings 10 minus it to a tenth of the progress or below. |
| Extension.ProgressBarText | client/src/extension.ts:368-377 | The two loops build `Bar(progress)`. |
| Extension.BarShape | client/src/extension.ts:368-377 | All black circles come before all white ones, in the counts above. |
| Extension.BarLength | client/src/extension.ts:368-377 | For progress from 0 to 100 the bar has 10 circles when the progress is a multiple of ten and 11 otherwise. |
| Extension.BarEnds | client/src/extension.ts:368-377 | Progress 0 gives ten white circles and progress 100 gives ten black ones. |
| Extension.WorkspaceOf | client/src/extension.ts:362 | The workspace is the open folder when there is one, else the file's directory. |
| Extension.VerifyEffects | client/src/extension.ts:357-366 | Nothing is sent unless the active document is a Viper source file. A request is sent exactly when a language client exists; otherwise the hint is shown. The request names the document, the flag and the workspace. |
| Extension.Client.constructor | client/src/extension.ts:357-366 | The flag starts false and nothing has been sent. |
| Extension.Client.Verify | client/src/extension.ts:357-366 | What `VerifyEffects` says is sent. The flag does not change. |
| Extension.Client.AutoSave | client/src/extension.ts:98-108 | With an active Viper editor and auto-save on, the flag is cleared and the document saved. Otherwise nothing changes. |
| Extension.Client.VerifyCommand | client/src/extension.ts:301-309 | The flag is set and the document saved. The command verifies directly, as a manual request, only when the save reports nothing saved. |
| Extension.Client.OnDidSaveTextDocument | client/src/extension.ts:275-277 | A save verifies with the flag as it stands. |
| Extension.Client.OnReady | client/src/extension.ts:141-147 | The first Ready state starts an automatic verification only when one is needed and auto-verify after a backend change is on. |
| Extension.AutoSaveThenSaved | client/src/extension.ts:98-277 | An auto-save followed by its save event asks for an automatic verification. |
| Extension.CommandThenSaved | client/src/extension.ts:275-309 | The verify command followed by its save event asks for one manual verification. |

## Left out

- The verification work queue is not part of this model. It lives in `VerificationTask`, which is not among these files. A task's `verify`, `resetDiagnostics` and `resetLastSuccess` are recorded as fields and effects. The `abortVerification` of every task, which `stopAllRunningVerifications` calls, is recorded as the single `AbortAllVerifications` signal of the Nailgun supervisor.
- Processes, streams, timers and Promise chains are left out. Each asynchronous step is one atomic method whose inputs are the replies it would receive: the JRE output, whether the shutdown command throws, the probe replies, and whether stopping the running verifications succeeded.
- Races between handlers are left out, for example the gap between the start guard and `startingOrRestarting = true`, or a task closed while verifications stop.
- Nailgun.NailgunService.WaitForNailgunToStart: the 100 ms pauses between probes are not modelled. A probe that never answers ends the poll with `NoAnswer`, where the source's promise never settles.
- Nailgun.NailgunService.StartOrRestartNailgunServer: the promise of `stopAllRunningVerifications` always resolves, so the rejection path, which only calls `setStopped`, is left out. The command line it builds and `backendJars` are left out (file system).
- Settings.MergeBackend: a custom backend without stages gets the default stages merged into an empty list, where Settings.ts:422 shares the default's own stage list. The two differ only when the default stages repeat a name (the merge folds the repeat into the first), and the sharing itself is not modelled.
- The filesystem and OS parts of Settings.ts are left out: `checkPath`, `resolvePath`, `exists`, `toAbsolute`, the folder scan of `backendJars`, `setNailgunPort` (port finder), the platform switch, `expandCustomArguments` and `expandViperToolsPath`.
- The `checkSettings` pipeline is left out (settings version check, path checks, Viper Tools). Its verdict is the parameter `valid` of the restart check. Two of its effects are not captured. The SettingsChecked notification that `Settings.valid()` (Settings.ts:170-172) sends on every restart check is not recorded. A check that rejects because the Viper Tools are missing (Settings.ts:348-352) neither stops nor restarts anything, which `valid` cannot express.
- `Version.createFromVersion` and `createFromHash` are left out (regular expressions and `parseInt`). Versions are sequences of naturals.
- Version.DecryptEncrypt: the round trip is stated for strings whose code units are below 256, which is what the two-digit encoding holds.
- The Viper Tools update and the Dispose, StopVerification, ShowHeap and RequestBackendNames handlers of server.ts are left out. They are I/O or calls into code these files do not contain.
- server.ts calls `Settings.autoselectBackend` and reads `newBackend.useNailgun`. Neither exists in Settings.ts, which has `selectBackend` and `useNailgunServer`, and whose `initiateBackendRestartIfNeeded` (lines 195-230) uses those two. The model follows Settings.ts for both.
- Server.ServerState.CheckSettingsAndRestartBackendIfNeeded: the Nailgun supervisor is not called from the server model. Starting and stopping it are recorded as `StartNailgun` and `StopNailgun` effects.
- Server.ServerState.OnStartBackend: models the guarded retention of the Findings row. As written, server.ts:78 passes no old settings, so re-selecting the running, ready backend fails at server.ts:422: no ready report is sent and the server's backend is not updated. `RunningBackendReselectedCrashes` states that case.
- Server.ServerState.OnDidChangeConfiguration: the first configuration also passes no old settings and uses the guarded retention. As written it would fail in the same way if a running backend were ready then.
- Server.ServerState.OnDidChangeConfiguration: its contract states the port retention and the new settings. The restart part is stated by `CheckSettingsAndRestartBackendIfNeeded`. The log level and `refreshEndings` are left out.
- Server.ServerState.GetExecutionTrace: `depthLevel`, `isBranch`, the parent link and the expansion and top-level states are given as step fields and parameters. The steps are assumed to be well formed, with each parent before its child, which `Valid()` keeps. A verification task's trace is the same array as the answer, so the model stores the final answer.
- The status bar, message boxes, the settings-file opening, debug launch, the state visualiser and `toFixed` formatting in extension.ts are left out (UI). So is everything in the Ready handler but the first-verification rule.
- Extension.ProgressBarText: progress is a real number. NaN and infinities are not modelled.
- Extension.Client.VerifyCommand and Extension.Client.Verify: with no active editor the source throws when it reads the document. The model does nothing there, after the flag is set.
- `Helper.isViperSourceFile`, the document's `languageId` and `path.dirname` are left out. They are flags and a directory field of `Document`.
- A missing string setting is the empty string. So messages print "" where the source would print "undefined", and an "Empty backend"/"Empty stage" entry (a null array element) cannot occur. For the same reason `StageEquals` and `BackendEquals` treat a missing `name`, `mainMethod` or `on…` field as equal to "", where the `==` of Settings.ts:98-105 tells `undefined` and "" apart.
- client/out/Log.js and client/src/DefinitionProvider.ts are not part of this model (logging I/O and an editor API wrapper).

## Findings

| source | as written | input that shows it | evidently intended | confidence | as-written member | corrected member |
|---|---|---|---|---|---|---|
| server/src/Settings.ts:660 | `path.substring(0, start - 1)` keeps the path only up to the character before the '%', so that character is lost | path "ab%X%" with X set to "v" resolves to "av" | keep everything before the '%': "abv" | not executed | Settings.AsWrittenDropsCharacter | Settings.ResolveOneVariable |
| server/src/server.ts:422 | the port is retained with `oldSettings.nailgunSettings.port` even when `oldSettings` is null (reached once line 408's `Settings.autoselectBackend` and line 413's `useNailgun` are read as Settings.ts's `selectBackend` and `useNailgunServer`, which this model follows) | a StartBackend notification naming the backend that is running and ready (old settings null, nothing changed) makes the handler fail with a TypeError, and no ready report is sent | retain the port only when there are old settings, as Settings.ts:215 does | not executed | Server.RunningBackendReselectedCrashes | Server.GuardedRetentionNeverCrashes |

=== FILE: extension.dfy ===
/**
 * The client side of client/src/extension.ts that decides something: the
 * progress bar of the status bar (`progressBarText`), the `manuallyTriggered`
 * flag written by the autosaver and the verify command and read by the save
 * handler, the `verify` request itself, and the rule that starts the first
 * verification when the backend reports it is ready.
 *
 * The module-level state of the extension is the class `Client`. The active
 * editor's document is a parameter (`None` when no editor is active), and
 * what the client sends or shows is recorded, in order, as `ClientEffect`s.
 */
module Extension {
  import opened Wrappers

  // ------------------------------------------------------------ progress bar

  /** U+26AB MEDIUM BLACK CIRCLE, one per tenth of progress made. */
  const Black: char := '\U{26AB}'

  /** U+26AA MEDIUM WHITE CIRCLE, one per tenth still to go. */
  const White: char := '\U{26AA}'

  function Repeat(c: char, n: nat): (r: string)
    ensures |r| == n
    ensures forall i :: 0 <= i < n ==> r[i] == c
  {
    if n == 0 then [] else Repeat(c, n - 1) + [c]
  }

  /**
   * How often the first loop runs: the number of integers `i >= 0` with
   * `i < x`, that is the least count `r >= 0` with `r >= x`.
   */
  function BlackCount(x: real): (r: nat)
    ensures (r as real) >= x
    ensures r > 0 ==> ((r - 1) as real) < x
  {
    if x <= 0.0 then 0 else -((-x).Floor)
  }

  /**
   * How often the second loop runs: the number of integers `i <= 10` with
   * `i > x`, that is the least count `r >= 0` with `10 - r <= x`.
   */
  function WhiteCount(x: real): (r: nat)
    ensures ((10 - r) as real) <= x
    ensures r > 0 ==> ((10 - r + 1) as real) > x
  {
    if x >= 10.0 then 0 else 10 - x.Floor
  }

  /** The bar for `progress`, which the loops of `progressBarText` build. */
  function Bar(progress: real): string {
    Repeat(Black, BlackCount(progress / 10.0)) + Repeat(White, WhiteCount(progress / 10.0))
  }

  /**
   * `progressBarText`: a black circle for each integer from 0 up to below a
   * tenth of `progress`, then a white circle for each integer from 10 down to
   * above it.
   */
  method ProgressBarText(progress: real) returns (bar: string)
    ensures bar == Bar(progress)
  {
    var x := progress / 10.0;
    bar := "";
    var i := 0;
    while (i as real) < x
      invariant 0 <= i <= BlackCount(x)
      invariant bar == Repeat(Black, i)
      decreases BlackCount(x) - i
    {
      bar := bar + [Black];
      i := i + 1;
    }
    var b := i;
    i := 10;
    while (i as real) > x
      invariant i <= 10 && 10 - i <= WhiteCount(x)
      invariant bar == Repeat(Black, b) + Repeat(White, 10 - i)
      decreases i - (10 - WhiteCount(x))
    {
      bar := bar + [White];
      i := i - 1;
    }
  }

  /** Every black circle comes before every white one, and the two kinds are counted as the loops count them. */
  lemma BarShape(progress: real)
    ensures var bar := Bar(progress);
      var n := BlackCount(progress / 10.0);
      && |bar| == n + WhiteCount(progress / 10.0)
      && (forall i :: 0 <= i < n ==> bar[i] == Black)
      && (forall i :: n <= i < |bar| ==> bar[i] == White)
  {
    var n := BlackCount(progress / 10.0);
    var bar := Bar(progress);
    forall i | n <= i < |bar|
      ensures bar[i] == White
    {
      assert bar[i] == Repeat(White, WhiteCount(progress / 10.0))[i - n];
    }
  }

  /** A tenth of `progress` is a whole number. */
  predicate MultipleOfTen(progress: real) {
    (progress / 10.0).Floor as real == progress / 10.0
  }

  lemma CountsOfWhole(x: real)
    requires 0.0 <= x <= 10.0 && x.Floor as real == x
    ensures BlackCount(x) == x.Floor && WhiteCount(x) == 10 - x.Floor
  {
    if x > 0.0 {
      assert (-x).Floor == -x.Floor by {
        assert (-x.Floor) as real == -x;
      }
    }
  }

  lemma CountsOfFraction(x: real)
    requires 0.0 <= x <= 10.0 && x.Floor as real != x
    ensures BlackCount(x) == x.Floor + 1 && WhiteCount(x) == 10 - x.Floor
  {
    var f := x.Floor;
    assert f as real < x < (f + 1) as real;
    assert (-x).Floor == -(f + 1) by {
      assert (-(f + 1)) as real <= -x < (-(f + 1) + 1) as real;
    }
  }

  /** Between 0 and 100 the bar has 10 circles when the progress is a multiple of ten and 11 otherwise. */
  lemma BarLength(progress: real)
    requires 0.0 <= progress <= 100.0
    ensures |Bar(progress)| == if MultipleOfTen(progress) then 10 else 11
  {
    var x := progress / 10.0;
    if MultipleOfTen(progress) {
      CountsOfWhole(x);
    } else {
      CountsOfFraction(x);
    }
  }

  /** No progress is ten white circles; full progress is ten black ones. */
  lemma BarEnds()
    ensures Bar(0.0) == Repeat(White, 10)
    ensures Bar(100.0) == Repeat(Black, 10)
  {
    CountsOfWhole(0.0);
    CountsOfWhole(10.0);
  }

  // ---------------------------------------------------------- verification

  /**
   * The document of the active editor: its URI, whether it is a Viper source
   * file, whether its language is "viper", and the directory of its file.
   */
  datatype Document = Document(uri: string, isViperSource: bool, isViperLanguage: bool, directory: string)

  /** What the client sends to the server or shows the user. */
  datatype ClientEffect =
    | Save(uri: string)
    | Hint(msg: string)
    | VerifyRequest(uri: string, manuallyTriggered: bool, workspace: string)

  const NotReady: string := "Extension not ready yet."

  /** The workspace a request names: the opened folder when there is one, else the file's directory. */
  function WorkspaceOf(rootPath: string, doc: Document): (w: string)
    ensures rootPath != "" ==> w == rootPath
    ensures rootPath == "" ==> w == doc.directory
  {
    if rootPath != "" then rootPath else doc.directory
  }

  /**
   * What `verify` does: nothing unless the active document is a Viper source
   * file; then a hint while there is no language client, and a request to
   * verify the document otherwise.
   */
  function VerifyEffects(editor: Option<Document>, clientStarted: bool, rootPath: string, manuallyTriggered: bool): (r: seq<ClientEffect>)
    ensures |r| <= 1
    ensures r == [] <==> editor.None? || !editor.value.isViperSource
    ensures forall e :: e in r && e.VerifyRequest? ==>
      clientStarted && e == VerifyRequest(editor.value.uri, manuallyTriggered, WorkspaceOf(rootPath, editor.value))
    ensures forall e :: e in r ==> (e.VerifyRequest? <==> clientStarted)
    ensures forall e :: e in r && !e.VerifyRequest? ==> e == Hint(NotReady)
  {
    if editor.None? || !editor.value.isViperSource then []
    else if !clientStarted then [Hint(NotReady)]
    else [VerifyRequest(editor.value.uri, manuallyTriggered, WorkspaceOf(rootPath, editor.value))]
  }

  class Client {
    var manuallyTriggered: bool
    /** Whether `state.client` is set. */
    var clientStarted: bool
    /** `vscode.workspace.rootPath`, empty when no folder is open. */
    var rootPath: string
    var effects: seq<ClientEffect>

    constructor (clientStarted: bool, rootPath: string)
      ensures !manuallyTriggered && this.clientStarted == clientStarted && this.rootPath == rootPath && effects == []
    {
      manuallyTriggered := false;
      this.clientStarted := clientStarted;
      this.rootPath := rootPath;
      effects := [];
    }

    /** `verify`. */
    method Verify(manuallyTriggered: bool, editor: Option<Document>)
      modifies this
      ensures effects == old(effects) + VerifyEffects(editor, clientStarted, rootPath, manuallyTriggered)
      ensures this.manuallyTriggered == old(this.manuallyTriggered)
      ensures clientStarted == old(clientStarted) && rootPath == old(rootPath)
    {
      if editor.Some? && editor.value.isViperSource {
        if !clientStarted {
          effects := effects + [Hint(NotReady)];
        } else {
          var workspace := if rootPath != "" then rootPath else editor.value.directory;
          effects := effects + [VerifyRequest(editor.value.uri, manuallyTriggered, workspace)];
        }
      }
    }

    /**
     * A tick of the autosaver: with an active Viper editor and `autoSave`
     * switched on, the flag is cleared before the document is saved; otherwise
     * nothing happens.
     */
    method AutoSave(editor: Option<Document>, autoSave: bool)
      modifies this
      ensures editor.Some? && editor.value.isViperLanguage && autoSave ==>
        !manuallyTriggered && effects == old(effects) + [Save(editor.value.uri)]
      ensures !(editor.Some? && editor.value.isViperLanguage && autoSave) ==>
        manuallyTriggered == old(manuallyTriggered) && effects == old(effects)
      ensures clientStarted == old(clientStarted) && rootPath == old(rootPath)
    {
      if editor.Some? && editor.value.isViperLanguage {
        if autoSave {
          manuallyTriggered := false;
          effects := effects + [Save(editor.value.uri)];
        }
      }
    }

    /**
     * The `extension.verify` command: sets the flag and saves the active
     * document; only when the save reports that nothing was saved (`saved`
     * false) does it verify directly, as a manual request.
     */
    method VerifyCommand(editor: Option<Document>, saved: bool)
      modifies this
      ensures editor.None? ==> manuallyTriggered && effects == old(effects)
      ensures editor.Some? ==>
        && manuallyTriggered
        && effects == old(effects) + [Save(editor.value.uri)] + (if saved then [] else VerifyEffects(editor, clientStarted, rootPath, true))
      ensures clientStarted == old(clientStarted) && rootPath == old(rootPath)
    {
      manuallyTriggered := true;
      if editor.None? {
        return;
      }
      effects := effects + [Save(editor.value.uri)];
      if !saved {
        Verify(true, editor);
      }
    }

    /** A document was saved: verify the active document with the flag as it stands. */
    method OnDidSaveTextDocument(editor: Option<Document>)
      modifies this
      ensures effects == old(effects) + VerifyEffects(editor, clientStarted, rootPath, old(manuallyTriggered))
      ensures manuallyTriggered == old(manuallyTriggered)
      ensures clientStarted == old(clientStarted) && rootPath == old(rootPath)
    {
      Verify(manuallyTriggered, editor);
    }

    /**
     * The Ready state: the first time it is reported, the first verification
     * is started automatically when one is needed and
     * `autoVerifyAfterBackendChange` is switched on.
     */
    method OnReady(firstTime: bool, verificationNeeded: bool, autoVerifyAfterBackendChange: bool, editor: Option<Document>)
      modifies this
      ensures effects == old(effects) +
        if firstTime && verificationNeeded && autoVerifyAfterBackendChange then VerifyEffects(editor, clientStarted, rootPath, false) else []
      ensures manuallyTriggered == old(manuallyTriggered)
      ensures clientStarted == old(clientStarted) && rootPath == old(rootPath)
    {
      if firstTime {
        if verificationNeeded && autoVerifyAfterBackendChange {
          Verify(false, editor);
        }
      }
    }
  }

  /** An autosave followed by the save it causes asks for an automatic verification of the document. */
  method AutoSaveThenSaved(c: Client, doc: Document)
    requires doc.isViperSource && doc.isViperLanguage && c.clientStarted
    modifies c
    ensures c.effects == old(c.effects) + [Save(doc.uri), VerifyRequest(doc.uri, false, WorkspaceOf(c.rootPath, doc))]
  {
    c.AutoSave(Some(doc), true);
    c.OnDidSaveTextDocument(Some(doc));
  }

  /** The verify command followed by the save it causes asks for a manual verification, and only once. */
  method CommandThenSaved(c: Client, doc: Document)
    requires doc.isViperSource && c.clientStarted
    modifies c
    ensures c.effects == old(c.effects) + [Save(doc.uri), VerifyRequest(doc.uri, true, WorkspaceOf(c.rootPath, doc))]
  {
    c.VerifyCommand(Some(doc), true);
    c.OnDidSaveTextDocument(Some(doc));
  }
}

=== FILE: nailgun.dfy ===
/**
 * The nailgun backend supervisor of client/server/NailgunService.js.
 *
 * The supervisor is a small state machine over `_ready`, the (static)
 * `startingOrRestarting` guard, `instanceCount` and the handle of the nailgun
 * server process. Child processes, their output streams and timers are not
 * modelled as such: what they deliver (the lines `java -version` prints, the
 * answers of the readiness probe, whether the shutdown command could be
 * started) is passed in, and each Promise chain runs to completion inside one
 * method. Notifications to the language client, and the request that every
 * running verification abort, are appended to `sent`.
 */
module Nailgun {
  import opened Wrappers
  import opened Strings

  /** `maxNumberOfRetries`: the readiness probe runs at most this often per start. */
  const MaxNumberOfRetries: int := 20

  /** `NailgunService.REQUIRED_JAVA_VERSION`. */
  const RequiredJavaVersion: nat := 8

  /** What the probe's stderr starts with when a nailgun server answers. */
  const ClassNotFound: string := "java.lang.ClassNotFoundException:"

  datatype VerificationState = Starting | Stopping | Stopped

  /**
   * What the supervisor sends out: notifications to the client through the
   * server, and `stopAllRunningVerifications`, which tells every running
   * verification task to abort.
   */
  datatype Signal =
    | BackendReady(name: string, restarted: bool)
    | StateChange(newState: VerificationState, backendName: Option<string>)
    | BackendChange(name: string)
    | AbortAllVerifications

  /** How the readiness wait ends: confirmed, given up, or still waiting for a probe that never answered. */
  datatype Readiness = Confirmed | Failed | NoAnswer

  // ------------------------------------------------------------- java version

  /** The end of the run of decimal digits that starts at `i`. */
  function DigitRunEnd(s: string, i: nat): (j: nat)
    requires i <= |s|
    ensures i <= j <= |s|
    ensures forall k :: i <= k < j ==> IsDigit(s[k])
    ensures j == |s| || !IsDigit(s[j])
    decreases |s| - i
  {
    if i < |s| && IsDigit(s[i]) then DigitRunEnd(s, i + 1) else i
  }

  lemma {:induction false} DigitRunEndIs(s: string, i: nat, j: nat)
    requires i <= j <= |s|
    requires forall k :: i <= k < j ==> IsDigit(s[k])
    requires j == |s| || !IsDigit(s[j])
    ensures DigitRunEnd(s, i) == j
    decreases j - i
  {
    if i < j {
      DigitRunEndIs(s, i + 1, j);
    }
  }

  datatype JavaVersion = JavaVersion(major: nat, minor: nat)

  /**
   * The regular expression `([1-9]\d*)\.(\d+)\.(\d+)` tried at position `p`:
   * the major and minor numbers when it matches there. Both digit groups are
   * followed by a dot, so backtracking never shortens them.
   */
  function MatchAt(s: string, p: nat): Option<JavaVersion>
    requires p <= |s|
  {
    if p < |s| && '1' <= s[p] <= '9' then
      var e1 := DigitRunEnd(s, p + 1);
      if e1 < |s| && s[e1] == '.' then
        var e2 := DigitRunEnd(s, e1 + 1);
        if e1 + 1 < e2 < |s| && s[e2] == '.' && e2 + 1 < |s| && IsDigit(s[e2 + 1]) then
          Some(JavaVersion(DigitsValue(s[p..e1]), DigitsValue(s[e1 + 1..e2])))
        else None
      else None
    else None
  }

  /** `RegExp.prototype.exec`: the leftmost position at or after `p` where the pattern matches. */
  function FirstMatch(s: string, p: nat): (r: Option<nat>)
    requires p <= |s|
    ensures r.None? ==> forall q :: p <= q <= |s| ==> MatchAt(s, q).None?
    ensures r.Some? ==> p <= r.value <= |s| && MatchAt(s, r.value).Some?
    ensures r.Some? ==> forall q :: p <= q < r.value ==> MatchAt(s, q).None?
    decreases |s| - p
  {
    if MatchAt(s, p).Some? then Some(p)
    else if p == |s| then None
    else FirstMatch(s, p + 1)
  }

  /**
   * `findAppropriateVersion`: for the first version number in `s`, whether it is
   * at least 1.8 (or any major version above 1); None stands for the
   * `undefined` returned when there is no version number.
   */
  function FindAppropriateVersion(s: string): Option<bool> {
    match FirstMatch(s, 0)
    case None => None
    case Some(q) =>
      var v := MatchAt(s, q).value;
      Some(v.major > 1 || (v.major == 1 && v.minor >= RequiredJavaVersion))
  }

  /** Some chunk of `java -version` output names an appropriate version. */
  predicate JreFound(chunks: seq<string>) {
    exists i :: 0 <= i < |chunks| && FindAppropriateVersion(chunks[i]) == Some(true)
  }

  /** Some chunk of `java -version` output mentions "64". */
  predicate Mentions64(chunks: seq<string>) {
    exists i :: 0 <= i < |chunks| && Contains(chunks[i], "64")
  }

  lemma JreFoundSnoc(chunks: seq<string>, c: string)
    ensures JreFound(chunks + [c]) == (JreFound(chunks) || FindAppropriateVersion(c) == Some(true))
  {
    if FindAppropriateVersion(c) == Some(true) {
      assert (chunks + [c])[|chunks|] == c;
    }
    if JreFound(chunks) {
      var i :| 0 <= i < |chunks| && FindAppropriateVersion(chunks[i]) == Some(true);
      assert (chunks + [c])[i] == chunks[i];
    }
    if JreFound(chunks + [c]) {
      var i :| 0 <= i < |chunks| + 1 && FindAppropriateVersion((chunks + [c])[i]) == Some(true);
      if i < |chunks| {
        assert (chunks + [c])[i] == chunks[i];
      }
    }
  }

  lemma Mentions64Snoc(chunks: seq<string>, c: string)
    ensures Mentions64(chunks + [c]) == (Mentions64(chunks) || Contains(c, "64"))
  {
    if Contains(c, "64") {
      assert (chunks + [c])[|chunks|] == c;
    }
    if Mentions64(chunks) {
      var i :| 0 <= i < |chunks| && Contains(chunks[i], "64");
      assert (chunks + [c])[i] == chunks[i];
    }
    if Mentions64(chunks + [c]) {
      var i :| 0 <= i < |chunks| + 1 && Contains((chunks + [c])[i], "64");
      if i < |chunks| {
        assert (chunks + [c])[i] == chunks[i];
      }
    }
  }

  /** The text `M.m.p` of a version number. */
  function VersionText(major: nat, minor: nat, patch: nat): string {
    NatToString(major) + "." + NatToString(minor) + "." + NatToString(patch)
  }

  /** Where the pieces of `a.b.c` sit. */
  lemma DottedLayout(a: string, b: string, c: string)
    requires c != []
    ensures var s := a + "." + b + "." + c;
      && |s| == |a| + |b| + |c| + 2
      && s[..|a|] == a && s[|a|] == '.'
      && s[|a| + 1..|a| + 1 + |b|] == b && s[|a| + 1 + |b|] == '.'
      && s[|a| + 2 + |b|] == c[0]
      && (forall k :: 0 <= k < |a| ==> s[k] == a[k])
      && (forall k :: |a| + 1 <= k < |a| + 1 + |b| ==> s[k] == b[k - |a| - 1])
  {
  }

  /** The pattern matches `a.b.c` at 0 for digit strings with a leading non-zero digit. */
  lemma MatchDotted(a: string, b: string, c: string)
    requires a != [] && b != [] && c != [] && AllDigits(a) && AllDigits(b) && IsDigit(c[0])
    requires a[0] != '0'
    ensures MatchAt(a + "." + b + "." + c, 0) == Some(JavaVersion(DigitsValue(a), DigitsValue(b)))
  {
    var s := a + "." + b + "." + c;
    DottedLayout(a, b, c);
    DigitRunEndIs(s, 1, |a|);
    DigitRunEndIs(s, |a| + 1, |a| + 1 + |b|);
  }

  /** A version number printed as `M.m.p` (with M >= 1) is recognised, with its major and minor parts. */
  lemma MatchVersionText(major: nat, minor: nat, patch: nat)
    requires major >= 1
    ensures MatchAt(VersionText(major, minor, patch), 0) == Some(JavaVersion(major, minor))
  {
    MatchDotted(NatToString(major), NatToString(minor), NatToString(patch));
  }

  /** `findAppropriateVersion` on a string that begins with a version number decides by that number. */
  lemma VersionTextDecides(major: nat, minor: nat, patch: nat, rest: string)
    requires major >= 1
    ensures FindAppropriateVersion(VersionText(major, minor, patch) + rest)
      == Some(major > 1 || (major == 1 && minor >= RequiredJavaVersion))
  {
    var a, b, c := NatToString(major), NatToString(minor), NatToString(patch);
    assert VersionText(major, minor, patch) + rest == a + "." + b + "." + (c + rest);
    MatchDotted(a, b, c + rest);
  }

  /** A string without a version number leaves `findAppropriateVersion` undefined (falsy). */
  lemma NoVersionNoAnswer(s: string)
    requires forall k :: 0 <= k < |s| ==> !IsDigit(s[k])
    ensures FindAppropriateVersion(s).None?
  {
    forall q | 0 <= q <= |s| ensures MatchAt(s, q).None? {
      if q < |s| {
        assert !IsDigit(s[q]);
      }
    }
  }

  // ---------------------------------------------------------------- the probe

  /**
   * `isNailgunServerReallyRunning` for the `k`-th probe: false at once when
   * there is no nailgun process; otherwise the probe's first stderr chunk
   * decides, and None means that the probe never answered.
   */
  function ProbeResult(process: Option<nat>, replies: seq<string>, k: nat): (r: Option<bool>)
    ensures process.None? ==> r == Some(false)
    ensures process.Some? ==> (r.None? <==> k >= |replies|)
    ensures process.Some? && k < |replies| ==> (r == Some(true) <==> StartsWith(replies[k], ClassNotFound))
  {
    if process.None? then Some(false)
    else if k < |replies| then Some(StartsWith(replies[k], ClassNotFound))
    else None
  }

  /**
   * `waitForNailgunToStart(retriesLeft)` as the source's recursion, `k` probes
   * having been made already: the outcome and the number of probes made in all.
   */
  function Poll(guard: bool, process: Option<nat>, replies: seq<string>, retriesLeft: int, k: nat): (Readiness, nat)
    decreases if retriesLeft < 0 then 0 else retriesLeft
  {
    if !guard || retriesLeft <= 0 then (Failed, k)
    else match ProbeResult(process, replies, k)
      case None => (NoAnswer, k + 1)
      case Some(true) => (Confirmed, k + 1)
      case Some(false) => Poll(guard, process, replies, retriesLeft - 1, k + 1)
  }

  /**
   * What the poll promises: it never probes more than `retriesLeft` times, every
   * probe but the last one said "not running", and the last one decides.
   */
  lemma {:induction false} PollFacts(guard: bool, process: Option<nat>, replies: seq<string>, retriesLeft: int, k: nat)
    ensures var (outcome, probes) := Poll(guard, process, replies, retriesLeft, k);
      k <= probes <= k + (if retriesLeft < 0 then 0 else retriesLeft) &&
      ((!guard || retriesLeft <= 0) ==> outcome == Failed && probes == k) &&
      (forall j :: k <= j < probes - 1 ==> ProbeResult(process, replies, j) == Some(false)) &&
      (outcome == Confirmed ==> probes > k && ProbeResult(process, replies, probes - 1) == Some(true)) &&
      (outcome == NoAnswer ==> probes > k && ProbeResult(process, replies, probes - 1).None?) &&
      (outcome == Failed && guard && retriesLeft > 0 ==>
        probes == k + retriesLeft && ProbeResult(process, replies, probes - 1) == Some(false))
    decreases if retriesLeft < 0 then 0 else retriesLeft
  {
    if guard && retriesLeft > 0 && ProbeResult(process, replies, k) == Some(false) {
      PollFacts(guard, process, replies, retriesLeft - 1, k + 1);
    }
  }

  /** Without a nailgun process the poll gives up after exactly `retriesLeft` probes. */
  lemma {:induction false} PollWithoutProcess(replies: seq<string>, retriesLeft: int, k: nat)
    requires retriesLeft > 0
    ensures Poll(true, None, replies, retriesLeft, k) == (Failed, k + retriesLeft)
    decreases retriesLeft
  {
    if retriesLeft > 1 {
      PollWithoutProcess(replies, retriesLeft - 1, k + 1);
    }
  }

  // ----------------------------------------------------------- the supervisor

  class NailgunService {
    /** The number of nailgun servers launched so far. */
    var instanceCount: nat
    /** `_ready`. */
    var ready: bool
    var reverifyWhenBackendReady: bool
    /** The static `NailgunService.startingOrRestarting` (one supervisor per server). */
    var startingOrRestarting: bool
    /** `nailgunProcess`, identified by the instance it launched. */
    var process: Option<nat>
    /** The name of `activeBackend`. */
    var activeBackend: Option<string>
    /** The instance counts the armed startup timeouts were given, in arming order. */
    var timeouts: seq<nat>
    /** Signals sent, oldest first. */
    var sent: seq<Signal>

    ghost predicate Valid()
      reads this
    {
      && !(ready && startingOrRestarting)
      && |timeouts| == instanceCount
      && (forall i :: 0 <= i < |timeouts| ==> timeouts[i] == i + 1)
      && (process.Some? ==> process.value == instanceCount)
      && (startingOrRestarting || ready ==> activeBackend.Some?)
    }

    constructor ()
      ensures Valid()
      ensures instanceCount == 0 && !ready && reverifyWhenBackendReady && !startingOrRestarting
      ensures process.None? && activeBackend.None? && timeouts == [] && sent == []
    {
      instanceCount := 0;
      ready := false;
      reverifyWhenBackendReady := true;
      startingOrRestarting := false;
      process := None;
      activeBackend := None;
      timeouts := [];
      sent := [];
    }

    /** `isReady`. */
    function IsReady(): bool
      reads this
    {
      ready
    }

    /** `setReady`: ready, no longer starting, and the client learns whether to re-verify. */
    method SetReady()
      requires Valid() && activeBackend.Some?
      modifies this
      ensures Valid()
      ensures IsReady() && !startingOrRestarting
      ensures sent == old(sent) + [BackendReady(activeBackend.value, reverifyWhenBackendReady)]
      ensures instanceCount == old(instanceCount) && process == old(process) && timeouts == old(timeouts)
      ensures activeBackend == old(activeBackend) && reverifyWhenBackendReady == old(reverifyWhenBackendReady)
    {
      ready := true;
      startingOrRestarting := false;
      sent := sent + [BackendReady(activeBackend.value, reverifyWhenBackendReady)];
    }

    /** `setStopping`. */
    method SetStopping()
      requires Valid()
      modifies this
      ensures Valid()
      ensures !IsReady() && !startingOrRestarting
      ensures sent == old(sent) + [StateChange(Stopping, None)]
      ensures instanceCount == old(instanceCount) && process == old(process) && timeouts == old(timeouts)
      ensures activeBackend == old(activeBackend) && reverifyWhenBackendReady == old(reverifyWhenBackendReady)
    {
      ready := false;
      startingOrRestarting := false;
      sent := sent + [StateChange(Stopping, None)];
    }

    /** `setStopped`. */
    method SetStopped()
      requires Valid()
      modifies this
      ensures Valid()
      ensures !IsReady() && !startingOrRestarting
      ensures sent == old(sent) + [StateChange(Stopped, None)]
      ensures instanceCount == old(instanceCount) && process == old(process) && timeouts == old(timeouts)
      ensures activeBackend == old(activeBackend) && reverifyWhenBackendReady == old(reverifyWhenBackendReady)
    {
      ready := false;
      startingOrRestarting := false;
      sent := sent + [StateChange(Stopped, None)];
    }

    /**
     * `stopNailgunServer`. Not ready (and not starting) before the shutdown
     * command runs; when the command can be started the handle is dropped, and
     * when it exits the supervisor is stopped and the promise resolves true. If
     * starting the command throws, the promise resolves false instead. It never
     * rejects.
     */
    method StopNailgunServer(shutdownThrows: bool) returns (resolved: bool)
      requires Valid()
      modifies this
      ensures Valid()
      ensures !IsReady() && !startingOrRestarting
      ensures resolved == !shutdownThrows
      ensures process == (if shutdownThrows then old(process) else None)
      ensures sent == old(sent) + [StateChange(Stopping, None)]
        + (if shutdownThrows then [] else [StateChange(Stopped, None)])
      ensures instanceCount == old(instanceCount) && timeouts == old(timeouts)
      ensures activeBackend == old(activeBackend) && reverifyWhenBackendReady == old(reverifyWhenBackendReady)
    {
      SetStopping();
      if shutdownThrows {
        return false;
      }
      process := None;
      SetStopped();
      return true;
    }

    /**
     * `isJreInstalled`, given the chunks `java -version` writes to stdout and
     * stderr in the order they arrive: resolves true at the first chunk that
     * names an appropriate version, false on exit otherwise; it also notes
     * whether any chunk mentions "64".
     */
    method IsJreInstalled(chunks: seq<string>) returns (installed: bool, is64Bit: bool)
      ensures installed == JreFound(chunks)
      ensures is64Bit == Mentions64(chunks)
    {
      is64Bit := false;
      var resolved := false;
      for i := 0 to |chunks|
        invariant resolved == JreFound(chunks[..i])
        invariant is64Bit == Mentions64(chunks[..i])
      {
        assert chunks[..i + 1] == chunks[..i] + [chunks[i]];
        JreFoundSnoc(chunks[..i], chunks[i]);
        Mentions64Snoc(chunks[..i], chunks[i]);
        is64Bit := is64Bit || Contains(chunks[i], "64");
        if !resolved && FindAppropriateVersion(chunks[i]) == Some(true) {
          resolved := true;
        }
      }
      assert chunks[..|chunks|] == chunks;
      installed := resolved;
    }

    /**
     * `startOrRestartNailgunServer`. The re-verify flag is always stored; while
     * a start is in progress nothing else happens. Otherwise running
     * verifications are aborted, the JRE is checked (a failed check stops the
     * supervisor without launching), the running server is stopped, and a new
     * instance is launched: one more instance, its timeout armed with the new
     * count, and the process handle set.
     */
    method StartOrRestartNailgunServer(backend: string, reverify: bool, javaOutput: seq<string>, shutdownThrows: bool)
      requires Valid()
      modifies this
      ensures Valid()
      ensures reverifyWhenBackendReady == reverify
      ensures old(startingOrRestarting) ==>
        startingOrRestarting && ready == old(ready) && instanceCount == old(instanceCount) &&
        process == old(process) && timeouts == old(timeouts) && sent == old(sent) &&
        activeBackend == old(activeBackend)
      ensures !old(startingOrRestarting) ==>
        var jre := JreFound(javaOutput);
        && !ready
        && (!jre ==>
             !startingOrRestarting && instanceCount == old(instanceCount) && process == old(process) &&
             timeouts == old(timeouts) && activeBackend == old(activeBackend) &&
             sent == old(sent) + [AbortAllVerifications, StateChange(Stopped, None)])
        && (jre ==>
             startingOrRestarting && instanceCount == old(instanceCount) + 1 &&
             timeouts == old(timeouts) + [instanceCount] && process == Some(instanceCount) &&
             activeBackend == Some(backend) &&
             sent == old(sent) + [AbortAllVerifications, StateChange(Stopping, None)]
               + (if shutdownThrows then [] else [StateChange(Stopped, None)])
               + [BackendChange(backend), StateChange(Starting, Some(backend))])
    {
      reverifyWhenBackendReady := reverify;
      if startingOrRestarting {
        return;
      }
      sent := sent + [AbortAllVerifications];
      var jreInstalled, _ := IsJreInstalled(javaOutput);
      if !jreInstalled {
        SetStopped();
        return;
      }
      activeBackend := Some(backend);
      var _ := StopNailgunServer(shutdownThrows);
      startingOrRestarting := true;
      sent := sent + [BackendChange(backend), StateChange(Starting, Some(backend))];
      instanceCount := instanceCount + 1;
      timeouts := timeouts + [instanceCount];
      process := Some(instanceCount);
    }

    /**
     * The startup timeout armed with `count` fires: the server is stopped only if
     * it is not ready and no later instance has been launched since.
     */
    method StartupTimeoutFired(count: nat, shutdownThrows: bool)
      requires Valid() && count in timeouts
      modifies this
      ensures Valid()
      ensures old(IsReady() || count != instanceCount) ==> unchanged(this)
      ensures old(!IsReady() && count == instanceCount) ==>
        !IsReady() && !startingOrRestarting &&
        process == (if shutdownThrows then old(process) else None) &&
        sent == old(sent) + [StateChange(Stopping, None)]
          + (if shutdownThrows then [] else [StateChange(Stopped, None)])
      ensures instanceCount == old(instanceCount) && timeouts == old(timeouts)
      ensures activeBackend == old(activeBackend) && reverifyWhenBackendReady == old(reverifyWhenBackendReady)
    {
      if !IsReady() && instanceCount == count {
        var _ := StopNailgunServer(shutdownThrows);
      }
    }

    /**
     * `waitForNailgunToStart(retriesLeft)` as a counted retry, the answers of the
     * successive probes being `replies`. It changes nothing; it gives the
     * outcome and how many probes were made.
     */
    method WaitForNailgunToStart(retriesLeft: int, replies: seq<string>) returns (outcome: Readiness, probes: nat)
      ensures (outcome, probes) == Poll(startingOrRestarting, process, replies, retriesLeft, 0)
      ensures probes <= (if retriesLeft < 0 then 0 else retriesLeft)
      ensures outcome == Confirmed ==> startingOrRestarting
    {
      PollFacts(startingOrRestarting, process, replies, retriesLeft, 0);
      var left := retriesLeft;
      probes := 0;
      while true
        invariant probes + left == retriesLeft
        invariant Poll(startingOrRestarting, process, replies, retriesLeft, 0)
               == Poll(startingOrRestarting, process, replies, left, probes)
        decreases if left < 0 then 0 else left
      {
        if !startingOrRestarting || left <= 0 {
          return Failed, probes;
        }
        var running := ProbeResult(process, replies, probes);
        probes := probes + 1;
        if running.None? {
          return NoAnswer, probes;
        } else if running.value {
          return Confirmed, probes;
        }
        left := left - 1;
      }
    }

    /**
     * The nailgun server writes `data` to stdout. Only when "started" occurs at an
     * index above 0 does the readiness wait begin; a confirmed start makes the
     * supervisor ready, a failed one stops it.
     */
    method OnServerOutput(data: string, replies: seq<string>)
      requires Valid()
      modifies this
      ensures Valid()
      ensures IndexOf(data, "started") <= 0 ==> unchanged(this)
      ensures IndexOf(data, "started") > 0 ==>
        var (outcome, _) := Poll(old(startingOrRestarting), old(process), replies, MaxNumberOfRetries, 0);
        && (outcome == Confirmed ==>
              ready && !startingOrRestarting &&
              sent == old(sent) + [BackendReady(old(activeBackend).value, old(reverifyWhenBackendReady))])
        && (outcome == Failed ==> !ready && !startingOrRestarting && sent == old(sent) + [StateChange(Stopped, None)])
        && (outcome == NoAnswer ==> unchanged(this))
      ensures instanceCount == old(instanceCount) && process == old(process) && timeouts == old(timeouts)
      ensures activeBackend == old(activeBackend) && reverifyWhenBackendReady == old(reverifyWhenBackendReady)
    {
      if IndexOf(data, "started") > 0 {
        var outcome, _ := WaitForNailgunToStart(MaxNumberOfRetries, replies);
        if outcome == Confirmed {
          SetReady();
        } else if outcome == Failed {
          SetStopped();
        }
      }
    }

    /**
     * `tryToStartNailgunServer`: when neither ready, nor starting, nor holding a
     * process, re-check the settings and start with re-verification if they are
     * valid.
     */
    method TryToStartNailgunServer(backend: string, settingsValid: bool, javaOutput: seq<string>, shutdownThrows: bool)
      requires Valid()
      modifies this
      ensures Valid()
      ensures (old(ready) || old(startingOrRestarting) || old(process).Some? || !settingsValid) ==> unchanged(this)
      ensures !(old(ready) || old(startingOrRestarting) || old(process).Some?) && settingsValid ==>
        var jre := JreFound(javaOutput);
        && reverifyWhenBackendReady && !ready
        && (startingOrRestarting <==> jre)
        && (!jre ==>
             instanceCount == old(instanceCount) && process == None && timeouts == old(timeouts) &&
             activeBackend == old(activeBackend) &&
             sent == old(sent) + [AbortAllVerifications, StateChange(Stopped, None)])
        && (jre ==>
             instanceCount == old(instanceCount) + 1 && timeouts == old(timeouts) + [instanceCount] &&
             process == Some(instanceCount) && activeBackend == Some(backend) &&
             sent == old(sent) + [AbortAllVerifications, StateChange(Stopping, None)]
               + (if shutdownThrows then [] else [StateChange(Stopped, None)])
               + [BackendChange(backend), StateChange(Starting, Some(backend))])
    {
      if ready || startingOrRestarting || process.Some? {
        return;
      }
      if settingsValid {
        StartOrRestartNailgunServer(backend, true, javaOutput, shutdownThrows);
      }
    }
  }

  /**
   * A superseded launch's timeout does nothing: after a second launch the
   * first instance's timeout leaves the supervisor as it is, while the current
   * instance's timeout stops a server that is not ready.
   */
  method StaleTimeoutScenario(backend: string, javaOutput: seq<string>) returns (staleIgnored: bool, currentStopped: bool)
    requires JreFound(javaOutput)
    ensures staleIgnored && currentStopped
  {
    var service := new NailgunService();
    service.StartOrRestartNailgunServer(backend, true, javaOutput, false);
    assert service.instanceCount == 1 && service.startingOrRestarting;
    // a start in progress blocks a second one
    service.StartOrRestartNailgunServer(backend, false, javaOutput, false);
    assert service.instanceCount == 1 && !service.reverifyWhenBackendReady;
    service.StartupTimeoutFired(1, false);
    assert !service.startingOrRestarting && service.process.None?;
    service.StartOrRestartNailgunServer(backend, true, javaOutput, false);
    assert service.instanceCount == 2 && service.process == Some(2);
    var before := service.sent;
    service.StartupTimeoutFired(1, false);
    staleIgnored := service.sent == before && service.startingOrRestarting && service.process == Some(2);
    service.StartupTimeoutFired(2, false);
    currentStopped := !service.IsReady() && !service.startingOrRestarting && service.process.None?;
  }
}

=== FILE: server.dfy ===
/**
 * The handlers of server/src/server.ts that decide something: the registry of
 * verification tasks kept per open Viper file, the admission check in front
 * of a verification, the choice between restarting the backend and keeping
 * it, the retention of the nailgun port, the StartBackend guard,
 * RemoveDiagnostics, and the walk that builds an execution trace.
 *
 * The static state of the `Server` class is the class `ServerState`; the
 * static state of the `Settings` class is the `SettingsState` it holds. The
 * notifications the server sends and the calls it makes into the backend
 * supervisor and into a task are recorded, in order, as `Effect`s. Whether a
 * file is a Viper file, whether the supervisor is ready, the verdict of the
 * settings check and the outcome of the asynchronous steps are parameters.
 */
module Server {
  import opened Wrappers
  import opened Settings
  import opened SettingsChecks

  // ---------------------------------------------------------------- effects

  /** What a handler sends to the client or asks of the supervisor or of a task. */
  datatype Effect =
    | FileOpened(uri: string)
    | FileClosed(uri: string)
    | DiagnosticsCleared(uri: string)
    | NotReadyHint
    | VerificationNotStarted(uri: string)
    | TaskVerify(uri: string, manuallyTriggered: bool)
    | StartNailgun(backend: string)
    | StopNailgun
    | BackendReady(name: string, restarted: bool)

  // ------------------------------------------------------------------ tasks

  /** `StateColors.interestingState` and `uninterestingState`, in the light or the dark theme. */
  datatype Color = Interesting(dark: bool) | Uninteresting(dark: bool)

  /** One entry of an execution trace: the decoration index of a state, its colour, and whether its number is shown. */
  datatype TraceEntry = TraceEntry(state: nat, color: Color, showNumber: bool)

  /**
   * A step of a verification run as the trace walk sees it: its depth, its
   * decoration index, whether it can be shown as a decoration, whether it is a
   * branch, and the position of its parent among its task's steps.
   */
  datatype Step = Step(depth: nat, decorationIndex: nat, canBeShownAsDecoration: bool, isBranch: bool, parent: Option<nat>)

  /** The parts of a `VerificationTask` the handlers here read or write. */
  datatype Task = Task(
    uri: string,
    steps: seq<Step>,
    clientStepIndexToServerStep: seq<nat>,
    shownExecutionTrace: seq<TraceEntry>,
    diagnostics: seq<string>,
    hasLastSuccess: bool)

  /** The verification task created for a file that has just been opened: no steps, no diagnostics, no last outcome. */
  function NewTask(uri: string): Task {
    Task(uri, [], [], [], [], false)
  }

  /** A step's parent comes before it. */
  predicate StepsWellFormed(steps: seq<Step>) {
    forall i :: 0 <= i < |steps| && steps[i].parent.Some? ==> steps[i].parent.value < i
  }

  /** The steps are well formed and every client state names one of them. */
  predicate TaskWellFormed(t: Task) {
    && StepsWellFormed(t.steps)
    && forall k :: 0 <= k < |t.clientStepIndexToServerStep| ==> t.clientStepIndexToServerStep[k] < |t.steps|
  }

  /** The registry after a Viper file is opened: a new task for it unless it already has one. */
  function Opened(tasks: map<string, Task>, uri: string): (r: map<string, Task>)
    ensures r.Keys == tasks.Keys + {uri}
    ensures uri in tasks ==> r == tasks
    ensures uri !in tasks ==> r[uri] == NewTask(uri)
    ensures forall v :: v in tasks ==> r[v] == tasks[v]
  {
    if uri in tasks then tasks else tasks[uri := NewTask(uri)]
  }

  /** The registry after a Viper file is closed: its task is gone and no other entry changes. */
  function Closed(tasks: map<string, Task>, uri: string): (r: map<string, Task>)
    ensures r.Keys == tasks.Keys - {uri}
    ensures forall v :: v in r ==> r[v] == tasks[v]
  {
    tasks - {uri}
  }

  /** Closing a file that was opened without a task before gives back the registry as it was. */
  lemma OpenThenClose(tasks: map<string, Task>, uri: string)
    requires uri !in tasks
    ensures Closed(Opened(tasks, uri), uri) == tasks
  {
    assert Closed(Opened(tasks, uri), uri).Keys == tasks.Keys;
  }

  /** Opening twice is opening once; closing twice is closing once; reopening a closed file gives it a fresh task. */
  lemma OpenCloseIdempotent(tasks: map<string, Task>, uri: string)
    ensures Opened(Opened(tasks, uri), uri) == Opened(tasks, uri)
    ensures Closed(Closed(tasks, uri), uri) == Closed(tasks, uri)
    ensures Opened(Closed(tasks, uri), uri) == tasks[uri := NewTask(uri)]
  {
    assert Closed(Closed(tasks, uri), uri).Keys == Closed(tasks, uri).Keys;
    assert Opened(Closed(tasks, uri), uri).Keys == tasks[uri := NewTask(uri)].Keys;
  }

  /** Every task after `resetLastSuccess`. */
  function ResetLastSuccess(tasks: map<string, Task>): (r: map<string, Task>)
    ensures r.Keys == tasks.Keys
    ensures forall u :: u in r ==> !r[u].hasLastSuccess && r[u].(hasLastSuccess := tasks[u].hasLastSuccess) == tasks[u]
  {
    map u | u in tasks :: tasks[u].(hasLastSuccess := false)
  }

  // ------------------------------------------------------------ verification

  /**
   * What the Verify handler sends and calls: nothing is started without a
   * task or with the backend not ready (a hint first when the user asked);
   * otherwise the file's task is asked to verify once the running verifications
   * have stopped, and a not-started notification follows when the stop fails
   * or that task declines.
   */
  function VerifyEffects(hasTask: bool, ready: bool, uri: string, manuallyTriggered: bool, stopOk: bool, taskStarts: bool): (r: seq<Effect>)
    ensures TaskVerify(uri, manuallyTriggered) in r <==> hasTask && ready && stopOk
    ensures VerificationNotStarted(uri) in r <==> !(hasTask && ready && stopOk && taskStarts)
    ensures NotReadyHint in r <==> hasTask && !ready && manuallyTriggered
    ensures forall e :: e in r ==> e == TaskVerify(uri, manuallyTriggered) || e == VerificationNotStarted(uri) || e == NotReadyHint
    ensures 1 <= |r| <= 2
  {
    if !hasTask then [VerificationNotStarted(uri)]
    else if !ready then (if manuallyTriggered then [NotReadyHint] else []) + [VerificationNotStarted(uri)]
    else if !stopOk then [VerificationNotStarted(uri)]
    else [TaskVerify(uri, manuallyTriggered)] + (if taskStarts then [] else [VerificationNotStarted(uri)])
  }

  // ----------------------------------------------------------------- restart

  /**
   * The restart condition: the backend is not ready, or it differs from the
   * new one, or there were settings before and the new backend uses nailgun
   * and the nailgun settings changed, or the tools were updated.
   */
  predicate RestartNeeded(ready: bool, current: Option<Backend>, newBackend: Backend, newNailgun: NailgunSettings,
                          oldSettings: Option<ViperSettings>, toolsUpdated: bool)
  {
    || !ready
    || !(current.Some? && SameBackend(current.value, newBackend))
    || (oldSettings.Some? && UseNailgunServer(Some(newBackend)) && !NailgunEquals(newNailgun, oldSettings.value.nailgunSettings))
    || toolsUpdated
  }

  /**
   * Whether the port is retained without looking for previous settings, as
   * the handler is written, or only when there are some, as the same step of
   * Settings.ts does.
   */
  datatype Retention = Unguarded | Guarded

  /** What the handler does with a backend it has selected. */
  datatype RestartDecision = Restart | KeepRunning(port: string) | Crash

  function DecideRestart(ready: bool, current: Option<Backend>, newBackend: Backend, newNailgun: NailgunSettings,
                         oldSettings: Option<ViperSettings>, toolsUpdated: bool, how: Retention): (d: RestartDecision)
    ensures d.Restart? <==> RestartNeeded(ready, current, newBackend, newNailgun, oldSettings, toolsUpdated)
    ensures d.Crash? <==> !d.Restart? && oldSettings.None? && how.Unguarded?
    ensures d.KeepRunning? ==> ready && current.Some? && SameBackend(current.value, newBackend) && !toolsUpdated
    ensures d.KeepRunning? ==> d.port == if oldSettings.Some? then oldSettings.value.nailgunSettings.port else newNailgun.port
    ensures d.KeepRunning? && oldSettings.Some? && UseNailgunServer(Some(newBackend)) ==>
      newNailgun.(port := d.port) == oldSettings.value.nailgunSettings
  {
    if RestartNeeded(ready, current, newBackend, newNailgun, oldSettings, toolsUpdated) then Restart
    else if oldSettings.Some? then KeepRunning(oldSettings.value.nailgunSettings.port)
    else if how.Guarded? then KeepRunning(newNailgun.port)
    else Crash
  }

  /**
   * As written, a StartBackend notification that names the backend already
   * running while it is ready reaches the port retention with no previous
   * settings, and fails there.
   */
  lemma RunningBackendReselectedCrashes(b: Backend, ng: NailgunSettings)
    ensures DecideRestart(true, Some(b), b, ng, None, false, Unguarded) == Crash
  {
    SameBackendReflexive(b, b.engine);
  }

  /** With the guard, the handler never fails, and a kept backend keeps the port it has when there were no settings before. */
  lemma GuardedRetentionNeverCrashes(ready: bool, current: Option<Backend>, newBackend: Backend, newNailgun: NailgunSettings,
                                     oldSettings: Option<ViperSettings>, toolsUpdated: bool)
    ensures DecideRestart(ready, current, newBackend, newNailgun, oldSettings, toolsUpdated, Guarded) != Crash
    ensures oldSettings.None? && ready && current == Some(newBackend) && !toolsUpdated ==>
      DecideRestart(ready, current, newBackend, newNailgun, oldSettings, toolsUpdated, Guarded) == KeepRunning(newNailgun.port)
  {
    SameBackendReflexive(newBackend, newBackend.engine);
  }

  /**
   * A "*" port in new settings is replaced by the port of the previous
   * settings when there are some; nothing else changes.
   */
  function RetainWildcardPort(newSettings: ViperSettings, oldSettings: Option<ViperSettings>): (r: ViperSettings)
    ensures r == newSettings.(nailgunSettings := newSettings.nailgunSettings.(port := r.nailgunSettings.port))
    ensures oldSettings.Some? && newSettings.nailgunSettings.port == "*" ==>
      r.nailgunSettings.port == oldSettings.value.nailgunSettings.port
    ensures oldSettings.None? || newSettings.nailgunSettings.port != "*" ==> r == newSettings
    ensures oldSettings.Some? && oldSettings.value.nailgunSettings.port != "*" ==> r.nailgunSettings.port != "*"
  {
    if oldSettings.Some? && newSettings.nailgunSettings.port == "*" then
      newSettings.(nailgunSettings := newSettings.nailgunSettings.(port := oldSettings.value.nailgunSettings.port))
    else newSettings
  }

  // ------------------------------------------------------------ trace walk

  /**
   * The positions of the steps the execution-trace loop pushes when it reaches
   * the step at `cur` with bound `maxDepth`: the step itself when it can be
   * shown and is no deeper than the bound (which then drops to its depth),
   * then the walk from its parent for a branch or from the step before it
   * otherwise, ending at a step without parent.
   */
  function Walk(steps: seq<Step>, cur: nat, maxDepth: nat): (r: seq<nat>)
    requires StepsWellFormed(steps) && cur < |steps|
    ensures forall i :: 0 <= i < |r| ==> r[i] <= cur
    decreases cur
  {
    var s := steps[cur];
    var pushed := s.canBeShownAsDecoration && s.depth <= maxDepth;
    var here := if pushed then [cur] else [];
    var bound := if pushed then s.depth else maxDepth;
    if s.parent.None? then here
    else if s.isBranch then here + Walk(steps, s.parent.value, bound)
    else here + Walk(steps, cur - 1, bound)
  }

  /**
   * The pushed steps can be shown, lie at or before `cur` and are no deeper
   * than `maxDepth`; each lies before, and is no deeper than, the ones pushed
   * before it.
   */
  predicate Descending(steps: seq<Step>, w: seq<nat>, cur: nat, maxDepth: nat) {
    && (forall i :: 0 <= i < |w| ==> w[i] <= cur && w[i] < |steps|)
    && (forall i :: 0 <= i < |w| ==> steps[w[i]].canBeShownAsDecoration && steps[w[i]].depth <= maxDepth)
    && (forall i, j :: 0 <= i < j < |w| ==> w[j] < w[i] && steps[w[j]].depth <= steps[w[i]].depth)
  }

  lemma DescendingCons(steps: seq<Step>, cur: nat, rest: seq<nat>, next: nat, maxDepth: nat)
    requires cur < |steps| && next < cur
    requires steps[cur].canBeShownAsDecoration && steps[cur].depth <= maxDepth
    requires Descending(steps, rest, next, steps[cur].depth)
    ensures Descending(steps, [cur] + rest, cur, maxDepth)
  {
    var w := [cur] + rest;
    forall i, j | 0 <= i < j < |w|
      ensures w[j] < w[i] && steps[w[j]].depth <= steps[w[i]].depth
    {
      assert w[j] == rest[j - 1];
      if i > 0 {
        assert w[i] == rest[i - 1];
      }
    }
  }

  lemma DescendingWeaken(steps: seq<Step>, w: seq<nat>, next: nat, cur: nat, bound: nat, maxDepth: nat)
    requires next <= cur && bound <= maxDepth
    requires Descending(steps, w, next, bound)
    ensures Descending(steps, w, cur, maxDepth)
  {
  }

  /** The interesting entries of a trace are in non-increasing depth order, none deeper than where the walk started. */
  lemma {:induction false} WalkDescends(steps: seq<Step>, cur: nat, maxDepth: nat)
    requires StepsWellFormed(steps) && cur < |steps|
    ensures Descending(steps, Walk(steps, cur, maxDepth), cur, maxDepth)
    decreases cur
  {
    var s := steps[cur];
    var pushed := s.canBeShownAsDecoration && s.depth <= maxDepth;
    var bound := if pushed then s.depth else maxDepth;
    if s.parent.Some? {
      var next := if s.isBranch then s.parent.value else cur - 1;
      WalkDescends(steps, next, bound);
      var rest := Walk(steps, next, bound);
      assert Walk(steps, cur, maxDepth) == (if pushed then [cur] else []) + rest;
      if pushed {
        DescendingCons(steps, cur, rest, next, maxDepth);
      } else {
        DescendingWeaken(steps, rest, next, cur, bound, maxDepth);
      }
    }
  }

  /** The entries the loop pushes for the walked steps. */
  function Shown(steps: seq<Step>, w: seq<nat>, dark: bool): seq<TraceEntry>
    requires forall i :: 0 <= i < |w| ==> w[i] < |steps|
  {
    seq(|w|, i requires 0 <= i < |w| => TraceEntry(steps[w[i]].decorationIndex, Interesting(dark), true))
  }

  /** The uninteresting entries pushed in advanced mode for the given decoration indices. */
  function Decorations(states: seq<nat>, dark: bool): seq<TraceEntry> {
    seq(|states|, i requires 0 <= i < |states| => TraceEntry(states[i], Uninteresting(dark), true))
  }

  /** The walk moves on from its first step, so the loop stores the trace in its task, unless that step is a non-branch without parent. */
  predicate Moves(s: Step) {
    s.isBranch || s.parent.Some?
  }

  /** One turn of the loop: the walk from `cur` is the step itself, when it is pushed, followed by the walk from where the loop goes next. */
  lemma WalkStep(steps: seq<Step>, cur: nat, maxDepth: nat)
    requires StepsWellFormed(steps) && cur < |steps|
    ensures var s := steps[cur];
      var push := s.canBeShownAsDecoration && s.depth <= maxDepth;
      var here := if push then [cur] else [];
      var bound := if push then s.depth else maxDepth;
      && (s.parent.None? ==> Walk(steps, cur, maxDepth) == here)
      && (s.parent.Some? && s.isBranch ==> Walk(steps, cur, maxDepth) == here + Walk(steps, s.parent.value, bound))
      && (s.parent.Some? && !s.isBranch ==> cur >= 1 && Walk(steps, cur, maxDepth) == here + Walk(steps, cur - 1, bound))
  {
  }

  lemma ShownSnoc(steps: seq<Step>, pushed: seq<nat>, cur: nat, dark: bool)
    requires cur < |steps| && forall i :: 0 <= i < |pushed| ==> pushed[i] < |steps|
    ensures forall i :: 0 <= i < |pushed + [cur]| ==> (pushed + [cur])[i] < |steps|
    ensures Shown(steps, pushed + [cur], dark) == Shown(steps, pushed, dark) + [TraceEntry(steps[cur].decorationIndex, Interesting(dark), true)]
  {
  }

  /** The invariant of the trace loop: the entries pushed so far, followed by the rest of the walk, are the whole walk. */
  predicate WalkState(steps: seq<Step>, start: nat, dark: bool, cur: nat, maxDepth: nat, pushed: seq<nat>, entries: seq<TraceEntry>, done: bool)
    requires StepsWellFormed(steps) && start < |steps|
  {
    && cur < |steps|
    && (forall i :: 0 <= i < |pushed| ==> pushed[i] < |steps|)
    && entries == Shown(steps, pushed, dark)
    && if done then pushed == Walk(steps, start, steps[start].depth)
       else pushed + Walk(steps, cur, maxDepth) == Walk(steps, start, steps[start].depth)
  }

  /** The walk part of one turn of the trace loop. */
  lemma TurnWalk(steps: seq<Step>, whole: seq<nat>, cur: nat, maxDepth: nat, pushed: seq<nat>, cur': nat, pushed': seq<nat>, done': bool)
    requires StepsWellFormed(steps) && cur < |steps|
    requires pushed + Walk(steps, cur, maxDepth) == whole
    requires var s := steps[cur];
      var push := s.canBeShownAsDecoration && s.depth <= maxDepth;
      && pushed' == (if push then pushed + [cur] else pushed)
      && done' == s.parent.None?
      && cur' == (if s.parent.None? then cur else if s.isBranch then s.parent.value else cur - 1)
    ensures cur' < |steps|
    ensures done' ==> pushed' == whole
    ensures !done' ==> cur' < cur && pushed' + Walk(steps, cur', if steps[cur].canBeShownAsDecoration && steps[cur].depth <= maxDepth then steps[cur].depth else maxDepth) == whole
  {
    var s := steps[cur];
    var push := s.canBeShownAsDecoration && s.depth <= maxDepth;
    var here := if push then [cur] else [];
    WalkStep(steps, cur, maxDepth);
    assert pushed' == pushed + here;
    if s.parent.Some? {
      Regroup(pushed, here, Walk(steps, cur', if push then s.depth else maxDepth), Walk(steps, cur, maxDepth), whole);
    }
  }

  lemma Regroup(a: seq<nat>, b: seq<nat>, c: seq<nat>, w: seq<nat>, whole: seq<nat>)
    requires w == b + c && a + w == whole
    ensures (a + b) + c == whole
  {
  }

  /** One turn of the trace loop keeps its invariant and, unless it ends the loop, moves to an earlier step. */
  lemma TraceTurn(steps: seq<Step>, start: nat, dark: bool,
                  cur: nat, maxDepth: nat, pushed: seq<nat>, entries: seq<TraceEntry>,
                  cur': nat, maxDepth': nat, pushed': seq<nat>, entries': seq<TraceEntry>, done': bool)
    requires StepsWellFormed(steps) && start < |steps|
    requires WalkState(steps, start, dark, cur, maxDepth, pushed, entries, false)
    requires var s := steps[cur];
      var push := s.canBeShownAsDecoration && s.depth <= maxDepth;
      && maxDepth' == (if push then s.depth else maxDepth)
      && pushed' == (if push then pushed + [cur] else pushed)
      && entries' == (if push then entries + [TraceEntry(s.decorationIndex, Interesting(dark), true)] else entries)
      && done' == s.parent.None?
      && cur' == (if s.parent.None? then cur else if s.isBranch then s.parent.value else cur - 1)
    ensures WalkState(steps, start, dark, cur', maxDepth', pushed', entries', done')
    ensures !done' ==> cur' < cur
  {
    TurnWalk(steps, Walk(steps, start, steps[start].depth), cur, maxDepth, pushed, cur', pushed', done');
    if steps[cur].canBeShownAsDecoration && steps[cur].depth <= maxDepth {
      ShownSnoc(steps, pushed, cur, dark);
    }
  }

  /**
   * The loop of the execution-trace request: from the step at `start`, pushes
   * each step that can be shown and is no deeper than every step pushed
   * before it (and than the start), moving to the parent of a branch and to
   * the previous step otherwise, until a step without parent.
   */
  method TraceWalk(steps: seq<Step>, start: nat, dark: bool) returns (entries: seq<TraceEntry>)
    requires StepsWellFormed(steps) && start < |steps|
    ensures entries == Shown(steps, Walk(steps, start, steps[start].depth), dark)
  {
    var cur: nat := start;
    var maxDepth: nat := steps[start].depth;
    ghost var pushed: seq<nat> := [];
    entries := [];
    var done := false;
    while !done
      invariant WalkState(steps, start, dark, cur, maxDepth, pushed, entries, done)
      decreases if done then 0 else cur + 1
    {
      ghost var cur0, maxDepth0, pushed0, entries0 := cur, maxDepth, pushed, entries;
      var s := steps[cur];
      var depth := s.depth;
      if s.canBeShownAsDecoration && depth <= maxDepth {
        maxDepth := depth;
        entries := entries + [TraceEntry(s.decorationIndex, Interesting(dark), true)];
        pushed := pushed + [cur];
      }
      if s.isBranch {
        if s.parent.None? {
          done := true;
        } else {
          cur := s.parent.value;
        }
      } else if s.parent.None? {
        done := true;
      } else {
        cur := cur - 1;
      }
      TraceTurn(steps, start, dark, cur0, maxDepth0, pushed0, entries0, cur, maxDepth, pushed, entries, done);
    }
  }

  // ------------------------------------------------------------ the server

  class ServerState {
    var tasks: map<string, Task>
    /** The static state of `Settings`. */
    const config: SettingsState
    /** Whether a configuration has arrived, so that `Settings.settings` is set. */
    var configured: bool
    /** `Server.backend`. */
    var backend: Option<Backend>
    /** `Settings.workspace`. */
    var workspace: string
    var executedStages: seq<Stage>
    var effects: seq<Effect>

    /** Each task is filed under its own file and its steps are well formed. */
    predicate Valid()
      reads this
    {
      forall u :: u in tasks ==> tasks[u].uri == u && TaskWellFormed(tasks[u])
    }

    constructor (config: SettingsState)
      ensures Valid()
      ensures tasks == map[] && this.config == config && !configured && backend.None?
      ensures workspace == "" && executedStages == [] && effects == []
    {
      tasks := map[];
      this.config := config;
      configured := false;
      backend := None;
      workspace := "";
      executedStages := [];
      effects := [];
    }

    /** Opening a Viper file notifies the client and creates a task for it unless it has one; other files are ignored. */
    method OnDidOpenTextDocument(uri: string, isViperFile: bool)
      requires Valid()
      modifies this
      ensures Valid()
      ensures tasks == if isViperFile then Opened(old(tasks), uri) else old(tasks)
      ensures effects == old(effects) + if isViperFile then [FileOpened(uri)] else []
      ensures configured == old(configured) && backend == old(backend) && workspace == old(workspace)
      ensures executedStages == old(executedStages)
    {
      if isViperFile {
        effects := effects + [FileOpened(uri)];
        if uri !in tasks {
          tasks := tasks[uri := NewTask(uri)];
        }
      }
    }

    /** Closing a Viper file notifies the client and, when it has a task, clears its diagnostics and drops that task. */
    method OnDidCloseTextDocument(uri: string, isViperFile: bool)
      requires Valid()
      modifies this
      ensures Valid()
      ensures tasks == if isViperFile then Closed(old(tasks), uri) else old(tasks)
      ensures effects == old(effects) +
        if !isViperFile then [] else [FileClosed(uri)] + if uri in old(tasks) then [DiagnosticsCleared(uri)] else []
      ensures configured == old(configured) && backend == old(backend) && workspace == old(workspace)
      ensures executedStages == old(executedStages)
    {
      if isViperFile {
        effects := effects + [FileClosed(uri)];
        if uri in tasks {
          effects := effects + [DiagnosticsCleared(uri)];
          tasks := tasks - {uri};
        }
      }
    }

    /** `canVerificationBeStarted`: the file has a task and the backend is ready. */
    function CanVerificationBeStarted(uri: string, ready: bool): (r: bool)
      reads this
      ensures r ==> uri in tasks
      ensures !ready ==> !r
      ensures uri in tasks && ready ==> r
    {
      uri in tasks && ready
    }

    /**
     * The Verify handler. When the verification can be started it records the
     * workspace, waits for the running verifications to stop (`stopOk` is
     * whether that succeeded), clears the executed stages and asks the file's task to
     * verify (`taskStarts` is its answer); otherwise it only reports that
     * nothing was started.
     */
    method Verify(uri: string, manuallyTriggered: bool, workspace: string, ready: bool, stopOk: bool, taskStarts: bool)
      requires Valid()
      modifies this
      ensures Valid()
      ensures effects == old(effects) + VerifyEffects(uri in old(tasks), ready, uri, manuallyTriggered, stopOk, taskStarts)
      ensures tasks == old(tasks) && configured == old(configured) && backend == old(backend)
      ensures this.workspace == if old(CanVerificationBeStarted(uri, ready)) then workspace else old(this.workspace)
      ensures executedStages == if old(CanVerificationBeStarted(uri, ready)) && stopOk then [] else old(executedStages)
    {
      if !CanVerificationBeStarted(uri, ready) {
        if uri in tasks && manuallyTriggered {
          effects := effects + [NotReadyHint];
        }
        effects := effects + [VerificationNotStarted(uri)];
        return;
      }
      this.workspace := workspace;
      if !stopOk {
        effects := effects + [VerificationNotStarted(uri)];
        return;
      }
      executedStages := [];
      effects := effects + [TaskVerify(uri, manuallyTriggered)];
      if !taskStarts {
        effects := effects + [VerificationNotStarted(uri)];
      }
    }

    /**
     * `checkSettingsAndRestartBackendIfNeeded`, once the settings check has
     * given its verdict `valid`. With invalid settings the nailgun server is
     * stopped. With valid ones a backend is selected (a non-empty `selected`
     * is remembered first); it is restarted when `RestartNeeded` says so, and
     * otherwise it is kept with the old port and reported ready. `failed` is
     * the handler failing at the port retention.
     */
    method CheckSettingsAndRestartBackendIfNeeded(oldSettings: Option<ViperSettings>, selected: string, toolsUpdated: bool,
                                                  valid: bool, ready: bool, how: Retention) returns (failed: bool)
      requires Valid()
      modifies this, config
      ensures Valid()
      ensures configured == old(configured) && workspace == old(workspace) && executedStages == old(executedStages)
      ensures config.errors == old(config.errors)
      ensures !configured ==>
        && !failed && effects == old(effects) && backend == old(backend) && tasks == old(tasks)
        && config.settings == old(config.settings) && config.selectedBackend == old(config.selectedBackend)
      ensures configured && !valid ==>
        && !failed && effects == old(effects) + [StopNailgun] && backend == old(backend)
        && tasks == old(tasks) && config.settings == old(config.settings) && config.selectedBackend == old(config.selectedBackend)
      ensures configured && valid && old(config.settings).verificationBackends == [] ==>
        && !failed && effects == old(effects) && backend == old(backend) && tasks == old(tasks)
        && config.settings == old(config.settings) && config.selectedBackend == ""
      ensures configured && valid && old(config.settings).verificationBackends != [] ==>
        var backends := old(config.settings).verificationBackends;
        var nb := backends[SelectedIndex(backends, if selected != "" then selected else old(config.selectedBackend))];
        var d := DecideRestart(ready, old(backend), nb, old(config.settings).nailgunSettings, oldSettings, toolsUpdated, how);
        && config.selectedBackend == nb.name
        && failed == d.Crash?
        && (d.Restart? ==>
              && backend == Some(nb) && tasks == ResetLastSuccess(old(tasks))
              && effects == old(effects) + [StartNailgun(nb.name)] && config.settings == old(config.settings))
        && (d.KeepRunning? ==>
              && backend == Some(nb) && tasks == old(tasks)
              && effects == old(effects) + [BackendReady(nb.name, false)]
              && config.settings == old(config.settings).(nailgunSettings := old(config.settings).nailgunSettings.(port := d.port)))
        && (d.Crash? ==>
              && backend == old(backend) && tasks == old(tasks) && effects == old(effects)
              && config.settings == old(config.settings))
    {
      failed := false;
      if !configured {
        return;
      }
      if !valid {
        effects := effects + [StopNailgun];
        return;
      }
      var newBackend := config.SelectBackend(config.settings, selected);
      if newBackend.None? {
        return;
      }
      var nb := newBackend.value;
      var same := BackendEquals(backend, newBackend);
      var nailgun := config.settings.nailgunSettings;
      var restart := !ready || !same
        || (oldSettings.Some? && UseNailgunServer(newBackend) && !NailgunEquals(nailgun, oldSettings.value.nailgunSettings))
        || toolsUpdated;
      ghost var d := DecideRestart(ready, old(backend), nb, nailgun, oldSettings, toolsUpdated, how);
      assert restart == d.Restart?;
      if restart {
        backend := newBackend;
        tasks := ResetLastSuccess(tasks);
        effects := effects + [StartNailgun(nb.name)];
      } else {
        if oldSettings.None? && how == Unguarded {
          return true;
        }
        var port := if oldSettings.Some? then oldSettings.value.nailgunSettings.port else nailgun.port;
        config.settings := config.settings.(nailgunSettings := nailgun.(port := port));
        backend := newBackend;
        effects := effects + [BackendReady(nb.name, false)];
      }
    }

    /**
     * A configuration change: the new settings replace the old ones, keeping
     * the old port for a "*" port, and the backend is restarted if needed.
     */
    method OnDidChangeConfiguration(newSettings: ViperSettings, valid: bool, ready: bool)
      requires Valid()
      modifies this, config
      ensures Valid()
      ensures configured
      ensures config.settings.verificationBackends == newSettings.verificationBackends
      ensures config.settings.advancedFeaturesEnabled == newSettings.advancedFeaturesEnabled
      ensures old(configured) && newSettings.nailgunSettings.port == "*" ==>
        config.settings.nailgunSettings.port == old(config.settings).nailgunSettings.port
    {
      var oldSettings := if configured then Some(config.settings) else None;
      config.settings := RetainWildcardPort(newSettings, oldSettings);
      configured := true;
      var _ := CheckSettingsAndRestartBackendIfNeeded(oldSettings, "", false, valid, ready, Guarded);
    }

    /** A StartBackend notification without a name does nothing; with one, the settings are checked and the named backend selected. */
    method OnStartBackend(selected: string, valid: bool, ready: bool)
      requires Valid()
      modifies this, config
      ensures Valid()
      ensures selected == "" ==>
        && tasks == old(tasks) && effects == old(effects) && backend == old(backend)
        && config.settings == old(config.settings) && config.selectedBackend == old(config.selectedBackend)
      ensures selected == "" ==> unchanged(this) && unchanged(config)
      ensures selected != "" && configured && valid && old(config.settings).verificationBackends != [] ==>
        && |effects| == |old(effects)| + 1
        && (effects[|effects| - 1].StartNailgun? || effects[|effects| - 1].BackendReady?)
        && (FirstBackendNamed(old(config.settings).verificationBackends, selected, 0).Some? ==> config.selectedBackend == selected)
      ensures configured == old(configured) && workspace == old(workspace) && executedStages == old(executedStages)
      ensures config.errors == old(config.errors)
      ensures selected != "" && !configured ==>
        && effects == old(effects) && backend == old(backend) && tasks == old(tasks)
        && config.settings == old(config.settings) && config.selectedBackend == old(config.selectedBackend)
      ensures selected != "" && configured && !valid ==>
        && effects == old(effects) + [StopNailgun] && backend == old(backend) && tasks == old(tasks)
        && config.settings == old(config.settings) && config.selectedBackend == old(config.selectedBackend)
      ensures selected != "" && configured && valid && old(config.settings).verificationBackends == [] ==>
        && effects == old(effects) && backend == old(backend) && tasks == old(tasks)
        && config.settings == old(config.settings) && config.selectedBackend == ""
      ensures selected != "" && configured && valid && old(config.settings).verificationBackends != [] ==>
        var backends := old(config.settings).verificationBackends;
        var nb := backends[SelectedIndex(backends, selected)];
        var d := DecideRestart(ready, old(backend), nb, old(config.settings).nailgunSettings, None, false, Guarded);
        && config.selectedBackend == nb.name && backend == Some(nb) && config.settings == old(config.settings)
        && (d.Restart? ==> tasks == ResetLastSuccess(old(tasks)) && effects == old(effects) + [StartNailgun(nb.name)])
        && (d.KeepRunning? ==> tasks == old(tasks) && effects == old(effects) + [BackendReady(nb.name, false)])
    {
      if selected == "" {
        return;
      }
      var _ := CheckSettingsAndRestartBackendIfNeeded(None, selected, false, valid, ready, Guarded);
    }

    /** RemoveDiagnostics answers whether the file has a task, clearing its diagnostics when it has. */
    method RemoveDiagnostics(uri: string) returns (r: bool)
      requires Valid()
      modifies this
      ensures Valid()
      ensures r <==> uri in old(tasks)
      ensures tasks == if r then old(tasks)[uri := old(tasks)[uri].(diagnostics := [])] else old(tasks)
      ensures effects == old(effects) + if r then [DiagnosticsCleared(uri)] else []
      ensures configured == old(configured) && backend == old(backend) && workspace == old(workspace)
      ensures executedStages == old(executedStages)
    {
      if uri in tasks {
        tasks := tasks[uri := tasks[uri].(diagnostics := [])];
        effects := effects + [DiagnosticsCleared(uri)];
        return true;
      }
      return false;
    }

    /**
     * GetExecutionTrace: without a task or a step for the client state the
     * answer is empty. Otherwise, in advanced mode, the expansion states and
     * the top-level states come first as uninteresting entries, then the walk
     * from the step of the client state; the file's task keeps the trace as shown
     * when the walk moves past its first step.
     */
    method GetExecutionTrace(uri: string, clientState: nat, dark: bool, simpleMode: bool,
                             expansionStates: seq<nat>, topLevelStates: seq<nat>) returns (result: seq<TraceEntry>)
      requires Valid()
      modifies this
      ensures Valid()
      ensures uri !in old(tasks) || clientState >= |old(tasks)[uri].clientStepIndexToServerStep| ==>
        result == [] && tasks == old(tasks)
      ensures uri in old(tasks) && clientState < |old(tasks)[uri].clientStepIndexToServerStep| ==>
        var t := old(tasks)[uri];
        var start := t.clientStepIndexToServerStep[clientState];
        && result == (if simpleMode then [] else Decorations(expansionStates, dark) + Decorations(topLevelStates, dark))
             + Shown(t.steps, Walk(t.steps, start, t.steps[start].depth), dark)
        && tasks == if Moves(t.steps[start]) then old(tasks)[uri := t.(shownExecutionTrace := result)] else old(tasks)
      ensures effects == old(effects) && configured == old(configured) && backend == old(backend)
      ensures workspace == old(workspace) && executedStages == old(executedStages)
    {
      result := [];
      if uri !in tasks || clientState >= |tasks[uri].clientStepIndexToServerStep| {
        return;
      }
      var task := tasks[uri];
      var start := task.clientStepIndexToServerStep[clientState];
      if !simpleMode {
        result := result + Decorations(expansionStates, dark) + Decorations(topLevelStates, dark);
      }
      var walked := TraceWalk(task.steps, start, dark);
      result := result + walked;
      if Moves(task.steps[start]) {
        tasks := tasks[uri := task.(shownExecutionTrace := result)];
      }
    }
  }
}

=== FILE: settings.dfy ===
/**
 * The settings logic of server/src/Settings.ts: stage lookup, backend and
 * nailgun equality, engine resolution, backend selection, merging user
 * backends with defaults, the nailgun and backend checks, and the expansion
 * of `%NAME%` environment variables in paths.
 *
 * A missing string setting (undefined, null) is the empty string, a missing
 * number or flag is None. The static state of the `Settings` class (the
 * current settings, `selectedBackend`, `_errors`) lives in `SettingsState`.
 */
module Settings {
  import opened Wrappers
  import opened Strings

  datatype Stage = Stage(
    name: string,
    isVerification: Option<bool>,
    mainMethod: string,
    customArguments: Option<string>,
    onParsingError: string,
    onTypeCheckingError: string,
    onVerificationError: string,
    onSuccess: string)

  datatype Backend = Backend(
    name: string,
    backendType: string,
    paths: seq<string>,
    engine: string,
    timeout: Option<int>,
    stages: seq<Stage>)

  datatype NailgunSettings = NailgunSettings(
    clientExecutable: string,
    port: string,
    serverJar: string,
    timeout: Option<int>)

  datatype ViperSettings = ViperSettings(
    nailgunSettings: NailgunSettings,
    verificationBackends: seq<Backend>,
    advancedFeaturesEnabled: bool)

  /** The outcomes of a verification run that pick a follow-up stage; every other outcome picks none. */
  datatype Success = Success | ParsingFailed | TypecheckingFailed | VerificationFailed | OtherOutcome

  datatype SettingsErrorType = Error | Warning

  datatype SettingsError = SettingsError(errorType: SettingsErrorType, msg: string)

  /** Why `extractEnvVars` gave up on a path. */
  datatype PathError =
    | UnbalancedPercent(path: string)
    | UnsetVariable(name: string, path: string)
    | PercentInValue(name: string, value: string)

  /** The message `extractEnvVars` reports for each failure. */
  function PathErrorText(e: PathError): string {
    match e
    case UnbalancedPercent(path) => "unbalanced % in path: " + path
    case UnsetVariable(name, path) => "environment variable " + name + " used in path " + path + " is not set"
    case PercentInValue(name, value) => "environment variable: " + name + " must not contain %: " + value
  }

  datatype ResolvedPath = ResolvedPath(path: string, pathExists: bool, error: Option<PathError>)

  // ------------------------------------------------------------------ stages

  /** `getStage`: the first stage called `name`; none for an empty name. */
  method GetStage(backend: Backend, name: string) returns (r: Option<Stage>)
    ensures r.None? <==> name == "" || forall k :: 0 <= k < |backend.stages| ==> backend.stages[k].name != name
    ensures r.Some? ==> r.value.name == name
    ensures r.Some? ==> exists k :: (0 <= k < |backend.stages| && backend.stages[k] == r.value &&
      forall j :: 0 <= j < k ==> backend.stages[j].name != name)
  {
    if name == "" {
      return None;
    }
    for i := 0 to |backend.stages|
      invariant forall j :: 0 <= j < i ==> backend.stages[j].name != name
    {
      var stage := backend.stages[i];
      if stage.name == name {
        return Some(stage);
      }
    }
    return None;
  }

  /** The follow-up stage that `getStageFromSuccess` looks up for an outcome, if any. */
  function FollowUp(stage: Stage, success: Success): Option<string> {
    match success
    case ParsingFailed => Some(stage.onParsingError)
    case VerificationFailed => Some(stage.onVerificationError)
    case TypecheckingFailed => Some(stage.onTypeCheckingError)
    case Success => Some(stage.onSuccess)
    case OtherOutcome => None
  }

  /** `getStageFromSuccess`: the stage named by the matching `on…` field of `stage`. */
  method GetStageFromSuccess(backend: Backend, stage: Stage, success: Success) returns (r: Option<Stage>)
    ensures FollowUp(stage, success).None? ==> r.None?
    ensures r.Some? ==> r.value in backend.stages && FollowUp(stage, success) == Some(r.value.name)
    ensures FollowUp(stage, success).Some? && FollowUp(stage, success).value != "" &&
      (exists k :: 0 <= k < |backend.stages| && backend.stages[k].name == FollowUp(stage, success).value)
      ==> r.Some?
    ensures FollowUp(stage, success) == Some("") ==> r.None?
    ensures r.Some? ==> exists k :: (0 <= k < |backend.stages| && backend.stages[k] == r.value &&
      forall j :: 0 <= j < k ==> backend.stages[j].name != r.value.name)
  {
    match success
    case ParsingFailed => r := GetStage(backend, stage.onParsingError);
    case VerificationFailed => r := GetStage(backend, stage.onVerificationError);
    case TypecheckingFailed => r := GetStage(backend, stage.onTypeCheckingError);
    case Success => r := GetStage(backend, stage.onSuccess);
    case OtherOutcome => r := None;
  }

  // ------------------------------------------------------ equality and engines

  /** `stageEquals`: all eight fields agree. */
  function StageEquals(a: Stage, b: Stage): (r: bool)
    ensures r <==> a == b
  {
    && a.customArguments == b.customArguments
    && a.mainMethod == b.mainMethod
    && a.name == b.name
    && a.isVerification == b.isVerification
    && a.onParsingError == b.onParsingError
    && a.onTypeCheckingError == b.onTypeCheckingError
    && a.onVerificationError == b.onVerificationError
    && a.onSuccess == b.onSuccess
  }

  /** `nailgunEquals`: client, port, server jar and timeout agree. */
  function NailgunEquals(newSettings: NailgunSettings, oldSettings: NailgunSettings): (r: bool)
    ensures r <==> newSettings == oldSettings
  {
    && oldSettings.clientExecutable == newSettings.clientExecutable
    && oldSettings.port == newSettings.port
    && oldSettings.serverJar == newSettings.serverJar
    && oldSettings.timeout == newSettings.timeout
  }

  /** The engine names, compared case-insensitively. */
  predicate IsNailgunEngine(engine: string) {
    Lower(engine) == "nailgun"
  }

  predicate IsViperServerEngine(engine: string) {
    Lower(engine) == "viperserver"
  }

  /**
   * `resolveEngine`: an engine named "viperserver" or "nailgun" in any case is
   * kept as written, anything else becomes "none".
   */
  function ResolveEngine(engine: string): (r: string)
    ensures r == engine || r == "none"
    ensures IsNailgunEngine(r) == IsNailgunEngine(engine)
    ensures IsViperServerEngine(r) == IsViperServerEngine(engine)
    ensures r == engine <==> IsNailgunEngine(engine) || IsViperServerEngine(engine) || engine == "none"
  {
    assert Lower("none") == "none";
    if IsViperServerEngine(engine) || IsNailgunEngine(engine) then engine else "none"
  }

  lemma ResolveEngineIdempotent(engine: string)
    ensures ResolveEngine(ResolveEngine(engine)) == ResolveEngine(engine)
  {
  }

  /** `useNailgunServer`: the backend exists and its engine is "nailgun" in any case. */
  function UseNailgunServer(backend: Option<Backend>): bool {
    backend.Some? && IsNailgunEngine(backend.value.engine)
  }

  /** `useViperServer`: the backend exists and its engine is "viperserver" in any case. */
  function UseViperServer(backend: Option<Backend>): bool {
    backend.Some? && IsViperServerEngine(backend.value.engine)
  }

  /** No backend asks for both engines, and resolving the engine never changes which one it asks for. */
  lemma EngineChoice(b: Backend)
    ensures !(UseNailgunServer(Some(b)) && UseViperServer(Some(b)))
    ensures UseNailgunServer(Some(b.(engine := ResolveEngine(b.engine)))) == UseNailgunServer(Some(b))
    ensures UseViperServer(Some(b.(engine := ResolveEngine(b.engine)))) == UseViperServer(Some(b))
  {
  }

  /** The relation `backendEquals` decides for two present backends. */
  predicate SameBackend(a: Backend, b: Backend) {
    && a.name == b.name
    && a.backendType == b.backendType
    && a.timeout == b.timeout
    && ResolveEngine(a.engine) == ResolveEngine(b.engine)
    && a.stages == b.stages
    && a.paths == b.paths
  }

  /** `backendEquals`: false when either backend is missing, otherwise folds `same` over the fields, stages and paths. */
  method BackendEquals(a: Option<Backend>, b: Option<Backend>) returns (same: bool)
    ensures same <==> a.Some? && b.Some? && SameBackend(a.value, b.value)
  {
    if a.None? || b.None? {
      return false;
    }
    var x, y := a.value, b.value;
    same := |x.stages| == |y.stages|;
    same := same && x.name == y.name;
    same := same && x.backendType == y.backendType;
    same := same && x.timeout == y.timeout;
    same := same && ResolveEngine(x.engine) == ResolveEngine(y.engine);
    for i := 0 to |x.stages|
      invariant same ==> |x.stages| == |y.stages|
      invariant same <==> (|x.stages| == |y.stages| && x.name == y.name && x.backendType == y.backendType &&
        x.timeout == y.timeout && ResolveEngine(x.engine) == ResolveEngine(y.engine) && x.stages[..i] == y.stages[..i])
    {
      same := same && StageEquals(x.stages[i], y.stages[i]);
      if |x.stages| == |y.stages| {
        assert x.stages[..i + 1] == x.stages[..i] + [x.stages[i]] && y.stages[..i + 1] == y.stages[..i] + [y.stages[i]];
      }
    }
    assert x.stages[..|x.stages|] == x.stages;
    assert same ==> y.stages[..|y.stages|] == y.stages;
    same := same && |x.paths| == |y.paths|;
    for i := 0 to |x.paths|
      invariant same <==> (|x.stages| == |y.stages| && x.name == y.name && x.backendType == y.backendType &&
        x.timeout == y.timeout && ResolveEngine(x.engine) == ResolveEngine(y.engine) && x.stages == y.stages &&
        |x.paths| == |y.paths| && x.paths[..i] == y.paths[..i])
    {
      same := same && x.paths[i] == y.paths[i];
      if |x.paths| == |y.paths| {
        assert x.paths[..i + 1] == x.paths[..i] + [x.paths[i]] && y.paths[..i + 1] == y.paths[..i] + [y.paths[i]];
      }
    }
    assert x.paths[..|x.paths|] == x.paths;
    assert |x.paths| == |y.paths| ==> y.paths[..|y.paths|] == y.paths;
  }

  /** Every backend equals itself, and equality does not tell unknown engine names apart. */
  lemma SameBackendReflexive(a: Backend, engine: string)
    ensures SameBackend(a, a)
    ensures !IsNailgunEngine(engine) && !IsViperServerEngine(engine) && !IsNailgunEngine(a.engine) && !IsViperServerEngine(a.engine)
      ==> SameBackend(a, a.(engine := engine))
  {
  }

  lemma SameBackendSymmetricTransitive(a: Backend, b: Backend, c: Backend)
    ensures SameBackend(a, b) ==> SameBackend(b, a)
    ensures SameBackend(a, b) && SameBackend(b, c) ==> SameBackend(a, c)
  {
  }

  // ------------------------------------------------------------ small helpers

  /** `isJar`: the trimmed file name ends with ".jar"; false for a missing name. */
  function IsJar(file: string): bool {
    file != "" && EndsWith(Trim(file), ".jar")
  }

  /** Trimming the end stops at the last character that is not white space. */
  lemma TrimEndAt(s: string, n: nat)
    requires 0 < n <= |s| && !IsJsWhitespace(s[n - 1])
    requires forall k :: n <= k < |s| ==> IsJsWhitespace(s[k])
    ensures TrimEnd(s) == s[..n]
  {
    var e := TrimEnd(s);
    if |e| > 0 {
      assert e[|e| - 1] == s[|e| - 1];
    }
  }

  /** Trimming the start never passes a character that is not white space. */
  lemma TrimStartBefore(s: string, m: nat)
    requires m < |s| && !IsJsWhitespace(s[m])
    ensures |TrimStart(s)| >= |s| - m
  {
  }

  /** A ".jar" followed by white space only survives `trimEnd`. */
  lemma JarTailSurvivesTrimEnd(t: string, m: nat)
    requires 4 <= m <= |t| && t[m - 4..m] == ".jar"
    requires forall k :: m <= k < |t| ==> IsJsWhitespace(t[k])
    ensures EndsWith(TrimEnd(t), ".jar")
  {
    JarPrefixEndsWithJar(t, m);
    TrimEndAt(t, m);
  }

  lemma JarPrefixEndsWithJar(t: string, m: nat)
    requires 4 <= m <= |t| && t[m - 4..m] == ".jar"
    ensures EndsWith(t[..m], ".jar") && !IsJsWhitespace(t[m - 1])
  {
    assert t[m - 1] == t[m - 4..m][3];
    assert t[..m][m - 4..] == t[m - 4..m];
  }

  /** Dropping a prefix shorter than `n - 4` keeps the tail from `n - 4` on. */
  lemma DropKeepsTail(file: string, d: nat, n: nat)
    requires d <= n - 4 && 4 <= n <= |file| && file[n - 4..n] == ".jar"
    requires forall k :: n <= k < |file| ==> IsJsWhitespace(file[k])
    ensures file[d..][n - d - 4..n - d] == ".jar"
    ensures forall k :: n - d <= k < |file| - d ==> IsJsWhitespace(file[d..][k])
  {
    assert file[d..][n - d - 4..n - d] == file[n - 4..n];
  }

  /** ".jar" ends at `n` in `file`, and only white space follows it. */
  ghost predicate JarEndsAt(file: string, n: nat) {
    && 4 <= n <= |file| && file[n - 4..n] == ".jar"
    && forall k :: n <= k < |file| ==> IsJsWhitespace(file[k])
  }

  /** A file name whose last characters other than white space are ".jar" is a jar. */
  lemma JarNameIsJar(file: string, n: nat)
    requires JarEndsAt(file, n)
    ensures IsJar(file)
  {
    assert file[n - 4] == '.';
    TrimStartBefore(file, n - 4);
    var d := |file| - |TrimStart(file)|;
    DropKeepsTail(file, d, n);
    JarTailSurvivesTrimEnd(file[d..], n - d);
  }

  /** Only such a name is a jar: its trimmed form ends with ".jar" at some `n`, followed by white space. */
  lemma JarOnlyIfJarName(file: string)
    requires IsJar(file)
    ensures exists n :: JarEndsAt(file, n)
  {
    var t := TrimStart(file);
    var d := |file| - |t|;
    var u := TrimEnd(t);
    var n := d + |u|;
    assert file[n - 4..n] == t[|u| - 4..|u|] == u[|u| - 4..];
    forall k | n <= k < |file|
      ensures IsJsWhitespace(file[k])
    {
      assert file[k] == t[k - d];
    }
    assert JarEndsAt(file, n);
  }

  /** A missing or non-positive timeout becomes null. */
  function NormalizeTimeout(t: Option<int>): (r: Option<int>)
    ensures r.Some? ==> r == t && r.value > 0
    ensures t.Some? && t.value > 0 ==> r == t
  {
    if t.None? || t.value <= 0 then None else t
  }

  /** `getBackendNames`: the names of the backends, in order. */
  method GetBackendNames(backends: seq<Backend>) returns (names: seq<string>)
    ensures |names| == |backends|
    ensures forall i :: 0 <= i < |backends| ==> names[i] == backends[i].name
  {
    names := [];
    for i := 0 to |backends|
      invariant |names| == i
      invariant forall j :: 0 <= j < i ==> names[j] == backends[j].name
    {
      names := names + [backends[i].name];
    }
  }

  // ---------------------------------------------------- merging with defaults

  /** The stage `cus` with its unset arguments, main method and verification flag taken from `def`. */
  function MergeStage(cus: Stage, def: Stage): Stage {
    cus.(customArguments := if cus.customArguments.None? then def.customArguments else cus.customArguments,
         mainMethod := if cus.mainMethod == "" then def.mainMethod else cus.mainMethod,
         isVerification := if cus.isVerification.None? then def.isVerification else cus.isVerification)
  }

  /** `m` is `c` with at most its unset arguments, main method and verification flag filled in. */
  predicate Fills(m: Stage, c: Stage) {
    && m.name == c.name
    && m.onParsingError == c.onParsingError && m.onTypeCheckingError == c.onTypeCheckingError
    && m.onVerificationError == c.onVerificationError && m.onSuccess == c.onSuccess
    && (c.customArguments.Some? ==> m.customArguments == c.customArguments)
    && (c.mainMethod != "" ==> m.mainMethod == c.mainMethod)
    && (c.isVerification.Some? ==> m.isVerification == c.isVerification)
  }

  /** `def` adds nothing to `s`. */
  predicate Absorbs(s: Stage, def: Stage) {
    MergeStage(s, def) == s
  }

  lemma MergeStageFacts(cus: Stage, def: Stage)
    ensures Fills(MergeStage(cus, def), cus)
    ensures Absorbs(MergeStage(cus, def), def)
  {
  }

  /** Filling more fields never loses what a default already contributed. */
  lemma FillsKeepsAbsorbs(m: Stage, c: Stage, def: Stage)
    requires Fills(m, c) && Absorbs(c, def)
    ensures Absorbs(m, def)
  {
  }

  /** The index of the first stage at or after `i` called `name`. */
  function FirstNamedFrom(stages: seq<Stage>, name: string, i: nat): (r: Option<nat>)
    requires i <= |stages|
    ensures r.Some? ==> i <= r.value < |stages| && stages[r.value].name == name
    ensures r.Some? ==> forall j :: i <= j < r.value ==> stages[j].name != name
    ensures r.None? ==> forall j :: i <= j < |stages| ==> stages[j].name != name
    decreases |stages| - i
  {
    if i == |stages| then None
    else if stages[i].name == name then Some(i)
    else FirstNamedFrom(stages, name, i + 1)
  }

  /** The index of the first stage called `name`: `custom.filter(s => s.name == name)[0]`. */
  function FirstNamed(stages: seq<Stage>, name: string): (r: Option<nat>)
    ensures r.Some? ==> r.value < |stages| && stages[r.value].name == name
    ensures r.Some? ==> forall j :: 0 <= j < r.value ==> stages[j].name != name
    ensures r.None? ==> forall j :: 0 <= j < |stages| ==> stages[j].name != name
  {
    FirstNamedFrom(stages, name, 0)
  }

  /** One round of `mergeStages`: merge `def` into the first stage of its name, or append it. */
  function MergeStep(stages: seq<Stage>, def: Stage): (r: seq<Stage>)
    ensures |r| >= |stages|
  {
    match FirstNamed(stages, def.name)
    case Some(i) => stages[i := MergeStage(stages[i], def)]
    case None => stages + [def]
  }

  /** `mergeStages` after the first `n` default stages. */
  function MergedStages(custom: seq<Stage>, defaults: seq<Stage>, n: nat): seq<Stage>
    requires n <= |defaults|
  {
    if n == 0 then custom else MergeStep(MergedStages(custom, defaults, n - 1), defaults[n - 1])
  }

  /** `ms` keeps every stage of `custom` in place, filling only unset fields, and appends only default stages. */
  predicate KeepsCustom(ms: seq<Stage>, custom: seq<Stage>, defaults: seq<Stage>) {
    && |ms| >= |custom|
    && (forall i :: 0 <= i < |custom| ==> Fills(ms[i], custom[i]))
    && (forall i :: |custom| <= i < |ms| ==> exists k :: 0 <= k < |defaults| && Fills(ms[i], defaults[k]))
  }

  /** The first stage of each merged default's name has absorbed that default. */
  predicate AbsorbsAll(ms: seq<Stage>, defaults: seq<Stage>, n: nat)
    requires n <= |defaults|
  {
    forall k :: 0 <= k < n ==>
      FirstNamed(ms, defaults[k].name).Some? && Absorbs(ms[FirstNamed(ms, defaults[k].name).value], defaults[k])
  }

  lemma FillsTransitive(a: Stage, b: Stage, c: Stage)
    requires Fills(a, b) && Fills(b, c)
    ensures Fills(a, c)
  {
  }

  /** One merge step keeps the stages' names, so the first stage of a name stays where it was. */
  lemma MergeStepKeepsFirst(stages: seq<Stage>, def: Stage, name: string)
    requires FirstNamed(stages, name).Some?
    ensures FirstNamed(MergeStep(stages, def), name) == FirstNamed(stages, name)
    ensures Fills(MergeStep(stages, def)[FirstNamed(stages, name).value], stages[FirstNamed(stages, name).value])
  {
    var r := MergeStep(stages, def);
    var i := FirstNamed(stages, name).value;
    match FirstNamed(stages, def.name)
    case Some(j) =>
      MergeStageFacts(stages[j], def);
      assert forall k :: 0 <= k < |r| ==> r[k].name == stages[k].name;
      FirstNamedByNames(r, stages, name);
    case None =>
      assert forall k :: 0 <= k < |stages| ==> r[k] == stages[k];
      FirstNamedByNames(r, stages, name);
  }

  /** `FirstNamed` only looks at the names of a prefix that holds one. */
  lemma FirstNamedByNames(r: seq<Stage>, stages: seq<Stage>, name: string)
    requires FirstNamed(stages, name).Some? && |r| >= |stages|
    requires forall k :: 0 <= k < |stages| ==> r[k].name == stages[k].name
    ensures FirstNamed(r, name) == FirstNamed(stages, name)
  {
    var i := FirstNamed(stages, name).value;
    var j := FirstNamed(r, name);
    assert r[i].name == name;
    assert forall k :: 0 <= k < i ==> r[k].name != name;
  }

  /** A merge step only fills unset fields of the stages it keeps, and appends nothing but its default. */
  lemma MergeStepFills(stages: seq<Stage>, def: Stage)
    ensures forall i :: 0 <= i < |stages| ==> Fills(MergeStep(stages, def)[i], stages[i])
    ensures |MergeStep(stages, def)| == |stages| + (if FirstNamed(stages, def.name).Some? then 0 else 1)
    ensures FirstNamed(stages, def.name).None? ==> MergeStep(stages, def)[|stages|] == def
  {
    var r := MergeStep(stages, def);
    match FirstNamed(stages, def.name)
    case Some(j) =>
      MergeStageFacts(stages[j], def);
    case None =>
  }

  /** A merge step keeps the custom stages in place. */
  lemma MergeStepKeepsCustom(stages: seq<Stage>, custom: seq<Stage>, defaults: seq<Stage>, n: nat)
    requires n < |defaults| && KeepsCustom(stages, custom, defaults)
    ensures KeepsCustom(MergeStep(stages, defaults[n]), custom, defaults)
  {
    var r := MergeStep(stages, defaults[n]);
    MergeStepFills(stages, defaults[n]);
    forall i | 0 <= i < |custom| ensures Fills(r[i], custom[i]) {
      FillsTransitive(r[i], stages[i], custom[i]);
    }
    forall i | |custom| <= i < |r| ensures exists k :: 0 <= k < |defaults| && Fills(r[i], defaults[k]) {
      if i < |stages| {
        var k :| 0 <= k < |defaults| && Fills(stages[i], defaults[k]);
        FillsTransitive(r[i], stages[i], defaults[k]);
      } else {
        assert Fills(r[i], defaults[n]);
      }
    }
  }

  /** After a merge step the first stage named like its default has absorbed it. */
  lemma MergeStepAbsorbsDefault(stages: seq<Stage>, def: Stage)
    ensures FirstNamed(MergeStep(stages, def), def.name).Some?
    ensures Absorbs(MergeStep(stages, def)[FirstNamed(MergeStep(stages, def), def.name).value], def)
  {
    var r := MergeStep(stages, def);
    match FirstNamed(stages, def.name)
    case Some(j) =>
      MergeStageFacts(stages[j], def);
      MergeStepKeepsFirst(stages, def, def.name);
    case None =>
      assert forall k :: 0 <= k < |stages| ==> r[k] == stages[k];
      assert r[|stages|] == def;
      assert forall k :: 0 <= k < |stages| ==> r[k].name != def.name;
  }

  /** A merge step absorbs its default and keeps what earlier defaults contributed. */
  lemma MergeStepAbsorbs(stages: seq<Stage>, defaults: seq<Stage>, n: nat)
    requires n < |defaults| && AbsorbsAll(stages, defaults, n)
    ensures AbsorbsAll(MergeStep(stages, defaults[n]), defaults, n + 1)
  {
    var r := MergeStep(stages, defaults[n]);
    forall k | 0 <= k < n + 1
      ensures FirstNamed(r, defaults[k].name).Some? && Absorbs(r[FirstNamed(r, defaults[k].name).value], defaults[k])
    {
      if k < n {
        var i := FirstNamed(stages, defaults[k].name).value;
        MergeStepKeepsFirst(stages, defaults[n], defaults[k].name);
        FillsKeepsAbsorbs(r[i], stages[i], defaults[k]);
      } else {
        MergeStepAbsorbsDefault(stages, defaults[n]);
      }
    }
  }

  /** What `mergeStages` promises: custom stages stay in place and only gain unset fields. */
  lemma {:induction false} MergedStagesKeepCustom(custom: seq<Stage>, defaults: seq<Stage>, n: nat)
    requires n <= |defaults|
    ensures KeepsCustom(MergedStages(custom, defaults, n), custom, defaults)
  {
    if n > 0 {
      MergedStagesKeepCustom(custom, defaults, n - 1);
      MergeStepKeepsCustom(MergedStages(custom, defaults, n - 1), custom, defaults, n - 1);
    }
  }

  /** What `mergeStages` promises: the first stage of every default's name has absorbed that default. */
  lemma {:induction false} MergedStagesAbsorbAll(custom: seq<Stage>, defaults: seq<Stage>, n: nat)
    requires n <= |defaults|
    ensures AbsorbsAll(MergedStages(custom, defaults, n), defaults, n)
  {
    if n > 0 {
      var prev := MergedStages(custom, defaults, n - 1);
      MergedStagesAbsorbAll(custom, defaults, n - 1);
      MergeStepAbsorbs(prev, defaults, n - 1);
      assert MergedStages(custom, defaults, n) == MergeStep(prev, defaults[n - 1]);
    }
  }

  /** Merging defaults that are already absorbed changes nothing. */
  lemma {:induction false} MergeAbsorbedUnchanged(ms: seq<Stage>, defaults: seq<Stage>, n: nat)
    requires n <= |defaults| && AbsorbsAll(ms, defaults, |defaults|)
    ensures MergedStages(ms, defaults, n) == ms
  {
    if n > 0 {
      MergeAbsorbedUnchanged(ms, defaults, n - 1);
      var i := FirstNamed(ms, defaults[n - 1].name).value;
      assert ms[i := MergeStage(ms[i], defaults[n - 1])] == ms;
    }
  }

  /** Merging the same defaults twice is merging them once. */
  lemma MergeStagesIdempotent(custom: seq<Stage>, defaults: seq<Stage>)
    ensures MergedStages(MergedStages(custom, defaults, |defaults|), defaults, |defaults|)
      == MergedStages(custom, defaults, |defaults|)
  {
    MergedStagesAbsorbAll(custom, defaults, |defaults|);
    MergeAbsorbedUnchanged(MergedStages(custom, defaults, |defaults|), defaults, |defaults|);
  }

  /** `mergeStages`: the custom stage array after merging each default stage into it. */
  method MergeStages(custom: seq<Stage>, defaultStages: seq<Stage>) returns (merged: seq<Stage>)
    ensures merged == MergedStages(custom, defaultStages, |defaultStages|)
    ensures KeepsCustom(merged, custom, defaultStages)
    ensures forall k :: 0 <= k < |defaultStages| ==> exists i :: 0 <= i < |merged| && merged[i].name == defaultStages[k].name
  {
    merged := custom;
    for n := 0 to |defaultStages|
      invariant merged == MergedStages(custom, defaultStages, n)
    {
      var def := defaultStages[n];
      var cus := FirstNamed(merged, def.name);
      if cus.Some? {
        merged := merged[cus.value := MergeStage(merged[cus.value], def)];
      } else {
        merged := merged + [def];
      }
    }
    MergedStagesKeepCustom(custom, defaultStages, |defaultStages|);
    MergedStagesAbsorbAll(custom, defaultStages, |defaultStages|);
  }

  /** The backend `mergeBackend` leaves behind. */
  function MergedBackend(custom: Backend, def: Backend): Backend {
    if custom.name != def.name then custom
    else custom.(
      paths := if custom.paths == [] then def.paths else custom.paths,
      stages := MergedStages(custom.stages, def.stages, |def.stages|),
      timeout := if custom.timeout.None? || custom.timeout == Some(0) then def.timeout else custom.timeout,
      engine := if custom.engine == "" then def.engine else custom.engine,
      backendType := if custom.backendType == "" then def.backendType else custom.backendType)
  }

  /**
   * `mergeBackend`: only a default of the same name is merged; it fills the
   * missing paths, timeout (also a zero timeout), engine and type and merges
   * the stages.
   */
  method MergeBackend(custom: Backend, def: Backend) returns (merged: Backend)
    ensures merged == MergedBackend(custom, def)
    ensures custom.name != def.name ==> merged == custom
    ensures merged.name == custom.name
    ensures custom.paths != [] ==> merged.paths == custom.paths
    ensures custom.engine != "" ==> merged.engine == custom.engine
    ensures custom.backendType != "" ==> merged.backendType == custom.backendType
    ensures custom.timeout.Some? && custom.timeout != Some(0) ==> merged.timeout == custom.timeout
    ensures KeepsCustom(merged.stages, custom.stages, def.stages)
  {
    if custom.name != def.name {
      return custom;
    }
    merged := custom;
    if merged.paths == [] {
      merged := merged.(paths := def.paths);
    }
    var stages := MergeStages(merged.stages, def.stages);
    merged := merged.(stages := stages);
    if merged.timeout.None? || merged.timeout == Some(0) {
      merged := merged.(timeout := def.timeout);
    }
    if merged.engine == "" {
      merged := merged.(engine := def.engine);
    }
    if merged.backendType == "" {
      merged := merged.(backendType := def.backendType);
    }
  }

  /** Merging a backend twice with the same default is merging it once. */
  lemma MergeBackendIdempotent(custom: Backend, def: Backend)
    ensures MergedBackend(MergedBackend(custom, def), def) == MergedBackend(custom, def)
  {
    if custom.name == def.name {
      MergeStagesIdempotent(custom.stages, def.stages);
    }
  }

  // ------------------------------------------------- environment variables

  /** How `extractEnvVars` splices a value in: as written (dropping one more character) or as intended. */
  datatype Splice = AsWritten | Intended

  /** The number of '%' characters in `s`. */
  function CountPercent(s: string): nat {
    if s == [] then 0 else (if s[0] == '%' then 1 else 0) + CountPercent(s[1..])
  }

  lemma {:induction false} CountPercentAppend(a: string, b: string)
    ensures CountPercent(a + b) == CountPercent(a) + CountPercent(b)
  {
    if a == [] {
      assert a + b == b;
    } else {
      assert (a + b)[0] == a[0] && (a + b)[1..] == a[1..] + b;
      CountPercentAppend(a[1..], b);
    }
  }

  lemma {:induction false} CountPercentNone(s: string)
    requires '%' !in s
    ensures CountPercent(s) == 0
  {
    if s != [] {
      assert s[0] in s;
      assert forall k :: 0 <= k < |s| - 1 ==> s[1..][k] == s[k + 1];
      CountPercentNone(s[1..]);
    }
  }

  /**
   * `path` with the variable between the '%' at `start` and the one at `end`
   * replaced by `value`. As written, `path.substring(0, start - 1)` also drops
   * the character before the first '%' (a negative end counts as 0).
   */
  function SpliceVar(path: string, start: nat, end: nat, value: string, how: Splice): string
    requires start < end < |path|
  {
    var keep := if how == Intended then start else if start == 0 then 0 else start - 1;
    path[..keep] + value + path[end + 1..]
  }

  /** Cutting a string at four positions and gluing the pieces back gives the string. */
  lemma CutAround(path: string, keep: nat, start: nat, end: nat)
    requires keep <= start < end < |path|
    ensures path == path[..keep] + path[keep..start] + [path[start]] + path[start + 1..end] + [path[end]] + path[end + 1..]
  {
  }

  /** Replacing `%name%` and what precedes it in `gap` by a value without '%' removes at least two '%'. */
  lemma CountSplice(front: string, gap: string, name: string, back: string, value: string)
    requires '%' !in front && '%' !in value
    ensures CountPercent(front + value + back) + 2 <= CountPercent(front + gap + ['%'] + name + ['%'] + back)
  {
    CountPercentAppend(front + gap + ['%'] + name + ['%'], back);
    CountPercentAppend(front + gap + ['%'] + name, ['%']);
    CountPercentAppend(front + gap + ['%'], name);
    CountPercentAppend(front + gap, ['%']);
    CountPercentAppend(front, gap);
    CountPercentAppend(front + value, back);
    CountPercentAppend(front, value);
    CountPercentNone(front);
    CountPercentNone(value);
  }

  lemma SpliceVarCount(path: string, start: nat, end: nat, value: string, how: Splice)
    requires start < end < |path| && path[start] == '%' && path[end] == '%'
    requires forall k :: 0 <= k < start ==> path[k] != '%'
    requires '%' !in value
    ensures CountPercent(SpliceVar(path, start, end, value, how)) + 2 <= CountPercent(path)
  {
    var keep := if how == Intended then start else if start == 0 then 0 else start - 1;
    CutAround(path, keep, start, end);
    assert '%' !in path[..keep];
    CountSplice(path[..keep], path[keep..start], path[start + 1..end], path[end + 1..], value);
  }

  /** `extractEnvVars` as a function of the path and the environment. */
  function ResolveVars(path: string, env: map<string, string>, how: Splice): ResolvedPath
    decreases CountPercent(path)
  {
    var start := IndexOfChar(path, '%', 0);
    if start < 0 then ResolvedPath(path, true, None)
    else
      var end := IndexOfChar(path, '%', start + 1);
      if end < 0 then ResolvedPath(path, false, Some(UnbalancedPercent(path)))
      else
        var name := path[start + 1..end];
        if name !in env || env[name] == "" then
          ResolvedPath(path, false, Some(UnsetVariable(name, path)))
        else if '%' in env[name] then
          ResolvedPath(path, false, Some(PercentInValue(name, env[name])))
        else
          SpliceVarCount(path, start, end, env[name], how);
          ResolveVars(SpliceVar(path, start, end, env[name], how), env, how)
  }

  /** What the resolution promises: a resolved path holds no '%', a failed one is reported with a message. */
  lemma {:induction false} ResolveVarsFacts(path: string, env: map<string, string>, how: Splice)
    ensures ResolveVars(path, env, how).pathExists ==> '%' !in ResolveVars(path, env, how).path
    ensures ResolveVars(path, env, how).pathExists <==> ResolveVars(path, env, how).error.None?
    ensures '%' !in path ==> ResolveVars(path, env, how) == ResolvedPath(path, true, None)
    decreases CountPercent(path)
  {
    var start := IndexOfChar(path, '%', 0);
    if start >= 0 {
      var end := IndexOfChar(path, '%', start + 1);
      if end >= 0 {
        var name := path[start + 1..end];
        if name in env && env[name] != "" && '%' !in env[name] {
          SpliceVarCount(path, start, end, env[name], how);
          ResolveVarsFacts(SpliceVar(path, start, end, env[name], how), env, how);
        }
      }
    } else {
      assert forall k :: 0 <= k < |path| ==> path[k] != '%';
    }
  }

  /**
   * `extractEnvVars`, with the value spliced in where the variable stood:
   * paths of at most two characters are kept; otherwise each `%NAME%`, first
   * to last, is replaced by its value from `env`, and an unbalanced '%', an
   * unset or empty variable, or a value holding '%' stops with an error.
   */
  method ExtractEnvVars(path: string, env: map<string, string>) returns (r: ResolvedPath)
    ensures |path| <= 2 ==> r == ResolvedPath(path, true, None)
    ensures |path| > 2 ==> r == ResolveVars(path, env, Intended)
    ensures |path| > 2 && r.pathExists ==> '%' !in r.path
  {
    if |path| <= 2 {
      return ResolvedPath(path, true, None);
    }
    var p := path;
    while IndexOfChar(p, '%', 0) >= 0
      invariant ResolveVars(p, env, Intended) == ResolveVars(path, env, Intended)
      decreases CountPercent(p)
    {
      var start := IndexOfChar(p, '%', 0);
      var end := IndexOfChar(p, '%', start + 1);
      if end < 0 {
        return ResolvedPath(p, false, Some(UnbalancedPercent(p)));
      }
      var envName := p[start + 1..end];
      if envName !in env || env[envName] == "" {
        return ResolvedPath(p, false, Some(UnsetVariable(envName, p)));
      }
      var envValue := env[envName];
      if '%' in envValue {
        return ResolvedPath(p, false, Some(PercentInValue(envName, envValue)));
      }
      SpliceVarCount(p, start, end, envValue, Intended);
      p := SpliceVar(p, start, end, envValue, Intended);
    }
    r := ResolvedPath(p, true, None);
    ResolveVarsFacts(path, env, Intended);
  }

  /**
   * As written, the splice keeps `path.substring(0, start - 1)`, so the character
   * in front of the first '%' is lost; splicing at `start` keeps it.
   */
  lemma AsWrittenDropsCharacter()
    ensures ResolveVars("ab%X%", map["X" := "v"], AsWritten) == ResolvedPath("av", true, None)
    ensures ResolveVars("ab%X%", map["X" := "v"], Intended) == ResolvedPath("abv", true, None)
  {
    var p := "ab%X%";
    assert IndexOfChar(p, '%', 0) == 2;
    assert IndexOfChar(p, '%', 3) == 4;
    assert p[3..4] == "X";
    assert SpliceVar(p, 2, 4, "v", AsWritten) == "av";
    assert SpliceVar(p, 2, 4, "v", Intended) == "abv";
    assert IndexOfChar("av", '%', 0) == -1;
    assert IndexOfChar("abv", '%', 0) == -1;
  }

  /** Splicing at the '%' replaces exactly the variable: `a%NAME%b` resolves to `a`, the value, then `b`. */
  lemma ResolveOneVariable(a: string, name: string, b: string, env: map<string, string>)
    requires '%' !in a && '%' !in name && '%' !in b
    requires name in env && env[name] != "" && '%' !in env[name]
    ensures ResolveVars(a + "%" + name + "%" + b, env, Intended) == ResolvedPath(a + env[name] + b, true, None)
  {
    var p := a + "%" + name + "%" + b;
    var start, end := |a|, |a| + 1 + |name|;
    assert forall k :: 0 <= k < start ==> p[k] == a[k];
    assert p[start] == '%';
    assert forall k :: start < k < end ==> p[k] == name[k - start - 1];
    assert p[end] == '%';
    assert IndexOfChar(p, '%', 0) == start;
    assert IndexOfChar(p, '%', start + 1) == end;
    assert p[start + 1..end] == name;
    assert p[..start] == a && p[end + 1..] == b;
    var q := a + env[name] + b;
    assert SpliceVar(p, start, end, env[name], Intended) == q;
    assert forall k :: 0 <= k < |q| ==> q[k] != '%';
    ResolveVarsFacts(q, env, Intended);
  }
}

=== FILE: settings_checks.dfy ===
/**
 * The checks of server/src/Settings.ts that write state: backend selection
 * (`selectBackend`), the nailgun port and jar rules (`checkNailgunSettings`)
 * and the backend rules (`checkBackends`). The static fields `settings`,
 * `selectedBackend` and `_errors` of the `Settings` class are the fields of
 * `SettingsState`; a null `selectedBackend` is the empty string.
 *
 * The checks report `Problem`s; `Report` turns a problem into the
 * `SettingsError` the source pushes, with the source's message text. Each
 * check is specified by a function listing the problems it reports in the
 * order it reports them, and by lemmas saying which settings draw no error.
 */
module SettingsChecks {
  import opened Wrappers
  import opened Strings
  import opened Settings

  // ------------------------------------------------------------- problems

  /** Which follow-up of a stage names a missing stage. */
  datatype FollowUpKind = OnParsingError | OnTypeCheckingError | OnVerificationError | OnSuccess

  /** Everything the nailgun and backend checks can report; `backend` and `stage` are names. */
  datatype Problem =
    | InvalidPort(port: string)
    | PortOutOfRange
    | MissingJar
    | NoBackends
    | UnnamedBackend
    | DuplicateBackend(backend: string)
    | NoStages(backend: string)
    | UnsupportedType(backend: string, backendType: string, supportedTypes: seq<string>)
    | UnnamedStage(backend: string)
    | DuplicateStage(backend: string, stage: string)
    | MissingMain(backend: string, stage: string)
    | MissingArguments(backend: string, stage: string)
    | AdvancedNeedsIdeMode(backend: string, stage: string)
    | AdvancedOnly(backend: string, stage: string)
    | AdvancedDisabled(backend: string, stage: string)
    | MissingTarget(backend: string, stage: string, kind: FollowUpKind, target: string)
    | NoPaths(backend: string)
    | NegativeTimeout(backend: string, timeout: int)

  /** The problems pushed with `addWarning`; all others are pushed with `addError`. */
  function Severity(p: Problem): SettingsErrorType {
    match p
    case UnnamedBackend | AdvancedOnly(_, _) | AdvancedDisabled(_, _) | NegativeTimeout(_, _) => Warning
    case _ => Error
  }

  /** The heading of the diagnostics about a backend. */
  function Label(backend: string): string {
    "Backend " + backend + ":"
  }

  /** The heading of the diagnostics about a stage of a backend. */
  function StageLabel(backend: string, stage: string): string {
    Label(backend) + " Stage: " + stage + ":"
  }

  function KindText(kind: FollowUpKind): string {
    match kind
    case OnParsingError => "'s onParsingError stage "
    case OnTypeCheckingError => "'s onTypeCheckingError stage "
    case OnVerificationError => "'s onVerificationError stage "
    case OnSuccess => "'s onSuccess stage "
  }

  /** The message text the source writes for each problem. */
  function Text(p: Problem): string {
    match p
    case InvalidPort(port) => "Invalid NailgunPort: " + port
    case PortOutOfRange => "Invalid NailgunPort: please use a port in the range of 1024 - 65535"
    case MissingJar => "Path to nailgun server jar is missing"
    case NoBackends => "No backend detected, specify at least one backend"
    case UnnamedBackend => "Every backend setting should have a name."
    case DuplicateBackend(backend) => "Dublicated backend name: " + backend
    case NoStages(backend) => Label(backend) + " The backend setting needs at least one stage"
    case UnsupportedType(backend, t, types) =>
      Label(backend) + "the backend type " + t + " is not supported, try " + JoinComma(types)
    case UnnamedStage(backend) => Label(backend) + " Every stage needs a name."
    case DuplicateStage(backend, stage) => Label(backend) + " Duplicated stage name: " + stage
    case MissingMain(backend, stage) => StageLabel(backend, stage) + " Missing mainMethod"
    case MissingArguments(backend, stage) => StageLabel(backend, stage) + " Missing customArguments"
    case AdvancedNeedsIdeMode(backend, stage) =>
      StageLabel(backend, stage)
      + " the --ideModeAdvanced depends on --ideMode, for the Advanced Mode you need to specify both."
    case AdvancedOnly(backend, stage) =>
      StageLabel(backend, stage) + " the advanced features only work when --ideModeAdvanced is specified."
    case AdvancedDisabled(backend, stage) =>
      StageLabel(backend, stage) + " when the advanced features are disabled, you can speed up the verification"
      + " by removing the --ideModeAdvanced flag from the customArguments."
    case MissingTarget(backend, stage, kind, target) =>
      Label(backend) + ": Cannot find stage " + stage + KindText(kind) + target
    case NoPaths(backend) => Label(backend) + " The backend setting needs at least one path"
    case NegativeTimeout(backend, t) => Label(backend) + " The timeout of " + IntToString(t) + " is interpreted as no timeout."
  }

  /** The entry `addError` or `addWarning` pushes for a problem. */
  function Report(p: Problem): SettingsError {
    SettingsError(Severity(p), Text(p))
  }

  /** The entries pushed for a list of problems, in order. */
  function Reports(ps: seq<Problem>): (r: seq<SettingsError>)
    ensures |r| == |ps| && forall k :: 0 <= k < |ps| ==> r[k] == Report(ps[k])
  {
    seq(|ps|, k requires 0 <= k < |ps| => Report(ps[k]))
  }

  /** None of the problems is an error (warnings are allowed). */
  predicate NoErrors(ps: seq<Problem>) {
    forall k :: 0 <= k < |ps| ==> Severity(ps[k]) != Error
  }

  /** The rendered entries hold no error exactly when the problems hold none. */
  lemma ReportsNoErrors(ps: seq<Problem>)
    ensures NoErrors(ps) <==> forall k :: 0 <= k < |Reports(ps)| ==> Reports(ps)[k].errorType != Error
  {
    forall k | 0 <= k < |ps|
      ensures Reports(ps)[k].errorType == Severity(ps[k])
    {
      assert Reports(ps)[k] == Report(ps[k]);
    }
  }

  lemma NoErrorsAppend(a: seq<Problem>, b: seq<Problem>)
    ensures NoErrors(a + b) <==> NoErrors(a) && NoErrors(b)
  {
    if NoErrors(a + b) {
      forall k | 0 <= k < |a| ensures Severity(a[k]) != Error {
        assert (a + b)[k] == a[k];
      }
      forall k | 0 <= k < |b| ensures Severity(b[k]) != Error {
        assert (a + b)[|a| + k] == b[k];
      }
    }
  }

  lemma AppendAssoc(a: seq<Problem>, b: seq<Problem>, c: seq<Problem>)
    ensures (a + b) + c == a + (b + c)
  {
  }

  /** The problem `p` when `c` holds, nothing otherwise. */
  function When(c: bool, p: Problem): (r: seq<Problem>)
    ensures c ==> r == [p]
    ensures !c ==> r == []
  {
    if c then [p] else []
  }

  lemma NoErrorsAppend5(e1: seq<Problem>, e2: seq<Problem>, e3: seq<Problem>, e4: seq<Problem>, e5: seq<Problem>)
    ensures NoErrors(e1 + e2 + e3 + e4 + e5) <==>
      NoErrors(e1) && NoErrors(e2) && NoErrors(e3) && NoErrors(e4) && NoErrors(e5)
  {
    NoErrorsAppend(e1, e2);
    NoErrorsAppend(e1 + e2, e3);
    NoErrorsAppend(e1 + e2 + e3, e4);
    NoErrorsAppend(e1 + e2 + e3 + e4, e5);
  }

  lemma WhenNoErrors(c: bool, p: Problem)
    ensures NoErrors(When(c, p)) <==> !c || Severity(p) != Error
  {
    if c {
      assert When(c, p)[0] == p;
    }
  }

  /** The problems `parts(0)`, `parts(1)`, ..., `parts(n - 1)` one after the other, as a loop reports them. */
  function Concat(parts: nat -> seq<Problem>, n: nat): seq<Problem> {
    if n == 0 then [] else Concat(parts, n - 1) + parts(n - 1)
  }

  lemma ConcatStep(parts: nat -> seq<Problem>, n: nat)
    ensures Concat(parts, n + 1) == Concat(parts, n) + parts(n)
  {
  }

  lemma ReportsSnoc(ps: seq<Problem>, i: nat)
    requires i < |ps|
    ensures Reports(ps[..i + 1]) == Reports(ps[..i]) + [Report(ps[i])]
  {
    assert ps[..i + 1][i] == ps[i];
  }

  /** A concatenation holds no error exactly when none of its parts does. */
  lemma {:induction false} ConcatNoErrors(parts: nat -> seq<Problem>, n: nat)
    ensures NoErrors(Concat(parts, n)) <==> forall k :: 0 <= k < n ==> NoErrors(parts(k))
  {
    if n > 0 {
      ConcatNoErrors(parts, n - 1);
      NoErrorsAppend(Concat(parts, n - 1), parts(n - 1));
    }
  }

  /** Whatever one of the parts reports is reported. */
  lemma {:induction false} ConcatHas(parts: nat -> seq<Problem>, n: nat, k: nat, p: Problem)
    requires k < n && p in parts(k)
    ensures p in Concat(parts, n)
  {
    if k < n - 1 {
      ConcatHas(parts, n - 1, k, p);
    }
  }

  // ------------------------------------------------------------ selection

  /**
   * The index of the first backend called `name`. It is the search
   * `Settings.FirstNamedFrom` makes over stages; the two stay separate because
   * backends and stages are different datatypes with no common supertype here.
   */
  function FirstBackendNamed(backends: seq<Backend>, name: string, i: nat): (r: Option<nat>)
    requires i <= |backends|
    ensures r.Some? ==> i <= r.value < |backends| && backends[r.value].name == name
    ensures r.Some? ==> forall j :: i <= j < r.value ==> backends[j].name != name
    ensures r.None? ==> forall j :: i <= j < |backends| ==> backends[j].name != name
    decreases |backends| - i
  {
    if i == |backends| then None
    else if backends[i].name == name then Some(i)
    else FirstBackendNamed(backends, name, i + 1)
  }

  /**
   * The backend `selectBackend` picks for the remembered name `wanted`: the first
   * one of that name, or the first backend when the name is empty or unknown.
   */
  function SelectedIndex(backends: seq<Backend>, wanted: string): (r: nat)
    requires backends != []
    ensures r < |backends|
    ensures wanted != "" && FirstBackendNamed(backends, wanted, 0).Some? ==> backends[r].name == wanted
  {
    if wanted != "" && FirstBackendNamed(backends, wanted, 0).Some? then FirstBackendNamed(backends, wanted, 0).value
    else 0
  }

  /** Selecting the backend that was just selected picks it again. */
  lemma SelectionStable(backends: seq<Backend>, wanted: string)
    requires backends != []
    ensures SelectedIndex(backends, backends[SelectedIndex(backends, wanted)].name) == SelectedIndex(backends, wanted)
  {
    var i := SelectedIndex(backends, wanted);
    var name := backends[i].name;
    if name != "" {
      var j := FirstBackendNamed(backends, name, 0);
      assert j.Some? && j.value <= i;
      if i != 0 {
        assert FirstBackendNamed(backends, wanted, 0) == Some(i);
      }
    }
  }

  // ------------------------------------------------------------- nailgun

  /** The port is "*" (any free port) or a run of decimal digits. */
  predicate PortSyntaxOk(port: string) {
    port == "*" || (port != "" && AllDigits(port))
  }

  /** The problems `checkNailgunSettings` reports about the port. */
  function PortProblems(port: string): (r: seq<Problem>)
    ensures |r| <= 1
    ensures r == [] <==> port == "*" || (PortSyntaxOk(port) && 1024 <= DigitsValue(port) <= 65535)
  {
    if !PortSyntaxOk(port) then [InvalidPort(port)]
    else if port != "*" && (DigitsValue(port) < 1024 || DigitsValue(port) > 65535) then [PortOutOfRange]
    else []
  }

  /** A port written as a number is accepted exactly when it lies in 1024 - 65535. */
  lemma NumericPortRule(n: nat)
    ensures PortProblems(NatToString(n)) == [] <==> 1024 <= n <= 65535
    ensures !(1024 <= n <= 65535) ==> PortProblems(NatToString(n)) == [PortOutOfRange]
  {
    var s := NatToString(n);
    assert s != "*" by {
      assert IsDigit(s[0]);
    }
  }

  /** A port holding anything but digits, other than "*", is rejected with its text in the message. */
  lemma NonNumericPortRejected(port: string, k: nat)
    requires port != "*" && k < |port| && !IsDigit(port[k])
    ensures PortProblems(port) == [InvalidPort(port)]
  {
  }

  /** The problems of `checkNailgunSettings`: the port rules, then a missing server jar. */
  function NailgunProblems(ng: NailgunSettings): seq<Problem> {
    PortProblems(ng.port) + When(ng.serverJar == "", MissingJar)
  }

  /** `checkNailgunSettings` reports no error exactly for an accepted port and a given server jar. */
  lemma NailgunNoErrors(ng: NailgunSettings)
    ensures NoErrors(NailgunProblems(ng)) <==>
      (ng.port == "*" || (PortSyntaxOk(ng.port) && 1024 <= DigitsValue(ng.port) <= 65535)) && ng.serverJar != ""
  {
    NoErrorsAppend(PortProblems(ng.port), When(ng.serverJar == "", MissingJar));
    WhenNoErrors(ng.serverJar == "", MissingJar);
    if PortProblems(ng.port) != [] {
      assert Severity(PortProblems(ng.port)[0]) == Error;
    }
  }

  // ------------------------------------------------------------- backends

  /** The name `checkBackends` gives the backend at index `i`: "backend" and its position when unnamed. */
  function FixedName(b: Backend, i: nat): (r: string)
    ensures r != ""
    ensures b.name != "" ==> r == b.name
  {
    if b.name == "" then "backend" + NatToString(i + 1) else b.name
  }

  /** The custom arguments are given (neither missing nor empty). */
  predicate HasArguments(s: Stage) {
    s.customArguments.Some? && s.customArguments.value != ""
  }

  /** The problems about the `--ideMode` and `--ideModeAdvanced` flags of one stage. */
  function IdeModeProblems(backend: string, stage: string, args: string, advanced: bool): seq<Problem> {
    var hasAdvanced := Contains(args, "--ideModeAdvanced");
    var hasIdeMode := Contains(args, "--ideMode ");
    When(hasAdvanced && !hasIdeMode, AdvancedNeedsIdeMode(backend, stage))
    + When(advanced && hasIdeMode && !hasAdvanced, AdvancedOnly(backend, stage))
    + When(!advanced && hasAdvanced, AdvancedDisabled(backend, stage))
  }

  /** The names of the named stages among the first `n`. */
  function SeenStages(stages: seq<Stage>, n: nat): (r: set<string>)
    requires n <= |stages|
  {
    if n == 0 then {}
    else SeenStages(stages, n - 1) + (if stages[n - 1].name == "" then {} else {stages[n - 1].name})
  }

  /** The problems about the custom arguments of a named stage. */
  function ArgumentProblems(backend: string, s: Stage, advanced: bool): seq<Problem> {
    if !HasArguments(s) then [MissingArguments(backend, s.name)]
    else IdeModeProblems(backend, s.name, s.customArguments.value, advanced)
  }

  /** The problems the first stage loop reports for one stage, given the names seen before it. */
  function StageProblems(backend: string, s: Stage, seen: set<string>, advanced: bool): seq<Problem> {
    if s.name == "" then [UnnamedStage(backend)]
    else
      When(s.name in seen, DuplicateStage(backend, s.name))
      + When(s.mainMethod == "", MissingMain(backend, s.name))
      + ArgumentProblems(backend, s, advanced)
  }

  /** Stage `k` of the first stage loop. */
  function StageParts(backend: string, stages: seq<Stage>, advanced: bool): nat -> seq<Problem> {
    (k: nat) => if k < |stages| then StageProblems(backend, stages[k], SeenStages(stages, k), advanced) else []
  }

  /** The problems the first stage loop reports. */
  function StagesProblems(backend: string, stages: seq<Stage>, advanced: bool): seq<Problem> {
    Concat(StageParts(backend, stages, advanced), |stages|)
  }

  /** A follow-up target is set and names none of the stages. */
  predicate Dangling(target: string, names: set<string>) {
    target != "" && target !in names
  }

  /** The problems the second stage loop reports for one stage: each follow-up that names no stage. */
  function TargetProblems(backend: string, s: Stage, names: set<string>): seq<Problem> {
    When(Dangling(s.onParsingError, names), MissingTarget(backend, s.name, OnParsingError, s.onParsingError))
    + When(Dangling(s.onTypeCheckingError, names), MissingTarget(backend, s.name, OnTypeCheckingError, s.onTypeCheckingError))
    + When(Dangling(s.onVerificationError, names), MissingTarget(backend, s.name, OnVerificationError, s.onVerificationError))
    + When(Dangling(s.onSuccess, names), MissingTarget(backend, s.name, OnSuccess, s.onSuccess))
  }

  /** Stage `k` of the second stage loop. */
  function TargetParts(backend: string, stages: seq<Stage>, names: set<string>): nat -> seq<Problem> {
    (k: nat) => if k < |stages| then TargetProblems(backend, stages[k], names) else []
  }

  /** The problems the second stage loop reports. */
  function AllTargetProblems(backend: string, stages: seq<Stage>, names: set<string>): seq<Problem> {
    Concat(TargetParts(backend, stages, names), |stages|)
  }

  /** The problems of a backend with stages, `backend` being its fixed name. */
  function StagedBackendProblems(backend: string, b: Backend, supportedTypes: seq<string>, advanced: bool): seq<Problem> {
    When(IsViperServerEngine(b.engine) && b.backendType !in supportedTypes, UnsupportedType(backend, b.backendType, supportedTypes))
    + StagesProblems(backend, b.stages, advanced)
    + AllTargetProblems(backend, b.stages, SeenStages(b.stages, |b.stages|))
    + When(b.paths == [], NoPaths(backend))
    + When(b.timeout.Some? && b.timeout.value < 0, NegativeTimeout(backend, if b.timeout.Some? then b.timeout.value else 0))
  }

  /** The problems of the backend at index `i`, given the backend names seen before it. */
  function BackendProblems(b: Backend, i: nat, seen: set<string>, supportedTypes: seq<string>, advanced: bool): seq<Problem> {
    var name := FixedName(b, i);
    When(b.name == "", UnnamedBackend)
    + When(name in seen, DuplicateBackend(name))
    + (if b.stages == [] then [NoStages(name)] else StagedBackendProblems(name, b, supportedTypes, advanced))
  }

  /** The names the first `n` backends end up with. */
  function SeenBackends(backends: seq<Backend>, n: nat): (r: set<string>)
    requires n <= |backends|
  {
    if n == 0 then {} else SeenBackends(backends, n - 1) + {FixedName(backends[n - 1], n - 1)}
  }

  /** Backend `k` of the backend loop. */
  function BackendParts(backends: seq<Backend>, supportedTypes: seq<string>, advanced: bool): nat -> seq<Problem> {
    (k: nat) => if k < |backends| then BackendProblems(backends[k], k, SeenBackends(backends, k), supportedTypes, advanced) else []
  }

  /** Everything `checkBackends` reports, in order. */
  function CheckBackendsProblems(backends: seq<Backend>, supportedTypes: seq<string>, advanced: bool): seq<Problem> {
    if backends == [] then [NoBackends]
    else Concat(BackendParts(backends, supportedTypes, advanced), |backends|)
  }

  /**
   * The backend `checkBackends` leaves in place of `b`: the name is always fixed;
   * a backend without stages is otherwise left alone, the others get their
   * engine resolved and a non-positive timeout cleared.
   */
  function CheckedBackend(b: Backend, i: nat): Backend {
    if b.stages == [] then b.(name := FixedName(b, i))
    else b.(name := FixedName(b, i), engine := ResolveEngine(b.engine), timeout := NormalizeTimeout(b.timeout))
  }

  /** The first `n` backends after `checkBackends` has named and normalized them. */
  function CheckedList(backends: seq<Backend>, n: nat): (r: seq<Backend>)
    requires n <= |backends|
    ensures |r| == n
    ensures forall k :: 0 <= k < n ==> r[k] == CheckedBackend(backends[k], k)
  {
    if n == 0 then [] else CheckedList(backends, n - 1) + [CheckedBackend(backends[n - 1], n - 1)]
  }

  /**
   * Checking keeps the stages, paths and type; it gives every backend a
   * non-empty name and every backend with stages a resolved engine and a
   * positive timeout or none.
   */
  lemma CheckedBackendFacts(b: Backend, i: nat)
    ensures CheckedBackend(b, i).stages == b.stages && CheckedBackend(b, i).paths == b.paths
    ensures CheckedBackend(b, i).backendType == b.backendType
    ensures CheckedBackend(b, i).name != "" && (b.name != "" ==> CheckedBackend(b, i).name == b.name)
    ensures b.stages != [] ==> IsViperServerEngine(CheckedBackend(b, i).engine) == IsViperServerEngine(b.engine)
    ensures b.stages != [] ==> ResolveEngine(CheckedBackend(b, i).engine) == CheckedBackend(b, i).engine
    ensures b.stages != [] ==> CheckedBackend(b, i).timeout.None? || CheckedBackend(b, i).timeout.value > 0
  {
    if b.stages != [] {
      ResolveEngineIdempotent(b.engine);
    }
  }

  /** Checking a backend a second time, at the same position, changes nothing more. */
  lemma CheckedBackendIdempotent(b: Backend, i: nat)
    ensures CheckedBackend(CheckedBackend(b, i), i) == CheckedBackend(b, i)
  {
    if b.stages != [] {
      ResolveEngineIdempotent(b.engine);
    }
  }

  // ------------------------------------------------ what passes the checks

  /** A stage that draws no error from the first stage loop. */
  predicate StageOk(s: Stage) {
    && s.name != ""
    && s.mainMethod != ""
    && HasArguments(s)
    && (Contains(s.customArguments.value, "--ideModeAdvanced") ==> Contains(s.customArguments.value, "--ideMode "))
  }

  /** Every stage is well formed, and the stage names are distinct. */
  predicate StagesOk(stages: seq<Stage>) {
    && (forall k :: 0 <= k < |stages| ==> StageOk(stages[k]))
    && (forall j, k :: 0 <= j < k < |stages| ==> stages[j].name != stages[k].name)
  }

  /** Every follow-up target of `s` that is set is one of `names`. */
  predicate Resolves(s: Stage, names: set<string>) {
    && !Dangling(s.onParsingError, names)
    && !Dangling(s.onTypeCheckingError, names)
    && !Dangling(s.onVerificationError, names)
    && !Dangling(s.onSuccess, names)
  }

  /** Every follow-up of every stage names a stage of `names`. */
  predicate AllResolve(stages: seq<Stage>, names: set<string>) {
    forall k :: 0 <= k < |stages| ==> Resolves(stages[k], names)
  }

  predicate TargetsOk(stages: seq<Stage>) {
    AllResolve(stages, SeenStages(stages, |stages|))
  }

  /** A backend that draws no error from `checkBackends`, apart from name clashes. */
  predicate BackendOk(b: Backend, supportedTypes: seq<string>) {
    && b.stages != []
    && (IsViperServerEngine(b.engine) ==> b.backendType in supportedTypes)
    && StagesOk(b.stages)
    && TargetsOk(b.stages)
    && b.paths != []
  }

  /** The backends end up with distinct names. */
  predicate DistinctNames(backends: seq<Backend>) {
    forall j, k :: 0 <= j < k < |backends| ==> FixedName(backends[j], j) != FixedName(backends[k], k)
  }

  /** Settings that `checkBackends` accepts without an error. */
  predicate BackendsOk(backends: seq<Backend>, supportedTypes: seq<string>) {
    && backends != []
    && (forall k :: 0 <= k < |backends| ==> BackendOk(backends[k], supportedTypes))
    && DistinctNames(backends)
  }

  lemma IdeModeNoErrors(backend: string, stage: string, args: string, advanced: bool)
    ensures NoErrors(IdeModeProblems(backend, stage, args, advanced)) <==>
      (Contains(args, "--ideModeAdvanced") ==> Contains(args, "--ideMode "))
  {
    var hasAdvanced := Contains(args, "--ideModeAdvanced");
    var hasIdeMode := Contains(args, "--ideMode ");
    var e1 := When(hasAdvanced && !hasIdeMode, AdvancedNeedsIdeMode(backend, stage));
    var e2 := When(advanced && hasIdeMode && !hasAdvanced, AdvancedOnly(backend, stage));
    var e3 := When(!advanced && hasAdvanced, AdvancedDisabled(backend, stage));
    WhenNoErrors(hasAdvanced && !hasIdeMode, AdvancedNeedsIdeMode(backend, stage));
    WhenNoErrors(advanced && hasIdeMode && !hasAdvanced, AdvancedOnly(backend, stage));
    WhenNoErrors(!advanced && hasAdvanced, AdvancedDisabled(backend, stage));
    NoErrorsAppend(e1, e2);
    NoErrorsAppend(e1 + e2, e3);
  }

  lemma StageNoErrors(backend: string, s: Stage, seen: set<string>, advanced: bool)
    ensures NoErrors(StageProblems(backend, s, seen, advanced)) <==> StageOk(s) && s.name !in seen
  {
    if s.name == "" {
      assert StageProblems(backend, s, seen, advanced)[0] == UnnamedStage(backend);
    } else {
      var e1 := When(s.name in seen, DuplicateStage(backend, s.name));
      var e2 := When(s.mainMethod == "", MissingMain(backend, s.name));
      var e3 := ArgumentProblems(backend, s, advanced);
      WhenNoErrors(s.name in seen, DuplicateStage(backend, s.name));
      WhenNoErrors(s.mainMethod == "", MissingMain(backend, s.name));
      NoErrorsAppend(e1, e2);
      NoErrorsAppend(e1 + e2, e3);
      if HasArguments(s) {
        IdeModeNoErrors(backend, s.name, s.customArguments.value, advanced);
      } else {
        assert e3[0] == MissingArguments(backend, s.name);
      }
    }
  }

  /** A name has been seen exactly when it is not empty and one of the first `n` stages carries it. */
  lemma {:induction false} SeenStagesHas(stages: seq<Stage>, n: nat, name: string)
    requires n <= |stages|
    ensures name in SeenStages(stages, n) <==> name != "" && exists j :: 0 <= j < n && stages[j].name == name
  {
    if n > 0 {
      SeenStagesHas(stages, n - 1, name);
    }
  }

  /** Well-formed, distinctly named stages are exactly those that each pass the check against the names before them. */
  lemma StagesOkOneByOne(stages: seq<Stage>)
    ensures StagesOk(stages) <==>
      forall k :: 0 <= k < |stages| ==> StageOk(stages[k]) && stages[k].name !in SeenStages(stages, k)
  {
    forall k | 0 <= k < |stages| {
      SeenStagesHas(stages, k, stages[k].name);
    }
  }

  /** The first stage loop reports no error exactly when the stages are well formed and distinctly named. */
  lemma StagesNoErrors(backend: string, stages: seq<Stage>, advanced: bool)
    ensures NoErrors(StagesProblems(backend, stages, advanced)) <==> StagesOk(stages)
  {
    var parts := StageParts(backend, stages, advanced);
    ConcatNoErrors(parts, |stages|);
    forall k | 0 <= k < |stages|
      ensures NoErrors(parts(k)) <==> StageOk(stages[k]) && stages[k].name !in SeenStages(stages, k)
    {
      StageNoErrors(backend, stages[k], SeenStages(stages, k), advanced);
    }
    StagesOkOneByOne(stages);
  }

  lemma TargetNoErrors(backend: string, s: Stage, names: set<string>)
    ensures NoErrors(TargetProblems(backend, s, names)) <==> Resolves(s, names)
  {
    var e1 := When(Dangling(s.onParsingError, names), MissingTarget(backend, s.name, OnParsingError, s.onParsingError));
    var e2 := When(Dangling(s.onTypeCheckingError, names), MissingTarget(backend, s.name, OnTypeCheckingError, s.onTypeCheckingError));
    var e3 := When(Dangling(s.onVerificationError, names), MissingTarget(backend, s.name, OnVerificationError, s.onVerificationError));
    var e4 := When(Dangling(s.onSuccess, names), MissingTarget(backend, s.name, OnSuccess, s.onSuccess));
    WhenNoErrors(Dangling(s.onParsingError, names), MissingTarget(backend, s.name, OnParsingError, s.onParsingError));
    WhenNoErrors(Dangling(s.onTypeCheckingError, names), MissingTarget(backend, s.name, OnTypeCheckingError, s.onTypeCheckingError));
    WhenNoErrors(Dangling(s.onVerificationError, names), MissingTarget(backend, s.name, OnVerificationError, s.onVerificationError));
    WhenNoErrors(Dangling(s.onSuccess, names), MissingTarget(backend, s.name, OnSuccess, s.onSuccess));
    NoErrorsAppend(e1, e2);
    NoErrorsAppend(e1 + e2, e3);
    NoErrorsAppend(e1 + e2 + e3, e4);
  }

  /** The second stage loop reports no error exactly when every follow-up resolves. */
  lemma AllTargetsNoErrors(backend: string, stages: seq<Stage>, names: set<string>)
    ensures NoErrors(AllTargetProblems(backend, stages, names)) <==> AllResolve(stages, names)
  {
    var parts := TargetParts(backend, stages, names);
    ConcatNoErrors(parts, |stages|);
    forall k | 0 <= k < |stages|
      ensures NoErrors(parts(k)) <==> Resolves(stages[k], names)
    {
      TargetNoErrors(backend, stages[k], names);
    }
  }

  /** The five parts of a staged backend's report are free of errors one by one. */
  lemma StagedBackendSplit(backend: string, b: Backend, supportedTypes: seq<string>, advanced: bool)
    ensures NoErrors(StagedBackendProblems(backend, b, supportedTypes, advanced)) <==>
      && (IsViperServerEngine(b.engine) ==> b.backendType in supportedTypes)
      && NoErrors(StagesProblems(backend, b.stages, advanced))
      && NoErrors(AllTargetProblems(backend, b.stages, SeenStages(b.stages, |b.stages|)))
      && b.paths != []
  {
    var c1 := IsViperServerEngine(b.engine) && b.backendType !in supportedTypes;
    var c5 := b.timeout.Some? && b.timeout.value < 0;
    var t := if b.timeout.Some? then b.timeout.value else 0;
    var e1 := When(c1, UnsupportedType(backend, b.backendType, supportedTypes));
    var e2 := StagesProblems(backend, b.stages, advanced);
    var e3 := AllTargetProblems(backend, b.stages, SeenStages(b.stages, |b.stages|));
    var e4 := When(b.paths == [], NoPaths(backend));
    var e5 := When(c5, NegativeTimeout(backend, t));
    assert StagedBackendProblems(backend, b, supportedTypes, advanced) == e1 + e2 + e3 + e4 + e5;
    NoErrorsAppend5(e1, e2, e3, e4, e5);
    WhenNoErrors(c1, UnsupportedType(backend, b.backendType, supportedTypes));
    WhenNoErrors(b.paths == [], NoPaths(backend));
    WhenNoErrors(c5, NegativeTimeout(backend, t));
  }

  /** A backend with stages is reported without errors exactly when it is well-formed. */
  lemma StagedBackendNoErrors(backend: string, b: Backend, supportedTypes: seq<string>, advanced: bool)
    requires b.stages != []
    ensures NoErrors(StagedBackendProblems(backend, b, supportedTypes, advanced)) <==> BackendOk(b, supportedTypes)
  {
    StagedBackendSplit(backend, b, supportedTypes, advanced);
    StagesNoErrors(backend, b.stages, advanced);
    AllTargetsNoErrors(backend, b.stages, SeenStages(b.stages, |b.stages|));
  }

  lemma BackendNoErrors(b: Backend, i: nat, seen: set<string>, supportedTypes: seq<string>, advanced: bool)
    ensures NoErrors(BackendProblems(b, i, seen, supportedTypes, advanced)) <==>
      BackendOk(b, supportedTypes) && FixedName(b, i) !in seen
  {
    var name := FixedName(b, i);
    var e1 := When(b.name == "", UnnamedBackend);
    var e2 := When(name in seen, DuplicateBackend(name));
    var e3 := if b.stages == [] then [NoStages(name)] else StagedBackendProblems(name, b, supportedTypes, advanced);
    WhenNoErrors(b.name == "", UnnamedBackend);
    WhenNoErrors(name in seen, DuplicateBackend(name));
    NoErrorsAppend(e1, e2);
    NoErrorsAppend(e1 + e2, e3);
    if b.stages != [] {
      StagedBackendNoErrors(name, b, supportedTypes, advanced);
    } else {
      assert e3[0] == NoStages(name);
    }
  }

  /** A name has been seen exactly when one of the first `n` backends ends up with it. */
  lemma {:induction false} SeenBackendsHas(backends: seq<Backend>, n: nat, name: string)
    requires n <= |backends|
    ensures name in SeenBackends(backends, n) <==> exists j :: 0 <= j < n && FixedName(backends[j], j) == name
  {
    if n > 0 {
      SeenBackendsHas(backends, n - 1, name);
    }
  }

  /** The backend names are distinct exactly when each differs from the names before it. */
  lemma DistinctOneByOne(backends: seq<Backend>)
    ensures DistinctNames(backends) <==>
      forall k :: 0 <= k < |backends| ==> FixedName(backends[k], k) !in SeenBackends(backends, k)
  {
    forall k | 0 <= k < |backends| {
      SeenBackendsHas(backends, k, FixedName(backends[k], k));
    }
  }

  /**
   * `checkBackends` reports no error exactly when there is a backend, every
   * backend is well formed (stages, supported type, distinct and complete
   * stages, follow-ups that resolve, paths) and the backend names are distinct.
   */
  lemma CheckBackendsAccepts(backends: seq<Backend>, supportedTypes: seq<string>, advanced: bool)
    ensures NoErrors(CheckBackendsProblems(backends, supportedTypes, advanced)) <==> BackendsOk(backends, supportedTypes)
  {
    if backends != [] {
      var parts := BackendParts(backends, supportedTypes, advanced);
      ConcatNoErrors(parts, |backends|);
      forall k | 0 <= k < |backends|
        ensures NoErrors(parts(k)) <==>
          BackendOk(backends[k], supportedTypes) && FixedName(backends[k], k) !in SeenBackends(backends, k)
      {
        BackendNoErrors(backends[k], k, SeenBackends(backends, k), supportedTypes, advanced);
      }
      DistinctOneByOne(backends);
    } else {
      assert CheckBackendsProblems(backends, supportedTypes, advanced)[0] == NoBackends;
    }
  }

  /** A follow-up of some stage that names no stage of its backend is reported, whichever follow-up it is. */
  lemma DanglingTargetReported(backend: string, stages: seq<Stage>, names: set<string>, k: nat)
    requires k < |stages|
    ensures Dangling(stages[k].onParsingError, names) ==>
      MissingTarget(backend, stages[k].name, OnParsingError, stages[k].onParsingError) in AllTargetProblems(backend, stages, names)
    ensures Dangling(stages[k].onTypeCheckingError, names) ==>
      MissingTarget(backend, stages[k].name, OnTypeCheckingError, stages[k].onTypeCheckingError) in AllTargetProblems(backend, stages, names)
    ensures Dangling(stages[k].onVerificationError, names) ==>
      MissingTarget(backend, stages[k].name, OnVerificationError, stages[k].onVerificationError) in AllTargetProblems(backend, stages, names)
    ensures Dangling(stages[k].onSuccess, names) ==>
      MissingTarget(backend, stages[k].name, OnSuccess, stages[k].onSuccess) in AllTargetProblems(backend, stages, names)
  {
    var parts := TargetParts(backend, stages, names);
    assert parts(k) == TargetProblems(backend, stages[k], names);
    forall p | p in parts(k)
      ensures p in AllTargetProblems(backend, stages, names)
    {
      ConcatHas(parts, |stages|, k, p);
    }
  }

  /** A backend that ends up with the name of an earlier backend is reported. */
  lemma DuplicateBackendReported(backends: seq<Backend>, j: nat, k: nat, supportedTypes: seq<string>, advanced: bool)
    requires j < k < |backends| && FixedName(backends[j], j) == FixedName(backends[k], k)
    ensures DuplicateBackend(FixedName(backends[k], k)) in CheckBackendsProblems(backends, supportedTypes, advanced)
  {
    var b := backends[k];
    var name := FixedName(b, k);
    var parts := BackendParts(backends, supportedTypes, advanced);
    SeenBackendsHas(backends, k, name);
    var w1 := When(b.name == "", UnnamedBackend);
    var w2 := When(name in SeenBackends(backends, k), DuplicateBackend(name));
    var rest := if b.stages == [] then [NoStages(name)] else StagedBackendProblems(name, b, supportedTypes, advanced);
    assert parts(k) == w1 + w2 + rest;
    assert w2 == [DuplicateBackend(name)];
    assert DuplicateBackend(name) in parts(k);
    ConcatHas(parts, |backends|, k, DuplicateBackend(name));
  }

  // -------------------------------------------------------------- the state

  class SettingsState {
    var settings: ViperSettings
    var selectedBackend: string
    var errors: seq<SettingsError>

    constructor (settings: ViperSettings)
      ensures this.settings == settings && selectedBackend == "" && errors == []
    {
      this.settings := settings;
      selectedBackend := "";
      errors := [];
    }

    /**
     * `selectBackend`: remembers a non-empty `selected` name, then picks the
     * first backend of the remembered name or, failing that, the first backend,
     * and remembers its name; with no backends nothing is picked and the name
     * is forgotten.
     */
    method SelectBackend(s: ViperSettings, selected: string) returns (r: Option<Backend>)
      modifies this
      ensures settings == old(settings) && errors == old(errors)
      ensures s.verificationBackends == [] <==> r.None?
      ensures r.None? ==> selectedBackend == ""
      ensures r.Some? ==> selectedBackend == r.value.name
      ensures r.Some? ==> (r.value ==
        s.verificationBackends[SelectedIndex(s.verificationBackends, if selected != "" then selected else old(selectedBackend))])
    {
      if selected != "" {
        selectedBackend := selected;
      }
      var backends := s.verificationBackends;
      if |backends| == 0 {
        selectedBackend := "";
        return None;
      }
      if selectedBackend != "" {
        for i := 0 to |backends|
          invariant forall j :: 0 <= j < i ==> backends[j].name != selectedBackend
        {
          var backend := backends[i];
          if backend.name == selectedBackend {
            assert FirstBackendNamed(backends, selectedBackend, 0) == Some(i);
            return Some(backend);
          }
        }
      }
      selectedBackend := backends[0].name;
      return Some(backends[0]);
    }

    /** `addError`. */
    method AddError(msg: string)
      modifies this
      ensures errors == old(errors) + [SettingsError(Error, msg)]
      ensures settings == old(settings) && selectedBackend == old(selectedBackend)
    {
      errors := errors + [SettingsError(Error, msg)];
    }

    /** `addWarning`. */
    method AddWarning(msg: string)
      modifies this
      ensures errors == old(errors) + [SettingsError(Warning, msg)]
      ensures settings == old(settings) && selectedBackend == old(selectedBackend)
    {
      errors := errors + [SettingsError(Warning, msg)];
    }

    /** Reports one problem through `addError` or `addWarning`, as its severity says. */
    method AddProblem(p: Problem)
      modifies this
      ensures errors == old(errors) + [Report(p)]
      ensures settings == old(settings) && selectedBackend == old(selectedBackend)
    {
      if Severity(p) == Error {
        AddError(Text(p));
      } else {
        AddWarning(Text(p));
      }
    }

    /** Pushes the entries for `ps`, in order, each with `addError` or `addWarning` as its severity says. */
    method AddProblems(ps: seq<Problem>)
      modifies this
      ensures errors == old(errors) + Reports(ps)
      ensures settings == old(settings) && selectedBackend == old(selectedBackend)
    {
      for i := 0 to |ps|
        invariant errors == old(errors) + Reports(ps[..i])
        invariant settings == old(settings) && selectedBackend == old(selectedBackend)
      {
        ReportsSnoc(ps, i);
        AddProblem(ps[i]);
      }
      assert ps[..|ps|] == ps;
    }

    /**
     * `checkNailgunSettings`: reports the port and server-jar problems and clears
     * a missing or non-positive timeout.
     */
    method CheckNailgunSettings()
      modifies this
      ensures errors == old(errors) + Reports(NailgunProblems(old(settings).nailgunSettings))
      ensures settings == old(settings).(nailgunSettings :=
        old(settings).nailgunSettings.(timeout := NormalizeTimeout(old(settings).nailgunSettings.timeout)))
      ensures selectedBackend == old(selectedBackend)
    {
      var ng := settings.nailgunSettings;
      var problems := CheckNailgun(ng);
      AddProblems(problems);
      if ng.timeout.None? || ng.timeout.value <= 0 {
        settings := settings.(nailgunSettings := ng.(timeout := None));
      }
    }

    /**
     * `checkBackends`: reports every problem of the backends and rewrites each
     * as `CheckedBackend` says.
     */
    method CheckBackends(supportedTypes: seq<string>)
      modifies this
      ensures errors == old(errors) + Reports(CheckBackendsProblems(old(settings).verificationBackends, supportedTypes, old(settings).advancedFeaturesEnabled))
      ensures settings.nailgunSettings == old(settings).nailgunSettings
      ensures settings.advancedFeaturesEnabled == old(settings).advancedFeaturesEnabled
      ensures |settings.verificationBackends| == |old(settings).verificationBackends|
      ensures forall i :: 0 <= i < |settings.verificationBackends| ==>
        settings.verificationBackends[i] == CheckedBackend(old(settings).verificationBackends[i], i)
      ensures selectedBackend == old(selectedBackend)
    {
      var backends := settings.verificationBackends;
      if |backends| == 0 {
        AddProblems([NoBackends]);
        return;
      }
      var fixed, problems := CheckBackendList(backends, supportedTypes, settings.advancedFeaturesEnabled);
      AddProblems(problems);
      settings := settings.(verificationBackends := fixed);
    }
  }

  /** The checks `checkNailgunSettings` makes, in its order: the port, then the server jar. */
  method CheckNailgun(ng: NailgunSettings) returns (problems: seq<Problem>)
    ensures problems == NailgunProblems(ng)
  {
    problems := [];
    if !PortSyntaxOk(ng.port) {
      problems := problems + [InvalidPort(ng.port)];
    } else if ng.port != "*" {
      var port := DigitsValue(ng.port);
      if port < 1024 || port > 65535 {
        problems := problems + [PortOutOfRange];
      }
    }
    assert problems == PortProblems(ng.port);
    if ng.serverJar == "" {
      problems := problems + [MissingJar];
    }
  }

  /**
   * The backend loop of `checkBackends`: the backends as the loop leaves them
   * and the problems it reports, in order.
   */
  method CheckBackendList(backends: seq<Backend>, supportedTypes: seq<string>, advanced: bool)
    returns (fixed: seq<Backend>, problems: seq<Problem>)
    ensures fixed == CheckedList(backends, |backends|)
    ensures problems == Concat(BackendParts(backends, supportedTypes, advanced), |backends|)
  {
    fixed := [];
    problems := [];
    var backendNames: set<string> := {};
    for i := 0 to |backends|
      invariant fixed == CheckedList(backends, i)
      invariant backendNames == SeenBackends(backends, i)
      invariant problems == Concat(BackendParts(backends, supportedTypes, advanced), i)
    {
      var checked, found := CheckBackend(backends[i], i, backendNames, supportedTypes, advanced);
      BackendsStep(backends, supportedTypes, advanced, i, fixed, checked, problems, backendNames, found);
      problems := problems + found;
      backendNames := backendNames + {checked.name};
      fixed := fixed + [checked];
    }
  }

  /** One turn of the backend loop of `checkBackends`: the fixed backend and what it reports. */
  lemma BackendsStep(backends: seq<Backend>, supportedTypes: seq<string>, advanced: bool, i: nat,
                     fixed: seq<Backend>, checked: Backend, acc: seq<Problem>, names: set<string>, found: seq<Problem>)
    requires i < |backends|
    requires fixed == CheckedList(backends, i) && checked == CheckedBackend(backends[i], i)
    requires acc == Concat(BackendParts(backends, supportedTypes, advanced), i)
    requires names == SeenBackends(backends, i)
    requires found == BackendProblems(backends[i], i, names, supportedTypes, advanced)
    ensures fixed + [checked] == CheckedList(backends, i + 1)
    ensures acc + found == Concat(BackendParts(backends, supportedTypes, advanced), i + 1)
    ensures names + {checked.name} == SeenBackends(backends, i + 1)
  {
    assert BackendParts(backends, supportedTypes, advanced)(i) == found;
    ConcatStep(BackendParts(backends, supportedTypes, advanced), i);
    assert checked.name == FixedName(backends[i], i);
  }

  method CheckBackend(b: Backend, i: nat, backendNames: set<string>, supportedTypes: seq<string>, advanced: bool)
    returns (checked: Backend, problems: seq<Problem>)
    ensures checked == CheckedBackend(b, i)
    ensures problems == BackendProblems(b, i, backendNames, supportedTypes, advanced)
  {
    checked := b;
    problems := [];
    if b.name == "" {
      problems := problems + [UnnamedBackend];
      checked := checked.(name := "backend" + NatToString(i + 1));
    }
    assert checked.name == FixedName(b, i);
    assert problems == When(b.name == "", UnnamedBackend);
    if checked.name in backendNames {
      problems := problems + [DuplicateBackend(checked.name)];
    }
    assert problems == When(b.name == "", UnnamedBackend) + When(FixedName(b, i) in backendNames, DuplicateBackend(FixedName(b, i)));
    if checked.stages == [] {
      problems := problems + [NoStages(checked.name)];
      return;
    }
    checked := checked.(engine := ResolveEngine(checked.engine));
    var staged := CheckStagedBackend(checked.name, b, supportedTypes, advanced);
    problems := problems + staged;
    if checked.timeout.None? || checked.timeout.value <= 0 {
      checked := checked.(timeout := None);
    }
  }

  /** The checks `checkBackends` makes on a backend that has stages, `backend` being its fixed name. */
  method CheckStagedBackend(backend: string, b: Backend, supportedTypes: seq<string>, advanced: bool)
    returns (problems: seq<Problem>)
    ensures problems == StagedBackendProblems(backend, b, supportedTypes, advanced)
  {
    problems := [];
    // The engine is resolved before the type is checked; resolving keeps a
    // ViperServer engine a ViperServer engine.
    if IsViperServerEngine(ResolveEngine(b.engine)) && b.backendType !in supportedTypes {
      problems := problems + [UnsupportedType(backend, b.backendType, supportedTypes)];
    }
    assert problems == When(IsViperServerEngine(b.engine) && b.backendType !in supportedTypes,
      UnsupportedType(backend, b.backendType, supportedTypes));
    var stageProblems, stageNames := CheckStages(backend, b.stages, advanced);
    problems := problems + stageProblems;
    var targetProblems := CheckTargets(backend, b.stages, stageNames);
    problems := problems + targetProblems;
    if b.paths == [] {
      problems := problems + [NoPaths(backend)];
    }
    ghost var pathProblems := When(b.paths == [], NoPaths(backend));
    assert problems == When(IsViperServerEngine(b.engine) && b.backendType !in supportedTypes,
      UnsupportedType(backend, b.backendType, supportedTypes)) + stageProblems + targetProblems + pathProblems;
    if b.timeout.Some? && b.timeout.value < 0 {
      problems := problems + [NegativeTimeout(backend, b.timeout.value)];
    }
  }

  /** The first stage loop of `checkBackends`: what it reports and the set of stage names it collects. */
  method CheckStages(backend: string, stages: seq<Stage>, advanced: bool) returns (problems: seq<Problem>, names: set<string>)
    ensures problems == StagesProblems(backend, stages, advanced)
    ensures names == SeenStages(stages, |stages|)
  {
    problems := [];
    names := {};
    for i := 0 to |stages|
      invariant problems == Concat(StageParts(backend, stages, advanced), i)
      invariant names == SeenStages(stages, i)
    {
      var found := CheckStage(backend, stages[i], names, advanced);
      StagesStep(backend, stages, advanced, i, problems, names, found);
      problems := problems + found;
      if stages[i].name != "" {
        names := names + {stages[i].name};
      }
    }
  }

  /** One turn of the first stage loop, given the stage names collected so far. */
  lemma StagesStep(backend: string, stages: seq<Stage>, advanced: bool, i: nat,
                   acc: seq<Problem>, names: set<string>, found: seq<Problem>)
    requires i < |stages|
    requires acc == Concat(StageParts(backend, stages, advanced), i)
    requires names == SeenStages(stages, i)
    requires found == StageProblems(backend, stages[i], names, advanced)
    ensures acc + found == Concat(StageParts(backend, stages, advanced), i + 1)
    ensures SeenStages(stages, i + 1) == if stages[i].name == "" then names else names + {stages[i].name}
  {
    assert StageParts(backend, stages, advanced)(i) == found;
    ConcatStep(StageParts(backend, stages, advanced), i);
  }

  method CheckStage(backend: string, stage: Stage, names: set<string>, advanced: bool) returns (problems: seq<Problem>)
    ensures problems == StageProblems(backend, stage, names, advanced)
  {
    problems := [];
    if stage.name == "" {
      problems := problems + [UnnamedStage(backend)];
      return;
    }
    if stage.name in names {
      problems := problems + [DuplicateStage(backend, stage.name)];
    }
    assert problems == When(stage.name in names, DuplicateStage(backend, stage.name));
    if stage.mainMethod == "" {
      problems := problems + [MissingMain(backend, stage.name)];
    }
    assert problems == When(stage.name in names, DuplicateStage(backend, stage.name))
      + When(stage.mainMethod == "", MissingMain(backend, stage.name));
    if !HasArguments(stage) {
      problems := problems + [MissingArguments(backend, stage.name)];
      return;
    }
    var args := stage.customArguments.value;
    var hasAdvanced := Contains(args, "--ideModeAdvanced");
    var hasIdeMode := Contains(args, "--ideMode ");
    var flagProblems := [];
    if hasAdvanced && !hasIdeMode {
      flagProblems := flagProblems + [AdvancedNeedsIdeMode(backend, stage.name)];
    }
    assert flagProblems == When(hasAdvanced && !hasIdeMode, AdvancedNeedsIdeMode(backend, stage.name));
    if advanced && hasIdeMode && !hasAdvanced {
      flagProblems := flagProblems + [AdvancedOnly(backend, stage.name)];
    }
    assert flagProblems == When(hasAdvanced && !hasIdeMode, AdvancedNeedsIdeMode(backend, stage.name))
      + When(advanced && hasIdeMode && !hasAdvanced, AdvancedOnly(backend, stage.name));
    if !advanced && hasAdvanced {
      flagProblems := flagProblems + [AdvancedDisabled(backend, stage.name)];
    }
    problems := problems + flagProblems;
  }

  /** The second stage loop of `checkBackends`: each follow-up that names no stage. */
  method CheckTargets(backend: string, stages: seq<Stage>, names: set<string>) returns (problems: seq<Problem>)
    ensures problems == AllTargetProblems(backend, stages, names)
  {
    problems := [];
    for i := 0 to |stages|
      invariant problems == Concat(TargetParts(backend, stages, names), i)
    {
      var found := CheckFollowUps(backend, stages[i], names);
      TargetsStep(backend, stages, names, i, problems, found);
      problems := problems + found;
    }
  }

  lemma TargetsStep(backend: string, stages: seq<Stage>, names: set<string>, i: nat, acc: seq<Problem>, found: seq<Problem>)
    requires i < |stages|
    requires acc == Concat(TargetParts(backend, stages, names), i)
    requires found == TargetProblems(backend, stages[i], names)
    ensures acc + found == Concat(TargetParts(backend, stages, names), i + 1)
  {
    assert TargetParts(backend, stages, names)(i) == found;
    ConcatStep(TargetParts(backend, stages, names), i);
  }

  /** One turn of the second stage loop. */
  method CheckFollowUps(backend: string, s: Stage, names: set<string>) returns (problems: seq<Problem>)
    ensures problems == TargetProblems(backend, s, names)
  {
    problems := [];
    if Dangling(s.onParsingError, names) {
      problems := problems + [MissingTarget(backend, s.name, OnParsingError, s.onParsingError)];
    }
    ghost var w1 := When(Dangling(s.onParsingError, names), MissingTarget(backend, s.name, OnParsingError, s.onParsingError));
    assert problems == w1;
    if Dangling(s.onTypeCheckingError, names) {
      problems := problems + [MissingTarget(backend, s.name, OnTypeCheckingError, s.onTypeCheckingError)];
    }
    ghost var w2 := When(Dangling(s.onTypeCheckingError, names), MissingTarget(backend, s.name, OnTypeCheckingError, s.onTypeCheckingError));
    assert problems == w1 + w2;
    if Dangling(s.onVerificationError, names) {
      problems := problems + [MissingTarget(backend, s.name, OnVerificationError, s.onVerificationError)];
    }
    ghost var w3 := When(Dangling(s.onVerificationError, names), MissingTarget(backend, s.name, OnVerificationError, s.onVerificationError));
    assert problems == w1 + w2 + w3;
    if Dangling(s.onSuccess, names) {
      problems := problems + [MissingTarget(backend, s.name, OnSuccess, s.onSuccess)];
    }
  }
}

=== FILE: strings.dfy ===
/**
 * String helpers with the meaning of the JavaScript built-ins the source uses
 * (`indexOf`, `startsWith`, `endsWith`, `toLowerCase` on ASCII letters, decimal
 * `toString`).
 */
module Strings {

  /** `pat` occurs in `s` starting at index `k`. */
  predicate OccursAt(s: string, pat: string, k: int) {
    0 <= k && k + |pat| <= |s| && s[k..k + |pat|] == pat
  }

  /** `s.indexOf(pat, from)` for a non-empty pattern: the first occurrence at or after `from`, or -1. */
  function IndexOfFrom(s: string, pat: string, from: nat): (r: int)
    requires pat != []
    ensures r == -1 || (from <= r && OccursAt(s, pat, r))
    ensures r == -1 ==> forall k :: from <= k ==> !OccursAt(s, pat, k)
    ensures r != -1 ==> forall k :: from <= k < r ==> !OccursAt(s, pat, k)
    decreases |s| - from
  {
    if from + |pat| > |s| then -1
    else if s[from..from + |pat|] == pat then from
    else IndexOfFrom(s, pat, from + 1)
  }

  /** `s.indexOf(pat)`. */
  function IndexOf(s: string, pat: string): (r: int)
    requires pat != []
    ensures r == -1 || OccursAt(s, pat, r)
    ensures r == -1 <==> forall k :: !OccursAt(s, pat, k)
    ensures r != -1 ==> forall k :: k < r ==> !OccursAt(s, pat, k)
  {
    IndexOfFrom(s, pat, 0)
  }

  /** `s.indexOf(c, from)` for a single character. */
  function IndexOfChar(s: string, c: char, from: nat): (r: int)
    ensures r == -1 || (from <= r < |s| && s[r] == c)
    ensures r == -1 ==> forall k :: from <= k < |s| ==> s[k] != c
    ensures r != -1 ==> forall k :: from <= k < r ==> s[k] != c
    decreases |s| - from
  {
    if from >= |s| then -1
    else if s[from] == c then from
    else IndexOfChar(s, c, from + 1)
  }

  /** `pat` occurs in `s` at or after `from`. */
  predicate ContainsFrom(s: string, pat: string, from: nat)
    requires pat != []
    decreases |s| - from
  {
    from + |pat| <= |s| && (s[from..from + |pat|] == pat || ContainsFrom(s, pat, from + 1))
  }

  /** `s.indexOf(pat) >= 0`, written without the search's result so that it stays cheap to reason about. */
  predicate Contains(s: string, pat: string)
    requires pat != []
  {
    ContainsFrom(s, pat, 0)
  }

  lemma {:induction false} ContainsFromIndexOf(s: string, pat: string, from: nat)
    requires pat != []
    ensures ContainsFrom(s, pat, from) <==> IndexOfFrom(s, pat, from) >= 0
    decreases |s| - from
  {
    if from + |pat| <= |s| && s[from..from + |pat|] != pat {
      ContainsFromIndexOf(s, pat, from + 1);
    }
  }

  /** `Contains` is the test `s.indexOf(pat) >= 0`. */
  lemma ContainsIsIndexOf(s: string, pat: string)
    requires pat != []
    ensures Contains(s, pat) <==> IndexOf(s, pat) >= 0
  {
    ContainsFromIndexOf(s, pat, 0);
  }

  predicate StartsWith(s: string, prefix: string) {
    |prefix| <= |s| && s[..|prefix|] == prefix
  }

  predicate EndsWith(s: string, suffix: string) {
    |suffix| <= |s| && s[|s| - |suffix|..] == suffix
  }

  /** `toLowerCase` restricted to the ASCII letters. */
  function LowerChar(c: char): char {
    if 'A' <= c <= 'Z' then (c as int + 32) as char else c
  }

  function Lower(s: string): (r: string)
    ensures |r| == |s|
    ensures forall i :: 0 <= i < |s| ==> r[i] == LowerChar(s[i])
  {
    if s == [] then [] else [LowerChar(s[0])] + Lower(s[1..])
  }

  predicate IsDigit(c: char) {
    '0' <= c <= '9'
  }

  predicate AllDigits(s: string) {
    forall i :: 0 <= i < |s| ==> IsDigit(s[i])
  }

  /** The value of a string of decimal digits (`Number.parseInt` on such a string). */
  function DigitsValue(s: string): (n: nat)
    requires AllDigits(s)
  {
    if s == [] then 0 else 10 * DigitsValue(s[..|s| - 1]) + (s[|s| - 1] as int - '0' as int)
  }

  /** Decimal rendering of a natural number, as `String(n)` gives it. */
  function NatToString(n: nat): (r: string)
    ensures r != [] && AllDigits(r)
    ensures DigitsValue(r) == n
    ensures n > 0 ==> r[0] != '0'
  {
    if n < 10 then [('0' as int + n) as char]
    else
      var rest := NatToString(n / 10);
      var last := ('0' as int + n % 10) as char;
      assert (rest + [last])[..|rest + [last]| - 1] == rest;
      rest + [last]
  }

  /** Decimal rendering of an integer, with a leading '-' when negative. */
  function IntToString(i: int): (r: string)
    ensures r != []
  {
    if i < 0 then "-" + NatToString(-i) else NatToString(i)
  }

  /** JavaScript's `Array.prototype.join(",")` for strings. */
  function JoinComma(parts: seq<string>): string {
    if parts == [] then ""
    else if |parts| == 1 then parts[0]
    else parts[0] + "," + JoinComma(parts[1..])
  }

  /** The characters `String.prototype.trim` removes (white space and line terminators). */
  predicate IsJsWhitespace(c: char) {
    c == ' ' || c == '\t' || c == '\n' || c == '\r' || c == '\U{000B}' || c == '\U{000C}'
    || c == '\U{00A0}' || c == '\U{1680}' || ('\U{2000}' <= c <= '\U{200A}')
    || c == '\U{2028}' || c == '\U{2029}' || c == '\U{202F}' || c == '\U{205F}'
    || c == '\U{3000}' || c == '\U{FEFF}'
  }

  function TrimStart(s: string): (r: string)
    ensures |r| <= |s| && r == s[|s| - |r|..]
    ensures r != [] ==> !IsJsWhitespace(r[0])
    ensures forall i :: 0 <= i < |s| - |r| ==> IsJsWhitespace(s[i])
  {
    if s != [] && IsJsWhitespace(s[0]) then
      assert forall i :: 1 <= i < |s| ==> s[i] == s[1..][i - 1];
      TrimStart(s[1..])
    else s
  }

  function TrimEnd(s: string): (r: string)
    ensures |r| <= |s| && r == s[..|r|]
    ensures r != [] ==> !IsJsWhitespace(r[|r| - 1])
    ensures forall i :: |r| <= i < |s| ==> IsJsWhitespace(s[i])
  {
    if s != [] && IsJsWhitespace(s[|s| - 1]) then
      assert forall i :: 0 <= i < |s| - 1 ==> s[i] == s[..|s| - 1][i];
      TrimEnd(s[..|s| - 1])
    else s
  }

  /** `String.prototype.trim`. */
  function Trim(s: string): string {
    TrimEnd(TrimStart(s))
  }
}

=== FILE: version.dfy ===
/**
 * The `Version` class of server/src/Settings.ts: the settings-version hash
 * (an XOR cipher against a fixed key, written as two lower-case hex digits per
 * character and closed by a parity byte) and the comparison of version numbers.
 *
 * JavaScript strings are sequences of UTF-16 code units, so this module works on
 * `JsString = seq<CodeUnit>`.
 */
module Version {
  import opened Wrappers

  newtype CodeUnit = x: int | 0 <= x < 0x1_0000

  type JsString = seq<CodeUnit>

  /** All code units below 256, the range in which the hash round-trips. */
  predicate Narrow(s: JsString) {
    forall i :: 0 <= i < |s| ==> s[i] < 256
  }

  /** The key string "VdafSZVOWpe" as code units. */
  const Key: JsString := [86, 100, 97, 102, 83, 90, 86, 79, 87, 112, 101]

  /** Bitwise exclusive or of two naturals, bit by bit from the lowest. */
  function XorNat(a: nat, b: nat): nat
    decreases a + b
  {
    if a == 0 && b == 0 then 0 else 2 * XorNat(a / 2, b / 2) + (a % 2 + b % 2) % 2
  }

  /** Powers of two, for the width of a XOR. */
  function Pow2(n: nat): (p: nat)
    ensures p >= 1
  {
    if n == 0 then 1 else 2 * Pow2(n - 1)
  }

  lemma Pow2Widths()
    ensures Pow2(8) == 256 && Pow2(16) == 0x1_0000
  {
    assert Pow2(4) == 16;
    assert Pow2(8) == 256;
    assert Pow2(12) == 4096;
  }

  lemma {:induction false} XorNatBound(a: nat, b: nat, n: nat)
    requires a < Pow2(n) && b < Pow2(n)
    ensures XorNat(a, b) < Pow2(n)
    decreases a + b
  {
    if !(a == 0 && b == 0) {
      assert n > 0;
      XorNatBound(a / 2, b / 2, n - 1);
    }
  }

  lemma XorNatUnfold(a: nat, b: nat)
    ensures XorNat(a, b) == 2 * XorNat(a / 2, b / 2) + (a % 2 + b % 2) % 2
  {
  }

  lemma HalveTwice(q: nat, r: nat)
    requires r < 2
    ensures (2 * q + r) / 2 == q && (2 * q + r) % 2 == r
  {
  }

  lemma ParityBit(a: nat, k: nat)
    ensures ((a % 2 + k % 2) % 2 + k % 2) % 2 == a % 2
  {
  }

  lemma {:induction false} XorNatInvolution(a: nat, k: nat)
    ensures XorNat(XorNat(a, k), k) == a
    decreases a + k
  {
    if !(a == 0 && k == 0) {
      var q, r := XorNat(a / 2, k / 2), (a % 2 + k % 2) % 2;
      var x := XorNat(a, k);
      XorNatUnfold(a, k);
      HalveTwice(q, r);
      assert x / 2 == q && x % 2 == r;
      XorNatUnfold(x, k);
      XorNatInvolution(a / 2, k / 2);
      ParityBit(a, k);
      assert XorNat(x, k) == 2 * (a / 2) + a % 2;
    }
  }

  /** `char ^ keyChar` on 16-bit code units. */
  function Xor(a: CodeUnit, b: CodeUnit): CodeUnit {
    Pow2Widths();
    XorNatBound(a as nat, b as nat, 16);
    XorNat(a as nat, b as nat) as CodeUnit
  }

  lemma XorInvolution(a: CodeUnit, k: CodeUnit)
    ensures Xor(Xor(a, k), k) == a
  {
    XorNatInvolution(a as nat, k as nat);
  }

  lemma XorNarrow(a: CodeUnit, k: CodeUnit)
    requires a < 256 && k < 256
    ensures Xor(a, k) < 256
  {
    Pow2Widths();
    XorNatBound(a as nat, k as nat, 8);
  }

  /**
   * `key.charCodeAt(i % key.length)`; for an empty key this is NaN, which the
   * XOR operator reads as 0.
   */
  function KeyCode(key: JsString, i: nat): CodeUnit {
    if |key| == 0 then 0 else key[i % |key|]
  }

  // ---------------------------------------------------------------- hex digits

  /** The lower-case hex digit for 0 <= d < 16, as `Number.prototype.toString(16)` writes it. */
  function HexDigit(d: nat): CodeUnit
    requires d < 16
  {
    if d < 10 then (48 + d) as CodeUnit else (87 + d) as CodeUnit
  }

  /** `parseInt(c, 16)` on one character: its value, or None for NaN. */
  function HexValue(c: CodeUnit): (r: Option<nat>)
    ensures r.Some? ==> r.value < 16
    ensures r.Some? ==> c == HexDigit(r.value) || (10 <= r.value && c as int == HexDigit(r.value) as int - 32)
  {
    if 48 <= c <= 57 then Some(c as int - 48)
    else if 97 <= c <= 102 then Some(c as int - 87)
    else if 65 <= c <= 70 then Some(c as int - 55)
    else None
  }

  lemma HexDigitValue(d: nat)
    requires d < 16
    ensures HexValue(HexDigit(d)) == Some(d)
  {
  }

  /** `n.toString(16)`. */
  function Hex(n: nat): (r: JsString)
    ensures r != []
    decreases n
  {
    if n < 16 then [HexDigit(n)] else Hex(n / 16) + [HexDigit(n % 16)]
  }

  /** `Version.pad`: `n.toString(16)` with a leading "0" when it has one digit. */
  function Pad(n: nat): (r: JsString) {
    var s := Hex(n);
    (if |s| == 1 then [48 as CodeUnit] else []) + s
  }

  /** The two hex digits at positions 2j and 2j+1 of `c`, read as one byte (NaN as None). */
  function ByteAt(c: JsString, j: nat): (r: Option<nat>)
    requires 2 * j + 1 < |c|
    ensures r.Some? ==> r.value < 256
  {
    match (HexValue(c[2 * j]), HexValue(c[2 * j + 1]))
    case (Some(h), Some(l)) => Some(16 * h + l)
    case _ => None
  }

  /** Every one of the first `m` characters of `c` is a hex digit. */
  predicate HexUpTo(c: JsString, m: nat)
    requires m <= |c|
  {
    forall i :: 0 <= i < m ==> HexValue(c[i]).Some?
  }

  predicate AllHex(c: JsString) {
    HexUpTo(c, |c|)
  }

  lemma PadNarrow(n: nat)
    requires n < 256
    ensures |Pad(n)| == 2 && AllHex(Pad(n))
    ensures ByteAt(Pad(n), 0) == Some(n)
  {
    if n < 16 {
      HexDigitValue(n);
      HexDigitValue(0);
      assert Pad(n) == [48 as CodeUnit, HexDigit(n)];
    } else {
      HexDigitValue(n / 16);
      HexDigitValue(n % 16);
      assert Hex(n / 16) == [HexDigit(n / 16)];
      assert Pad(n) == [HexDigit(n / 16), HexDigit(n % 16)];
    }
  }

  // ------------------------------------------------------- the cipher, as values

  function CipherAt(msg: JsString, key: JsString, i: nat): CodeUnit
    requires i < |msg|
  {
    Xor(msg[i], KeyCode(key, i))
  }

  /** The padded cipher of the first `n` characters. */
  function EncodedPrefix(msg: JsString, key: JsString, n: nat): JsString
    requires n <= |msg|
  {
    if n == 0 then [] else EncodedPrefix(msg, key, n - 1) + Pad(CipherAt(msg, key, n - 1) as nat)
  }

  /** The running parity `(parity + cypher % 256) % 256` after `n` characters. */
  function ParityOf(msg: JsString, key: JsString, n: nat): (p: nat)
    requires n <= |msg|
    ensures p < 256
  {
    if n == 0 then 0 else (ParityOf(msg, key, n - 1) + (CipherAt(msg, key, n - 1) as int) % 256) % 256
  }

  /** The string `Version.encrypt(msg, key)` returns. */
  function Encrypted(msg: JsString, key: JsString): JsString {
    EncodedPrefix(msg, key, |msg|) + Pad(ParityOf(msg, key, |msg|))
  }

  // ----------------------------------------------------- the decipher, as values

  /** Parity of the first `n` bytes of a string whose first 2n characters are hex digits. */
  function DecodedParity(c: JsString, n: nat): (p: nat)
    requires 2 * n <= |c| && HexUpTo(c, 2 * n)
    ensures p < 256
  {
    if n == 0 then 0 else (DecodedParity(c, n - 1) + ByteAt(c, n - 1).value % 256) % 256
  }

  /** The first `n` bytes of `c`, each XORed with its key character. */
  function DecodedPrefix(c: JsString, key: JsString, n: nat): (r: JsString)
    requires 2 * n <= |c| && HexUpTo(c, 2 * n)
    ensures |r| == n
  {
    if n == 0 then []
    else
      var b := ByteAt(c, n - 1).value;
      assert b < 256;
      DecodedPrefix(c, key, n - 1) + [Xor(b as CodeUnit, KeyCode(key, n - 1))]
  }

  /**
   * The string `Version.decrypt(c, key)` returns: "" for an input that is shorter
   * than 2, of odd length, holds a non-hex character (NaN makes the parity test
   * fail) or whose last byte is not the parity of the others.
   */
  function Decrypted(c: JsString, key: JsString): JsString {
    if |c| < 2 || |c| % 2 != 0 || !AllHex(c) then []
    else if DecodedParity(c, |c| / 2 - 1) != ByteAt(c, |c| / 2 - 1).value then []
    else DecodedPrefix(c, key, |c| / 2 - 1)
  }

  // ------------------------------------------------------------- the two loops

  /** `Version.encrypt`. */
  method Encrypt(msg: JsString, key: JsString) returns (res: JsString)
    ensures res == Encrypted(msg, key)
  {
    res := [];
    var parity: nat := 0;
    for i := 0 to |msg|
      invariant res == EncodedPrefix(msg, key, i)
      invariant parity == ParityOf(msg, key, i)
    {
      var keyChar := KeyCode(key, i);
      var cypher := Xor(msg[i], keyChar);
      parity := (parity + (cypher as int) % 256) % 256;
      res := res + Pad(cypher as nat);
    }
    res := res + Pad(parity);
  }

  /** `Version.hash`: the settings-version hash of a version string. */
  method Hash(version: JsString) returns (hash: JsString)
    ensures hash == Encrypted(version, Key)
    ensures Narrow(version) ==> |hash| == 2 * |version| + 2 && Decrypted(hash, Key) == version
  {
    hash := Encrypt(version, Key);
    if Narrow(version) {
      DecryptEncrypt(version, Key);
    }
  }

  /** One step of the running parity; a NaN byte makes it NaN for good. */
  function NextParity(parity: Option<nat>, ch: Option<nat>): Option<nat> {
    match (parity, ch)
    case (Some(p), Some(b)) => Some((p + b % 256) % 256)
    case _ => None
  }

  /** The code unit `char ^ keyChar` starts from: the byte, or 0 for NaN. */
  function CodeOf(ch: Option<nat>): CodeUnit
    requires ch.Some? ==> ch.value < 256
  {
    match ch
    case Some(b) => b as CodeUnit
    case None => 0
  }

  /** `Version.decrypt`; `parseInt` NaN results are carried as None. */
  method Decrypt(cypher: JsString, key: JsString) returns (res: JsString)
    ensures res == Decrypted(cypher, key)
  {
    res := [];
    if |cypher| < 2 || |cypher| % 2 != 0 {
      return [];
    }
    var parity: Option<nat> := Some(0);
    var i := 0;
    ghost var j := 0;
    while i < |cypher| - 2
      invariant i == 2 * j && i <= |cypher| - 2
      invariant HexUpTo(cypher, i) ==> parity == Some(DecodedParity(cypher, j)) && res == DecodedPrefix(cypher, key, j)
      invariant !HexUpTo(cypher, i) ==> parity == None
    {
      assert i / 2 == j;
      var keyChar := KeyCode(key, i / 2);
      var ch := ByteAt(cypher, i / 2);
      DecryptStep(cypher, key, j, parity, res);
      parity := NextParity(parity, ch);
      res := res + [Xor(CodeOf(ch), keyChar)];
      i, j := i + 2, j + 1;
    }
    var last := ByteAt(cypher, |cypher| / 2 - 1);
    assert j == |cypher| / 2 - 1;
    HexUpToStep(cypher, j);
    if parity.None? || last.None? || parity.value != last.value {
      res := [];
    }
  }

  /** The decrypt loop's invariant survives one more pair of hex digits. */
  lemma DecryptStep(c: JsString, key: JsString, j: nat, parity: Option<nat>, res: JsString)
    requires 2 * j + 2 <= |c|
    requires HexUpTo(c, 2 * j) ==> parity == Some(DecodedParity(c, j)) && res == DecodedPrefix(c, key, j)
    requires !HexUpTo(c, 2 * j) ==> parity == None
    ensures HexUpTo(c, 2 * j + 2) ==>
      && NextParity(parity, ByteAt(c, j)) == Some(DecodedParity(c, j + 1))
      && res + [Xor(CodeOf(ByteAt(c, j)), KeyCode(key, j))] == DecodedPrefix(c, key, j + 1)
    ensures !HexUpTo(c, 2 * j + 2) ==> NextParity(parity, ByteAt(c, j)) == None
  {
    HexUpToStep(c, j);
  }

  // ---------------------------------------------- helper for the decrypt loop

  /** Two more hex digits extend the hex prefix by one byte. */
  lemma HexUpToStep(c: JsString, j: nat)
    requires 2 * j + 2 <= |c|
    ensures HexUpTo(c, 2 * j + 2) <==> HexUpTo(c, 2 * j) && ByteAt(c, j).Some?
  {
    if HexUpTo(c, 2 * j) && ByteAt(c, j).Some? {
      assert HexValue(c[2 * j]).Some? && HexValue(c[2 * j + 1]).Some?;
    }
  }

  // ------------------------------------------------------------ the round trip

  /** `c` is exactly the two-digit hex spelling of `bytes`. */
  predicate Spells(c: JsString, bytes: seq<nat>) {
    |c| == 2 * |bytes| && AllHex(c) && forall j :: 0 <= j < |bytes| ==> ByteAt(c, j) == Some(bytes[j])
  }

  lemma ByteAtAppend(s: JsString, t: JsString, j: nat)
    requires |s| % 2 == 0 && 2 * j + 1 < |s| + |t|
    ensures 2 * j + 1 < |s| ==> ByteAt(s + t, j) == ByteAt(s, j)
    ensures 2 * j >= |s| ==> ByteAt(s + t, j) == ByteAt(t, j - |s| / 2)
  {
  }

  lemma SpellsAppend(s: JsString, bs: seq<nat>, t: JsString, bt: seq<nat>)
    requires Spells(s, bs) && Spells(t, bt)
    ensures Spells(s + t, bs + bt)
  {
    forall k | 0 <= k < |s + t| ensures HexValue((s + t)[k]).Some? {
      if k < |s| { assert (s + t)[k] == s[k]; } else { assert (s + t)[k] == t[k - |s|]; }
    }
    forall j | 0 <= j < |bs + bt| ensures ByteAt(s + t, j) == Some((bs + bt)[j]) {
      ByteAtAppend(s, t, j);
      if j < |bs| {
        assert (bs + bt)[j] == bs[j];
      } else {
        assert (bs + bt)[j] == bt[j - |bs|];
      }
    }
  }

  lemma PadSpells(n: nat)
    requires n < 256
    ensures Spells(Pad(n), [n])
  {
    PadNarrow(n);
  }

  /** The cipher bytes of the first `n` characters. */
  function CipherBytes(msg: JsString, key: JsString, n: nat): (r: seq<nat>)
    requires n <= |msg|
    ensures |r| == n
  {
    seq(n, j requires 0 <= j < n => CipherAt(msg, key, j) as nat)
  }

  /** For narrow input every character becomes two hex digits holding its cipher byte. */
  lemma {:induction false} EncodedPrefixShape(msg: JsString, key: JsString, n: nat)
    requires n <= |msg| && Narrow(msg) && Narrow(key)
    ensures Spells(EncodedPrefix(msg, key, n), CipherBytes(msg, key, n))
  {
    if n == 0 {
      assert CipherBytes(msg, key, 0) == [];
    } else {
      EncodedPrefixShape(msg, key, n - 1);
      var c := CipherAt(msg, key, n - 1);
      assert KeyCode(key, n - 1) < 256;
      XorNarrow(msg[n - 1], KeyCode(key, n - 1));
      PadSpells(c as nat);
      SpellsAppend(EncodedPrefix(msg, key, n - 1), CipherBytes(msg, key, n - 1), Pad(c as nat), [c as nat]);
      assert CipherBytes(msg, key, n) == CipherBytes(msg, key, n - 1) + [c as nat];
    }
  }

  /** The hash of a narrow string spells its cipher bytes followed by their parity. */
  lemma EncryptedShape(msg: JsString, key: JsString)
    requires Narrow(msg) && Narrow(key)
    ensures Spells(Encrypted(msg, key), CipherBytes(msg, key, |msg|) + [ParityOf(msg, key, |msg|)])
  {
    EncodedPrefixShape(msg, key, |msg|);
    PadSpells(ParityOf(msg, key, |msg|));
    SpellsAppend(EncodedPrefix(msg, key, |msg|), CipherBytes(msg, key, |msg|),
                 Pad(ParityOf(msg, key, |msg|)), [ParityOf(msg, key, |msg|)]);
  }

  /** The byte spelling the cipher of a narrow character decodes back to that character. */
  lemma DecodeByte(c: JsString, msg: JsString, key: JsString, j: nat)
    requires 2 * j + 1 < |c| && j < |msg| && Narrow(msg) && Narrow(key)
    requires ByteAt(c, j) == Some(CipherAt(msg, key, j) as nat)
    ensures ByteAt(c, j).value < 256
    ensures Xor(ByteAt(c, j).value as CodeUnit, KeyCode(key, j)) == msg[j]
  {
    var k := KeyCode(key, j);
    assert k < 256;
    XorNarrow(msg[j], k);
    XorInvolution(msg[j], k);
  }

  /** The parity of the decoded bytes is the parity the encoder computed. */
  lemma {:induction false} DecodedParityOfBytes(c: JsString, msg: JsString, key: JsString, n: nat)
    requires 2 * n <= |c| && HexUpTo(c, 2 * n) && n <= |msg|
    requires forall j :: 0 <= j < n ==> ByteAt(c, j) == Some(CipherAt(msg, key, j) as nat)
    ensures DecodedParity(c, n) == ParityOf(msg, key, n)
  {
    if n > 0 {
      assert HexUpTo(c, 2 * (n - 1));
      DecodedParityOfBytes(c, msg, key, n - 1);
      assert ByteAt(c, n - 1) == Some(CipherAt(msg, key, n - 1) as nat);
    }
  }

  /** The decoded bytes, XORed with the key again, are the message. */
  lemma {:induction false} DecodedPrefixOfBytes(c: JsString, msg: JsString, key: JsString, n: nat)
    requires 2 * n <= |c| && HexUpTo(c, 2 * n) && n <= |msg| && Narrow(msg) && Narrow(key)
    requires forall j :: 0 <= j < n ==> ByteAt(c, j) == Some(CipherAt(msg, key, j) as nat)
    ensures DecodedPrefix(c, key, n) == msg[..n]
  {
    if n > 0 {
      assert HexUpTo(c, 2 * (n - 1));
      DecodedPrefixOfBytes(c, msg, key, n - 1);
      DecodeByte(c, msg, key, n - 1);
      assert msg[..n] == msg[..n - 1] + [msg[n - 1]];
    }
  }

  /** What a spelling of the cipher bytes and one more byte says about each byte. */
  lemma SpelledBytes(c: JsString, msg: JsString, key: JsString, last: nat)
    requires Spells(c, CipherBytes(msg, key, |msg|) + [last])
    ensures |c| == 2 * |msg| + 2 && AllHex(c) && HexUpTo(c, 2 * |msg|)
    ensures forall j :: 0 <= j < |msg| ==> ByteAt(c, j) == Some(CipherAt(msg, key, j) as nat)
    ensures ByteAt(c, |msg|) == Some(last)
  {
    var bytes := CipherBytes(msg, key, |msg|) + [last];
    forall j | 0 <= j < |msg| ensures ByteAt(c, j) == Some(CipherAt(msg, key, j) as nat) {
      assert bytes[j] == CipherAt(msg, key, j) as nat;
    }
    assert ByteAt(c, |msg|) == Some(bytes[|msg|]);
  }

  /** Decrypting a string that spells the cipher bytes of `msg` and then `last`. */
  lemma DecryptSpelled(c: JsString, msg: JsString, key: JsString, last: nat)
    requires Narrow(msg) && Narrow(key)
    requires Spells(c, CipherBytes(msg, key, |msg|) + [last])
    ensures Decrypted(c, key) == if last == ParityOf(msg, key, |msg|) then msg else []
  {
    SpelledBytes(c, msg, key, last);
    DecodedParityOfBytes(c, msg, key, |msg|);
    DecodedPrefixOfBytes(c, msg, key, |msg|);
    assert |c| / 2 - 1 == |msg|;
    assert msg[..|msg|] == msg;
  }

  /** Round trip: decrypting the hash of a narrow string with the same key gives it back. */
  lemma DecryptEncrypt(msg: JsString, key: JsString)
    requires Narrow(msg) && Narrow(key)
    ensures |Encrypted(msg, key)| == 2 * |msg| + 2
    ensures Decrypted(Encrypted(msg, key), key) == msg
  {
    EncryptedShape(msg, key);
    DecryptSpelled(Encrypted(msg, key), msg, key, ParityOf(msg, key, |msg|));
  }

  /** Replacing the parity byte of a hash by any other byte makes it decrypt to "". */
  lemma TamperedParityRejected(msg: JsString, key: JsString, q: nat)
    requires Narrow(msg) && Narrow(key) && q < 256 && q != ParityOf(msg, key, |msg|)
    ensures Decrypted(EncodedPrefix(msg, key, |msg|) + Pad(q), key) == []
  {
    EncodedPrefixShape(msg, key, |msg|);
    PadSpells(q);
    SpellsAppend(EncodedPrefix(msg, key, |msg|), CipherBytes(msg, key, |msg|), Pad(q), [q]);
    DecryptSpelled(EncodedPrefix(msg, key, |msg|) + Pad(q), msg, key, q);
  }

  // ---------------------------------------------------------- version numbers

  /**
   * `Version.compare` of `a` (this) with `b` (other), continuing at index `i`:
   * 1 when this is larger, -1 when other is larger, 0 when equal.
   */
  function CompareFrom(a: seq<nat>, b: seq<nat>, i: nat): (r: int)
    requires i <= |a| && i <= |b|
    ensures r == -1 || r == 0 || r == 1
    decreases |a| - i
  {
    if i == |a| then (if |a| < |b| then -1 else 0)
    else if i >= |b| then 1
    else if a[i] > b[i] then 1
    else if a[i] < b[i] then -1
    else CompareFrom(a, b, i + 1)
  }

  function Compare(a: seq<nat>, b: seq<nat>): (r: int)
    ensures r == -1 || r == 0 || r == 1
  {
    CompareFrom(a, b, 0)
  }

  /** Independent reference: `a` comes strictly before `b` in lexicographic order. */
  ghost predicate LexLess(a: seq<nat>, b: seq<nat>) {
    (|a| < |b| && a == b[..|a|])
    || exists k :: 0 <= k < |a| && k < |b| && a[..k] == b[..k] && a[k] < b[k]
  }

  lemma {:induction false} CompareFromZero(a: seq<nat>, b: seq<nat>, i: nat)
    requires i <= |a| && i <= |b| && a[..i] == b[..i]
    ensures CompareFrom(a, b, i) == 0 <==> a == b
    decreases |a| - i
  {
    if i == |a| {
      if |a| == |b| { assert a == a[..i] && b == b[..i]; }
    } else if i < |b| && a[i] == b[i] {
      assert a[..i + 1] == a[..i] + [a[i]] && b[..i + 1] == b[..i] + [b[i]];
      CompareFromZero(a, b, i + 1);
    } else if i < |b| {
      assert a[i] != b[i];
    }
  }

  /** `compare` is 0 exactly on equal version lists. */
  lemma CompareZeroIffEqual(a: seq<nat>, b: seq<nat>)
    ensures Compare(a, b) == 0 <==> a == b
  {
    CompareFromZero(a, b, 0);
  }

  lemma {:induction false} CompareFromAntisymmetric(a: seq<nat>, b: seq<nat>, i: nat)
    requires i <= |a| && i <= |b|
    ensures CompareFrom(a, b, i) == -CompareFrom(b, a, i)
    decreases |a| - i
  {
    if i < |a| && i < |b| && a[i] == b[i] {
      CompareFromAntisymmetric(a, b, i + 1);
    }
  }

  /** Swapping the operands negates the result. */
  lemma CompareAntisymmetric(a: seq<nat>, b: seq<nat>)
    ensures Compare(a, b) == -Compare(b, a)
  {
    CompareFromAntisymmetric(a, b, 0);
  }

  lemma {:induction false} CompareFromExtension(a: seq<nat>, t: seq<nat>, i: nat)
    requires t != [] && i <= |a|
    ensures CompareFrom(a + t, a, i) == 1
    decreases |a| - i
  {
    if i < |a| {
      assert (a + t)[i] == a[i];
      CompareFromExtension(a, t, i + 1);
    }
  }

  /** A list that extends another compares larger than it. */
  lemma CompareExtension(a: seq<nat>, t: seq<nat>)
    requires t != []
    ensures Compare(a + t, a) == 1
  {
    CompareFromExtension(a, t, 0);
  }

  /** Below `i` the lists agree, so no position before `i` can decide `LexLess`. */
  lemma AgreeBelow(a: seq<nat>, b: seq<nat>, i: nat)
    requires i <= |a| && i <= |b| && a[..i] == b[..i]
    ensures forall k :: 0 <= k < i ==> a[k] == b[k]
  {
    forall k | 0 <= k < i ensures a[k] == b[k] {
      assert a[k] == a[..i][k];
      assert b[k] == b[..i][k];
    }
  }

  lemma {:induction false} CompareFromLess(a: seq<nat>, b: seq<nat>, i: nat)
    requires i <= |a| && i <= |b| && a[..i] == b[..i]
    ensures CompareFrom(a, b, i) == -1 <==> LexLess(a, b)
    decreases |a| - i
  {
    AgreeBelow(a, b, i);
    if i == |a| {
      if |a| < |b| {
        assert a == b[..|a|];
      } else {
        assert a == a[..i] == b[..i] == b;
      }
    } else if i >= |b| {
      assert !(|a| < |b|);
    } else if a[i] < b[i] {
      assert a[..i] == b[..i] && a[i] < b[i];
    } else if a[i] > b[i] {
      if |a| < |b| {
        assert b[..|a|][i] == b[i];
      }
      forall k | 0 <= k < |a| && k < |b| && k > i
        ensures a[..k] != b[..k]
      {
        assert a[..k][i] == a[i] && b[..k][i] == b[i];
      }
    } else {
      assert a[..i + 1] == a[..i] + [a[i]] && b[..i + 1] == b[..i] + [b[i]];
      CompareFromLess(a, b, i + 1);
    }
  }

  /** `compare` answers -1 exactly when the first list is lexicographically smaller. */
  lemma CompareIsLexicographic(a: seq<nat>, b: seq<nat>)
    ensures Compare(a, b) == -1 <==> LexLess(a, b)
  {
    CompareFromLess(a, b, 0);
  }
}

=== FILE: wrappers.dfy ===
/** The optional value used wherever the source has `null` or `undefined`. */
module Wrappers {
  datatype Option<+T> = None | Some(value: T) {
    function GetOr(default: T): T {
      match this
      case Some(v) => v
      case None => default
    }
  }
}
